=== FILE: README.md ===
# Attendance kiosk core, modelled in Dafny

This project models the decision logic of a face-recognition attendance
kiosk. The kiosk has five parts:

- A Flask server records attendance and enrolls people.
- A Qt window shows the camera, the room counts and server messages.
- A Unix-socket IPC link joins the two.
- A bulk import script loads people from a JSON array.
- An older standalone console recogniser keeps a JSON id-to-name map.

Everything around the decisions becomes a parameter of a pure function:

- the face SDK (detection, feature extraction, the FeatureHub);
- the SQLite database;
- HTTP requests, the disk and the camera.

Each part is one module:

- `AttendanceTracker` (`attendance_tracker.dfy`)
  - The per-session tracker that decides when a person counts as present for the first time.
  - The gate in `recognize_faces` that sends `person-recognized` at most once per person and session.
- `Enrollment` (`enrollment.dfy`): `add_face` with its FaceIdentityMap upsert.
- `Faces` (`faces.dfy`): the largest-face choice.
- `Dispatch`, `Broker` and `Peer` (`dispatch.dfy`, `broker.dfy`, `peer.dfy`)
  - The IPC server and client as sequential bookkeeping.
  - Client lists, FIFO send queues and stop flags.
  - Handler fan-out with exceptions isolated per handler.
  - The client's connection-status events.
- `Sessions` (`sessions.dfy`): the session table.
  - Creating a session closes every other open one.
  - Listing sessions, and finding the current one.
- `ApiServer` (`api_server.dfy`): the server routes and the IPC callback.
  - `ipc_send`.
  - `_handle_ipc_message` with the remote attendance sync.
  - `enroll`.
- `PeopleApi` (`people_api.dfy`): `add_person` and `delete_person`.
- `Images` (`images.dfy`): the image fetch the server routes share.
- `BulkImport` (`bulk_import.dfy`): the import script's window, per-record classification, counters and exit code.
- `UiApp` (`ui_app.dfy`): the window's decisions.
  - How messages are shown.
  - Session gating.
  - Room counts with the optimistic overlay.
  - Polling the current session.
- `LegacyRecognizer` (`legacy_recognizer.dfy`): the console recogniser.
  - Its name map: load, save, enrol, register from JSON, delete.
  - Per-face names.
  - The 16-column frame padding.
- `Timestamps` (`timestamps.dfy`): the timestamp helpers.
- `Values`, `Text` and `Effects` (`values.dfy`, `text.dfy`, `effects.dfy`): shared helpers.
  - JSON values, Python truthiness and Python's `==` on them.
  - String functions with Python's meaning.
  - The effect traces that the handlers return.

The handlers return their reply together with the ordered list of effects they performed:

- downloads, file writes and removals;
- row writes;
- broadcasts;
- FeatureHub calls.

That list is what lets a contract state properties such as "the broadcast comes last" or "only a file downloaded by this request is removed".

## Model

| member | source | states |
|---|---|---|
| Text.PyStr | src/ui/app.py:200 | str() of a string is itself. str() of an integer is decimal text that int() reads back as the same integer. Booleans give True or False and null gives None. |
| Timestamps.TruncateToMillis | src/utils.py:6-12 | The microseconds kept are a multiple of 1000. They are at most the original and less than 1000 below it. |
| Timestamps.SpaceToT | src/utils.py:21-22 | Only the first space becomes 'T'. Every character before it is unchanged and not a space, and every character after it is unchanged. |
| Timestamps.ZuluToOffset | src/utils.py:23-24 | A trailing Z becomes "+00:00" and the prefix is kept. Text without a trailing Z is unchanged. |
| Timestamps.StringToTimestamp | src/utils.py:15-26 | None exactly for None or "". Otherwise the stripped, T-joined, Z-converted text is what gets parsed. |
| Timestamps.PythonStringToTimestamp | src/utils.py:29-34 | None exactly for None or "". Otherwise the input is parsed without any normalisation. |
| Timestamps.NormalizeRemovesOneSpace | src/utils.py:19-24 | Normalisation removes exactly one space, the first, when the stripped text has one, and none otherwise. |
| Timestamps.NormalizeKeepsIsoText | src/utils.py:19-24 | Text already in ISO form reaches the parser unchanged. |
| Timestamps.ConvertTimestamp | src/utils.py:15-26 | null and "" give no timestamp. A non-string value raises. Otherwise the result is the parser's result on the normalised text, and a parse failure raises. |
| Faces.FirstLargest | face_recognizer.py:199-203 | The index of the first face whose area no face exceeds, with every earlier face strictly smaller, as Python's max keeps the first maximum. |
| Faces.LargestFace | src/core/face_recognizer.py:314-323 | No face is chosen exactly when none was detected. Otherwise the choice is the first face of maximal (x2-x1)*(y2-y1) area. |
| AttendanceTracker.SetCurrentSession | src/core/face_recognizer.py:102-117 | The current session becomes the given one. Every recorded set is kept. None adds nothing, and an unseen id gets a fresh empty set. Re-selecting the current id changes nothing. |
| AttendanceTracker.AddAttendanceIfNew | src/core/face_recognizer.py:119-133 | Returns True exactly when a session is set and the person is not yet in its set, and then adds the person. A False return leaves the state unchanged. |
| AttendanceTracker.Snapshot | src/core/face_recognizer.py:135-145 | Empty without a session. Otherwise it is the current session's set, or empty if that session has none. |
| AttendanceTracker.TruthyIds | src/core/face_recognizer.py:160-162 | The ids that are seeded are exactly the non-empty ids of the input. |
| AttendanceTracker.SeedForSession | src/core/face_recognizer.py:147-163 | A no-op for a falsy session id or an empty list. Otherwise only that session's set changes, and it grows by exactly the truthy ids. |
| AttendanceTracker.SeedCurrentSession | src/core/face_recognizer.py:164-166 | Without a current session or without ids nothing changes. Otherwise the current session's snapshot grows by exactly the non-empty ids, and every other session keeps its marks. |
| AttendanceTracker.SetSameSessionIsNoOp | src/core/face_recognizer.py:108-109 | Setting the current session again leaves the tracker unchanged. |
| AttendanceTracker.ReturningKeepsMarks | src/core/face_recognizer.py:111-117 | Leaving a session and returning to it keeps the marks made in it. |
| AttendanceTracker.SecondRecordIsRejected | src/core/face_recognizer.py:127-133 | A repeated record of the same person returns False and changes nothing. |
| AttendanceTracker.RecordGrowsSnapshot | src/core/face_recognizer.py:127-133 | Recording adds exactly that person to the snapshot. |
| AttendanceTracker.SeededIdIsNotNew | src/core/face_recognizer.py:150-166 | An id seeded for the current session is never reported as new. |
| AttendanceTracker.TrueExactlyOnce | src/core/face_recognizer.py:119-133 | Over any stream of recognitions, True is returned for a person exactly once if a session is set and the person starts unmarked, and never otherwise. The final snapshot is the old one plus the stream. |
| AttendanceTracker.FirstAbort | src/core/face_recognizer.py:241-289 | The position of the first matched face whose database lookup raises. No earlier face raises. |
| AttendanceTracker.RecognizeOne | src/core/face_recognizer.py:241-293 | A matched face whose lookup raises ends the frame. Otherwise a face yields a new person only when a session is set, the face resolves through FaceIdentityMap and Person, and that person was unmarked. The person is then marked. Every such face yields one. |
| AttendanceTracker.RecognizeAll | src/core/face_recognizer.py:241-302 | The faces are processed up to the first lookup that raises, and the result says whether one did. Without a session nothing is marked. The persons announced are distinct and were unmarked before. The snapshot grows by exactly them. |
| AttendanceTracker.AbortKeepsEarlierMarks | src/core/face_recognizer.py:241-289 | A raising lookup keeps the marks of the faces before it, exactly as if the frame had ended there. |
| AttendanceTracker.RecognizeFrame | src/core/face_recognizer.py:200-305 | A failed detection skips the frame. A raising lookup ends the frame with nothing drawn. Otherwise each detected face gets one name and one confidence. One person-recognized message goes out per first-time person, with the current session id and that message's own ist_timestamp() reading. The callback gets the same persons. The tracker afterwards holds the marks the faces made. |
| AttendanceTracker.NoRepeatAcrossFrames | src/core/face_recognizer.py:266-289 | Nobody announced in one frame is announced again in the next frame of the same session. |
| AttendanceTracker.AbortedFrameKeepsEarlierMarks | src/core/face_recognizer.py:241-289 | A frame that a lookup ends keeps the marks, messages and callbacks of the faces before it. Those faces alone make a frame that completes. |
| Enrollment.ReplaceMapping | src/core/face_recognizer.py:337-339 | REPLACE on (hubId primary key, personId unique). The new hub id maps to the person, every other row naming that person is dropped, and other rows stay. One hub id per person is preserved. |
| Enrollment.AddFace | src/core/face_recognizer.py:307-346 | The call raises iff the hub insert succeeded, a person id was given, and the mapping insert failed. The hub entry then stays, no id is returned and the mapping is unchanged. Otherwise an id is returned iff a face was detected, its feature extracted and the hub insert succeeded. The mapping changes only then, and only with a person id. |
| Enrollment.ReenrollMovesPerson | src/core/face_recognizer.py:331-339 | Enrolling a person twice leaves exactly one hub id, the newer one, resolving to them. |
| LegacyRecognizer.ParseKeys | face_recognizer.py:108-111 | Each JSON key is passed through int() and the value is kept, in file order. |
| LegacyRecognizer.ConvertKeys | face_recognizer.py:108-111 | The conversion succeeds iff every key is an integer. |
| LegacyRecognizer.ConvertKeysDomain | face_recognizer.py:108-111 | The loaded map has exactly the converted keys. |
| LegacyRecognizer.ConvertKeysLastWins | face_recognizer.py:108-111 | When two keys convert to the same integer, the later pair in the file wins. |
| LegacyRecognizer.LoadIdMap | face_recognizer.py:106-121 | The JSON file wins when present, then the pickle file. With neither, the map is empty. |
| LegacyRecognizer.SaveIdMap | face_recognizer.py:123-127 | Entry i is (str(key), value) for the i-th key in iteration order. |
| LegacyRecognizer.SavedKeysParse | face_recognizer.py:108-127 | Keys that were written back parse to the original integer ids. |
| LegacyRecognizer.ConvertKnownPairs | face_recognizer.py:108-111 | Converting the saved pairs rebuilds the map restricted to the saved keys. |
| LegacyRecognizer.LoadAfterSave | face_recognizer.py:106-127 | Loading what was saved gives back the same map. |
| LegacyRecognizer.RecognizeNames | face_recognizer.py:165-184 | One name and one confidence per face. An unmatched face gives "Unknown" and 0.0. A match gets the hub's confidence and the name as recorded, or "Unknown" if the map lacks the id. |
| LegacyRecognizer.Enrol | face_recognizer.py:216-222 | The map gains new_id -> name only on a successful insert. Other entries are unchanged. |
| LegacyRecognizer.AddFaceLegacy | face_recognizer.py:189-222 | The largest face is chosen. The map changes only with a face, a feature, a non-empty typed name and a successful insert. |
| LegacyRecognizer.RecordName | face_recognizer.py:240-245 | A record passes iff its preferredName and picture are truthy. The name is the preferredName value, of whatever JSON kind. |
| LegacyRecognizer.RegisterOne | face_recognizer.py:239-293 | A record without a name or picture, or whose name equals a map value under Python's ==, changes nothing. A change needs every step to succeed. When every step succeeds, any other passing record is enrolled under its name, a non-string one included. Names stay distinct. A non-object record raises. |
| LegacyRecognizer.RegisterFrom | face_recognizer.py:239-295 | The loop raises iff some remaining record is not an object. Keys are only added. Names stay distinct. |
| LegacyRecognizer.RegisterFromJson | face_recognizer.py:224-295 | A missing or invalid file returns with the map unchanged. Other non-array values iterate to an exception with the map unchanged. Names stay distinct. |
| LegacyRecognizer.RegistrationKeepsNamesDistinct | face_recognizer.py:247-249 | Registration never records two names that Python's == calls equal, whatever the hub returns. |
| Values.PyEqSymmetric | face_recognizer.py:247 | Python's == on JSON values, with True == 1, does not depend on operand order. |
| LegacyRecognizer.DeleteFace | face_recognizer.py:297-324 | Hub removal is called iff the map is non-empty and the typed text is an integer id present in it. The map loses exactly that id iff removal succeeds. Other entries are unchanged. |
| LegacyRecognizer.DeleteUndoesEnrol | face_recognizer.py:297-324 | Typing the id just enrolled, when the hub removes it, calls removal with that id and gives back the map from before the enrolment. |
| LegacyRecognizer.PadX | face_recognizer.py:364-365 | pad_x is below 16 and aligns width+pad_x to 16. No smaller padding aligns it. |
| LegacyRecognizer.PaddedWidth | face_recognizer.py:362-375 | The padded width is a multiple of 16, below width+16. It equals the width iff the width was already aligned. |
| Dispatch.Fan | src/ipc/socket_server.py:131-135 | Every handler is called once, in registration order, with the same payload. Each raise is recorded and does not stop the rest. |
| Dispatch.FanIgnoresRaises | src/ipc/socket_server.py:131-135 | Which handlers run, in which order and on which payload, does not depend on which of them raise. |
| Dispatch.FanAppend | src/ipc/socket_server.py:131-135 | A handler added last runs after all earlier ones. |
| Dispatch.FirstEnd | src/ipc/socket_server.py:118-121 | The position where the receive loop stops: no earlier chunk ends it. |
| Dispatch.MalformedIsSkipped | src/ipc/socket_server.py:137-139 | Invalid JSON is skipped without ending the loop or changing what is delivered. |
| Dispatch.NothingAfterEnd | src/ipc/socket_server.py:118-121 | Nothing read after an empty read or a receive error is delivered. |
| Broker.NewServer | src/ipc/socket_server.py:12-22 | A new server has no clients, no handlers and no socket file, and is not running. |
| Broker.Start | src/ipc/socket_server.py:24-33 | Binding fails while the socket file exists. Otherwise the server runs and listens, and clients and handlers are unchanged. |
| Broker.StopClient | src/ipc/socket_server.py:110-113 | The stop event is set and the queue is untouched. |
| Broker.Stop | src/ipc/socket_server.py:35-49 | The server stops, every client is stopped, the list is emptied and the socket file is removed. Handlers are kept. |
| Broker.StopIsIdempotent | src/ipc/socket_server.py:35-49 | Stopping twice is the same as stopping once. |
| Broker.SendMessage | src/ipc/socket_server.py:105-108 | A message to a stopped client is dropped and its queue is unchanged. Otherwise the message is appended at the back. |
| Broker.Broadcast | src/ipc/socket_server.py:51-63 | A non-object payload raises before any client is touched. Otherwise every listed client is offered the message and nothing else changes. |
| Broker.BroadcastOnce | src/ipc/socket_server.py:60-63 | Each live client's queue gains exactly one copy of the message. A stopped client's queue gains none. |
| Broker.Accept | src/ipc/socket_server.py:73-87 | A successful accept appends a fresh client. An accept error ends the listener. Nothing else changes. |
| Broker.AddHandler | src/ipc/socket_server.py:65-71 | The handler is appended to the one shared list. Clients are unchanged. |
| Broker.Receive | src/ipc/socket_server.py:115-145 | A payload goes to every handler in the server's current list. Invalid JSON is skipped. An empty read or a receive error stops the client, which stays in the list. |
| Broker.RecvLoop | src/ipc/socket_server.py:115-145 | The handler calls are exactly those for the delivered payloads. The client ends stopped iff an ending chunk was read. Other clients and the queue are unchanged. |
| Broker.SendStep | src/ipc/socket_server.py:147-162 | An empty queue changes nothing. The head is taken off the queue. A message goes on the wire only if the send succeeds. The sentinel or a failed send stops the client. |
| Broker.SendLoop | src/ipc/socket_server.py:147-162 | Whatever the sends do, the wire carries a prefix of the queued messages before the first sentinel, in queue order, and all of them when every send succeeds. When fewer go out, the client ends stopped, and for a live client the send after the last delivered message failed. The loop ends only with the client stopped or its queue empty. |
| Broker.SendOrderFollowsBroadcasts | src/ipc/socket_server.py:150-155 | Two messages queued in turn leave in that order. |
| Broker.GetServer | src/ipc/socket_server.py:169-174 | The global server is created only when absent and is then kept. |
| Broker.StopServer | src/ipc/socket_server.py:183-188 | The global server is stopped if present and then forgotten. |
| Broker.TeardownKeepsClientButDropsMessages | src/ipc/socket_server.py:141-145 | A client whose peer closed stays in the list, stopped. A later broadcast reaches only the live client. |
| Broker.LateHandlerRuns | src/ipc/socket_server.py:71-97 | A handler added after a client connected still runs, last, for that client's next payload. |
| Peer.SendMessage | src/ipc/socket_client.py:73-92 | True, with the payload on the wire, iff there is a socket, the client runs, the payload is an object and the send succeeds. |
| Peer.Stop | src/ipc/socket_client.py:94-98 | Running is cleared and an existing socket is closed. |
| Peer.NoSendAfterStop | src/ipc/socket_client.py:79-98 | After stop, send_message returns False for any payload. |
| Peer.AddClientHandler | src/ipc/socket_client.py:100-106 | The handler is appended and nothing else changes. |
| Peer.OnPayload | src/ipc/socket_client.py:45-53 | message_received is emitted first. Then the k-th event is the call of the k-th handler on the same payload, raising or not as that handler does. |
| Peer.HandledOnPayload | src/ipc/socket_client.py:45-53 | The handler calls for one payload are exactly the isolated fan-out of that payload over the client's handlers. |
| Peer.Listen | src/ipc/socket_client.py:32-62 | No connection status is emitted while listening. The handler calls are every delivered payload handed to every handler, payload by payload, matching the server's receive loop. |
| Peer.ListenEmitsDelivered | src/ipc/socket_client.py:32-62 | message_received announces exactly the delivered payloads, in order. |
| Peer.Run | src/ipc/socket_client.py:22-71 | A connection error emits False twice. Otherwise True comes first, no other status is emitted while listening, and False comes last. The client always ends closed and not running. |
| Peer.RunAnnouncesAfterConnect | src/ipc/socket_client.py:28-46 | Status True precedes every payload, and the announced payloads are the delivered ones. |
| Peer.RunHandlesDelivered | src/ipc/socket_client.py:22-62 | Over a connected run, the handler calls are every delivered payload handed to every handler of the client, in order. |
| Peer.NewManager | src/ipc/socket_client.py:112-115 | A new manager has no handlers. |
| Peer.AddManagerHandler | src/ipc/socket_client.py:136-142 | Manager handlers are appended in order. |
| Peer.HandleMessage | src/ipc/socket_client.py:144-150 | Every manager handler is invoked in order with the payload, whatever raises. |
| Peer.StopManager | src/ipc/socket_client.py:123-126 | Stopping the manager stops its client. |
| Peer.GetManager | src/ipc/socket_client.py:162-167 | The global manager is created only when absent and is then kept. |
| Peer.StopSocketClient | src/ipc/socket_client.py:176-181 | An existing manager is stopped, with its client no longer running and its handlers kept, and the global becomes None. Without a manager nothing is stopped. |
| Peer.AddGlobalHandler | src/ipc/socket_client.py:194-201 | The handler is appended to the global manager, which is created if absent. |
| Peer.ManagerCreatedOnce | src/ipc/socket_client.py:162-201 | Handlers accumulate on one manager until stop_socket_client. A manager made after that starts with none. |
| Sessions.ToInt | src/api/session.py:86 | int() of an integral number is itself, and of a boolean 0 or 1. int() of a string follows Python's int(str). null, lists and objects raise. |
| Sessions.RowFromRequest | src/api/session.py:83-91 | A built row comes from an object with all six keys and a non-null id and name. The row's id and name are str() of the request's values, so a numeric id is stored as its text. Its start, planned end, actual end and duration are the conversions of the request's fields, with start and planned end present. Its syncedAt is the given time, and its timestamps are stored as text. |
| Sessions.RowBuiltIffAccepted | src/api/session.py:83-91 | A row is built iff the body is an object with all six keys, a non-null id and name, an integral duration, timestamps that are null, empty or ISO text, and a present start and planned end. Every other body raises. |
| Sessions.CloseOthers | src/api/session.py:93-95 | Only open rows with another id get the close time. Ended rows keep their end. Afterwards only the new id can be open. |
| Sessions.InsertSession | src/api/session.py:83-95 | The insert fails iff the id is already taken. Otherwise the row is appended, every other open row is closed at the given time, ended rows are kept, only the new id can be open, and the primary key stays unique. |
| Sessions.CreateSession | src/api/session.py:78-97 | Fails on a bad body or a duplicate id, and succeeds otherwise. On success the new row is appended, other open rows are closed, and the primary key stays unique. |
| Sessions.FirstOpen | src/api/session.py:13 | The first row with no end timestamp, if any. |
| Sessions.GetActiveSessionId | src/api/session.py:10-16 | None when the lookup raises or no session is open. Otherwise it is the id of an open session. |
| Sessions.GetCurrentSession | src/api/session.py:100-127 | Answers 500 iff the lookup raises or the open row's timestamps read back as datetimes, which fromisoformat refuses. Otherwise it is active iff some session is open, and then it carries that open row. |
| Sessions.StampJson | src/utils.py:29-34 | A missing timestamp is null, and a present one is its ISO text. |
| Sessions.CurrentBody | src/api/session.py:104-122 | The answer says active exactly when it carries a session. The session object has the row's id, name and duration, its start and planned end as ISO text, and its actual end and syncedAt as ISO text or null. |
| Sessions.CreatedSessionIsActive | src/api/session.py:83-127 | After creation, the active session is the new one if it has no end, and none otherwise. get_current_session then answers without error. |
| Sessions.InsertedSessionIsActive | src/api/session.py:83-95 | After an insert, the active session is the inserted one if it has no end, and none otherwise. |
| Sessions.InsertByStart | src/api/session.py:37 | Inserting one row keeps the list sorted newest first and the same rows plus the new one. |
| Sessions.SortByStartDesc | src/api/session.py:37 | The result is a permutation of the table sorted by start, descending. |
| Sessions.ListSessions | src/api/session.py:37-62 | Every session is listed, newest start first, as a permutation of the table. The status is "active" iff there is no end and "ended" otherwise. |
| Sessions.GetSessions | src/api/session.py:34-66 | As written: answers 500 iff the query raises or some row's timestamps read back as text, on which `.isoformat()` raises. Otherwise it answers with the listing. |
| Sessions.InsertedRowBreaksListing | src/api/session.py:40-66 | As written, once create_session has stored a row, get_sessions answers 500 whatever else the table holds. |
| Sessions.GetSessionsIntended | src/api/session.py:34-66 | Corrected: answers 500 only when the query raises, and otherwise with the full listing. |
| Sessions.InsertedSessionIsListed | src/api/session.py:34-97 | With the corrected listing, a freshly inserted session is listed with its status. |
| Images.DownloadIfNeeded | src/api/people.py:29-52 | A non-.jpg basename is rejected with no effect. A cached file is reused without network access. A download is HttpGet then WriteImage, and only that sets downloaded_now. A non-200 status or a non-JPEG type fails. |
| Images.JpgCheckIgnoresCase | src/api/people.py:33 | The .jpg check is case-insensitive. |
| Images.CachedFileNeedsNoNetwork | src/api/people.py:38-39 | A file already on disk gives (name, False) whatever the network would answer. |
| ApiServer.IpcSend | src/api/server.py:182-194 | 200 iff the body is a non-empty object, and then exactly that payload is broadcast and echoed. Otherwise the reply is 400 with no broadcast. |
| ApiServer.IpcSendSatisfiesBroker | src/api/server.py:185-193 | Whatever ipc_send accepts, the broker's broadcast accepts too. |
| ApiServer.MarkAttendanceRemote | src/api/server.py:284-312 | A non-null result comes only from a 200 reply whose object body has syncedAt. Errors give None. |
| ApiServer.HandleWith | src/api/server.py:315-369 | Effects come in order: remote call, insert, broadcast, each only after the one before. The remote call happens iff the message is a complete person-recognized one. The insert happens iff both timestamps convert and the database takes the row. The broadcast carries personId and name. |
| ApiServer.HandleIpcMessage | src/api/server.py:315-383 | As written: other types and incomplete messages cause nothing. A row is written only with a synced timestamp, because the column is NOT NULL. |
| ApiServer.HandleIpcMessageIntended | src/api/server.py:343-353 | Corrected: the row is written whether or not the remote sync returned a timestamp. |
| ApiServer.InsertRegardlessOfRemote | src/api/server.py:339-353 | With the remote call failing, the corrected handler still writes the attendance row, with a null syncedAt. |
| ApiServer.RemoteFailureLosesAttendance | src/api/server.py:343-353 | A concrete message with the remote API unreachable produces only the remote call and no attendance row. |
| ApiServer.EnrollRow | src/api/server.py:130-148 | A missing userType, or a missing key for a Cadet or Employee, raises KeyError. Only Cadet and Employee upsert. A Cadet row has syncedAt and an Employee row does not. |
| ApiServer.EnrollStore | src/api/server.py:130-179 | Given the built row, the image is removed only after a row error or a failed upsert, and only if this request downloaded it. The completion broadcast is the last effect and is sent only on 200. Nothing is downloaded. |
| ApiServer.EnrollFetched | src/api/server.py:101-179 | Putting this request's download before the store keeps the broadcast last and only on success. The only possible removal is of the file just downloaded, with a 500 reply. A cached image is never removed or re-fetched. |
| ApiServer.EnrollAfterDownload | src/api/server.py:103-125 | Download errors answer 400 (name), 502 (status), 400 (content type) and 500 (exception), and pass on only the download's own effects. A fetched image goes to the store with the row built from the request. |
| ApiServer.EnrollFromUrl | src/api/server.py:86-179 | A non-.jpg name answers 400 before any download. A cached file is never downloaded or removed. The completion broadcast is the last effect and is sent only on 200. The only image ever removed is the one this request downloaded, and the reply is then 500. |
| ApiServer.Enroll | src/api/server.py:74-179 | A missing picture or a non-.jpg name answers 400 with no effect. The broadcast comes last and only on 200. A removal follows this request's own download. A cached image is never touched. |
| PeopleApi.Fallback | src/api/people.py:61-62 | `data.get(a) or data.get(b)`: the first key's value when truthy, else the second's (None if absent). The result is truthy iff either value is. This gives preferredName before name, and picture before pictureUrl. |
| PeopleApi.AddRow | src/api/people.py:88-108 | Both user-type branches upsert the same row: the id, the name after fallback, the type, the file and syncedAt. |
| PeopleApi.AddStore | src/api/people.py:87-140 | 200 iff the upsert and the face enrolment succeed. On upsert failure the image is removed iff this request downloaded it. |
| PeopleApi.AddAfterDownload | src/api/people.py:80-83 | Any fetch error answers 400. Otherwise the effects are the fetch's effects followed by the store's. |
| PeopleApi.AddFromUrl | src/api/people.py:80-140 | A non-.jpg name answers 400 before any download. |
| PeopleApi.AddPerson | src/api/people.py:55-140 | A missing personId, userType, preferredName\|name or picture\|pictureUrl answers 400 with no effect. An absent body does too. |
| PeopleApi.AddPersonSuccess | src/api/people.py:57-81 | A 200 reply implies every required field was present, and the result is the fetch-and-store for the chosen URL. |
| PeopleApi.StoreSuccess | src/api/people.py:88-140 | On success the last two effects are the upsert of the fallback row and the face enrolment, and nothing is removed. |
| PeopleApi.AddFromUrlSuccess | src/api/people.py:80-140 | On success the row and the enrolment use the URL's basename. |
| PeopleApi.CleanupAfterFailedUpsert | src/api/people.py:109-115 | For any fetched image, a failed upsert answers 500, and the image is removed iff this request downloaded it. |
| PeopleApi.AddPersonCleanupOnlyDownloaded | src/api/people.py:109-115 | After an upsert failure the reply is 500, and the image is removed iff it was not already on disk. |
| PeopleApi.NoFaceHandledDifferently | src/api/people.py:125-128 | With no face in the photo, add_person answers 500. enroll answers 200 without enrolling a face. |
| PeopleApi.DeleteRows | src/api/people.py:169-188 | The mapping row is deleted iff mapped. The person row is deleted iff found and the delete works. The reply is 500 iff the person lookup or delete raises. |
| PeopleApi.DeletePerson | src/api/people.py:143-192 | Steps run in order: hub, mapping, image, row. Hub removal happens only with a mapping, and if it raises the reply is 500 before anything is deleted. featureRemoved is null iff unmapped. |
| BulkImport.LoadPeople | src/scripts/bulk_import_people.py:71-79 | Succeeds iff the file exists and its top level is an array, and then yields that array. |
| BulkImport.UpsertPersonRecord | src/scripts/bulk_import_people.py:82-101 | Raises iff personId, preferredName\|name or userType is missing. preferredName wins. |
| BulkImport.Window | src/scripts/bulk_import_people.py:128-131 | Start is max(0, start), clamped to the list. The end is start+limit for a non-negative limit and the list's end otherwise. The window is never longer than the limit. |
| BulkImport.Classify | src/scripts/bulk_import_people.py:138-188 | A non-object record crashes the script. An object is skipped iff its id or url is missing, or it is already mapped without --force, so --force never skips a mapped record. It is enrolled iff it is not skipped and the fetch, the row, the upsert and the face enrolment all succeed. Otherwise it fails. |
| BulkImport.SkipDecidedBeforeDownload | src/scripts/bulk_import_people.py:143-158 | Whether a record is skipped does not depend on the fetch, the upsert or the enrolment. |
| BulkImport.BucketsPartition | src/scripts/bulk_import_people.py:138-188 | Every record lands in exactly one bucket. |
| BulkImport.NoCrashCounted | src/scripts/bulk_import_people.py:138-139 | Without a crash, the crash bucket is empty. |
| BulkImport.FinishCode | src/scripts/bulk_import_people.py:201 | 0 iff nothing failed, and 2 otherwise. |
| BulkImport.Tally | src/scripts/bulk_import_people.py:133-188 | The counters equal the bucket sizes, skipped+failed+enrolled covers every record, and processed equals enrolled. A crash is reported as such. |
| BulkImport.Import | src/scripts/bulk_import_people.py:104-201 | Exit 1 on load, initialisation or record crash. Otherwise total is the window size and the three counters sum to it. processed equals enrolled, and the exit code is 0 iff nothing failed, else 2. |
| UiApp.HandleServerMessage | src/ui/app.py:240-256 | enrollment and attendance show the name, falling back to personId. Only attendance refreshes the table. Other types show the payload. |
| UiApp.AttendanceEventShown | src/ui/app.py:246-253 | The server's attendance broadcast shows the known name, else the person id, and refreshes the table. |
| UiApp.EnrollmentEventShown | src/ui/app.py:243-245 | The server's enrollment broadcast shows preferredName, else the person id. |
| UiApp.SetActiveUi | src/ui/app.py:327-382 | A no-op for the current state. A real toggle empties the overlay. Deactivation drops the camera, the recogniser and the table timer. Activation with a camera creates a recogniser told the known session id. |
| UiApp.SetActiveUiIdempotent | src/ui/app.py:332-333 | Requesting the state just reached changes nothing. |
| UiApp.InitialIsCoherent | src/ui/app.py:38-45 | The window starts inactive without a camera or recogniser. |
| UiApp.ReplySessionId | src/ui/app.py:197-200 | The id is None exactly when the session's id is missing or null. Otherwise it is str() of that id: a string id as is, a number in decimal. |
| UiApp.QueryCurrentSession | src/ui/app.py:185-221 | Active iff the reply is 200 with truthy active and session, and then the id is the session's stringified id. An unreachable server forgets the id, a non-200 reply keeps it, and window coherence is preserved. |
| UiApp.PollFollowsServer | src/ui/app.py:185-201 | When get_current_session answers 200, polling leaves the window holding exactly the id the server considers active. When it answers 500, the window keeps the id it had. |
| UiApp.RoomCounts | src/ui/app.py:432-439 | present = database present + overlay. absent = max(total - present, 0): never negative, and 0 iff present reaches total. The caption falls back to the room id. |
| UiApp.OnFirstAttendanceLocal | src/ui/app.py:482-493 | A person with a room bumps that room's overlay by exactly 1. No room changes nothing. Other rooms are unchanged. |
| UiApp.FirstAttendanceBumpsOneRow | src/ui/app.py:488-493 | After a first attendance, that room's row shows one more present and at most one fewer absent. Every other room's row is unchanged. |

## Left out

- Threads, locks, Qt signals, QThread, timers and the blocking queue:
  - The IPC server and client are sequential state transitions.
  - One `recv` is taken to carry exactly one JSON message, as the code assumes.
  - The end of the chunk list stands for `stop()` closing the socket.
- `json.dumps` and `json.loads` are not modelled. A queued message is the payload object itself, and an undecodable read is a `Malformed` chunk.
- The face SDK (detection, feature extraction, FeatureHub search, insert and removal), OpenCV, the camera, drawing and image decoding. Their results are parameters.
- The face-similarity threshold is not modelled. Confidences are opaque values, because they are floats.
- JSON numbers are integers only. A float in a request body, a people file or a map file is outside the model, and so are `NaN` and `Infinity`, which Python's json module also accepts.
- Sessions.ToInt: a float duration is not modelled. Python's `int(30.5)` truncates to 30, and a JSON float is outside the integer-only JSON values of the model.
- SQLite and peewee. Rows are sequences or maps, and a query's failure is a boolean or an outcome constructor.
  - Two peewee conversions are modelled. A CharField stores `str()` of a non-string value. A DateTimeField returns stored text that matches neither `%Y-%m-%d %H:%M:%S[.%f]` nor `%Y-%m-%d` as a string, which is the `storedAsText` flag of a session row.
  - `refresh_room_table` takes its per-room totals and present counts as maps. The SQL aggregates are not modelled.
  - The Room ordering by name and the table widget are not modelled.
  - Connection opening and closing around each query is not modelled.
- A NOT NULL failure on a Person row with a null name is folded into the upsert-failed parameter.
- HTTP via `requests` and Flask routing. Responses are parameters.
  - An absent or unparseable request body is `null`.
  - Flask's own 415 answer for a non-JSON `request.json` is not modelled.
  - Headers other than Content-Type are not modelled.
- `datetime.fromisoformat`, `datetime.now` and the Asia/Kolkata conversion. Parsing is a parameter and the current time is an input string. Only the text handed to the parser, and the millisecond truncation, are modelled.
- Timestamps.StringToTimestamp: returns the normalised text that is parsed, not the converted datetime, because parsing and time zones are outside the model.
- Text helpers differ from Python's:
  - `str.strip` and `str.lower` cover ASCII only.
  - `int()` does not accept underscores or non-ASCII digits.
  - `urlparse` is reduced to `scheme://netloc/path` and bare paths.
- Text.PyStr: `str()` of arrays and objects comes from a parameter, because Python's repr is not modelled.
- The camera search loop of `setup_camera_pipeline` is the single flag `cameraOk`. Label texts, widget visibility and the `send_message` input box of the window are not modelled.
- The `FaceRecognizer()` constructor, including its `exit(1)` on an SDK failure, is not modelled. The import script sees it only as `initOk`.
- `enroll_user` is reduced to its outcome: a face was added, no face was found, or it raised.
- AttendanceTracker.Snapshot: gives the set of the tuple `get_attendance_marked_tuple` returns. The tuple's element order is set iteration order, which the source leaves open.
- Enrollment.AddFace: returns the new hub id only, not the extracted feature vector.
- ApiServer.HandleIpcMessage: states only the shape of the broadcast. Its exact contents (personId, name, syncedAt) are stated on ApiServer.HandleWith, which it calls.
- Sessions.ListSessions: orders rows of equal start newest-inserted first. SQLite leaves the order of ties open.
  - It sorts by instant. SQLite sorts the stored text, and the two orders agree for what create_session writes: every stamp in the same IST offset and ISO layout.
- Sessions.CurrentBody: the ISO text of a timestamp comes from a parameter, because time zones and `isoformat` are outside the model.
- `start_socket_server`, `broadcast_message`, the server-side `add_message_handler` wrapper and the client-side `send_message` are not modelled separately. Each only fetches the global instance (Broker.GetServer, Peer.GetManager) and calls the modelled method.
- `SocketManager.start` and `_handle_connection_status` are not modelled. They only wire signals and print.
- `update_session`, `hello_world`, `test` and `setup_rooms` in the server are not modelled. They print, echo or insert fixed constants.
- The interactive console and key loop of the legacy recogniser (`input()`, `cv2.waitKey`) are not modelled. The typed text is a parameter, and only the padding arithmetic of `run` is modelled.
- A legacy JSON map file is assumed to be an object. A list there would make `.items()` raise.
- Races between `os.path.exists` and `os.remove` are not modelled. A failed removal is swallowed by the source and does not change a reply.
- Logging, `src/logger.py`, the configuration files and the manual test scripts are not modelled.

## Findings

| source | as written | input that shows it | evidently intended | confidence | as-written member | corrected member |
|---|---|---|---|---|---|---|
| src/api/server.py:343-353 | The attendance insert passes `syncedAt=string_to_timestamp(None)` when the remote sync fails. `CadetAttendance.syncedAt` is NOT NULL (src/schema.py:34), so the insert raises, the error is only logged, and neither the row nor the UI broadcast happens. | A `person-recognized` message with personId "p1", sessionId "s1" and attendanceTimeStamp "2025-06-18T08:21:57", while the remote API is unreachable. | The comment says "Persist to local DB regardless of remote sync success": the row should be written with a null syncedAt. | medium-high, not executed | ApiServer.RemoteFailureLosesAttendance | ApiServer.InsertRegardlessOfRemote |
| src/api/session.py:34-66 | `get_sessions` calls `.isoformat()` on each row's start, planned end, actual end and syncedAt. `create_session` stores these as the ISO text that `string_to_timestamp` and `ist_timestamp` return, with a 'T' and a UTC offset. peewee's DateTimeField hands such text back as a string, because it parses only `%Y-%m-%d %H:%M:%S[.%f]` and `%Y-%m-%d`. So `.isoformat()` raises AttributeError, and the whole listing answers 500. | POST /session/create with a valid body, then GET /session/. | List every session, reading the stored text back as `get_current_session` does with `python_string_to_timestamp`. | medium, not executed (relies on peewee's DateTimeField behaviour, which is outside the source) | Sessions.InsertedRowBreaksListing | Sessions.InsertedSessionIsListed |

=== FILE: api_server.dfy ===
/** The Flask routes and the IPC callback of src/api/server.py: `ipc_send`,
    the `person-recognized` handler with its call to the remote attendance
    API, and `enroll`. Each handler returns its reply (or the exception it
    raises) together with the ordered effects it performed; the database,
    the network, the disk and the face SDK are parameters. */
module ApiServer {
  import opened Values
  import opened Timestamps
  import opened Effects
  import opened Images
  import Broker

  // ---------------------------------------------------------------------
  // ipc_send

  /** `ipc_send`: the body (null when there is none) or `{}`; an empty or a
      non-object payload is refused with 400, anything else is broadcast
      as it is and echoed back. */
  function IpcSend(body: Json): (r: (Reply, seq<Effect>))
    ensures r.0.status == 200 <==> body.JObj? && |body.fields| > 0
    ensures r.0.status != 200 ==> r.0.status == 400 && r.1 == []
    ensures r.0.status == 200 ==> (r.1 == [Broadcast(body)] && r.0.body.JObj?
      && "payload" in r.0.body.fields && r.0.body.fields["payload"] == body)
  {
    var data := Or(body, JObj(map[]));
    if !Truthy(data) then (Reply(400, Field("error", "No payload provided")), [])
    else if !data.JObj? then (Reply(400, Field("error", "Payload must be a JSON object")), [])
    else (Reply(200, JObj(map["status" := JStr("Message broadcasted"), "payload" := data])), [Broadcast(data)])
  }

  /** What `ipc_send` lets through never makes the broker's `broadcast`
      raise: the route's checks are at least as strict as the broker's. */
  lemma IpcSendSatisfiesBroker(s: Broker.Server, body: Json)
    requires IpcSend(body).0.status == 200
    ensures Broker.Broadcast(s, body).Ok?
  {
  }

  // ---------------------------------------------------------------------
  // _mark_attendance_remote

  /** The answer of the remote mark-attendance call: a status and a body
      that may fail to decode (None), or a raised request. */
  datatype RemoteReply = Replied(status: int, body: Option<Json>) | PostFailed

  /** `_mark_attendance_remote`: the `syncedAt` of a 200 reply whose body is
      an object; None in every other case (errors are caught). */
  function MarkAttendanceRemote(reply: RemoteReply): (r: Json)
    ensures reply.PostFailed? || reply.status != 200 ==> r == JNull
    ensures reply.Replied? && (reply.body.None? || !reply.body.value.JObj?) ==> r == JNull
    ensures r != JNull ==> (reply.Replied? && reply.status == 200 && reply.body.Some? && reply.body.value.JObj?
      && "syncedAt" in reply.body.value.fields && r == reply.body.value.fields["syncedAt"])
  {
    match reply
    case PostFailed => JNull
    case Replied(status, body) =>
      if status != 200 then JNull
      else match body
        case None => JNull
        case Some(data) => if data.JObj? then Get(data.fields, "syncedAt") else JNull
  }

  // ---------------------------------------------------------------------
  // _handle_ipc_message

  /** `Person.get_or_none` for the broadcast: no row, a row with this name,
      or a raised query. */
  datatype PersonLookup = NoPerson | PersonNamed(name: Json) | LookupRaised

  /** What the IPC callback meets outside: the remote reply, whether the
      attendance insert succeeds on its own terms, and the person lookup. */
  datatype IpcEnv = IpcEnv(remote: RemoteReply, insertOk: bool, person: PersonLookup)

  /** The field gate of `person-recognized`: personId, attendanceTimeStamp
      and sessionId all present and truthy. */
  predicate Complete(f: map<string, Json>) {
    Truthy(Get(f, "personId")) && Truthy(Get(f, "attendanceTimeStamp")) && Truthy(Get(f, "sessionId"))
  }

  predicate IsRecognized(f: map<string, Json>) {
    Get(f, "type") == JStr("person-recognized")
  }

  /** The event broadcast after an attendance row is written. */
  function AttendanceMessage(personId: Json, person: PersonLookup, syncedAt: Option<string>): Json {
    JObj(map[
      "type" := JStr("attendance"),
      "personId" := personId,
      "name" := (if person.PersonNamed? then person.name else JNull),
      "syncedAt" := (if syncedAt.Some? then JStr(syncedAt.value) else JNull)])
  }

  /** The handler, parameterised by whether the attendance table accepts a
      row without `syncedAt` (`nullSyncOk`). The effects are, in order: the
      remote call, the insert, the broadcast, each only if the one before
      happened. */
  function HandleWith(payload: Json, env: IpcEnv, parse: string -> Option<string>, nullSyncOk: bool)
    : (r: Result<seq<Effect>>)
    ensures r.Err? <==> !payload.JObj?
    ensures r.Ok? ==> |r.value| <= 3
    ensures r.Ok? ==> (|r.value| > 0 <==> IsRecognized(payload.fields) && Complete(payload.fields))
    ensures r.Ok? && |r.value| > 0 ==>
      r.value[0] == RemoteMark(payload.fields["sessionId"], payload.fields["personId"], payload.fields["attendanceTimeStamp"])
    ensures r.Ok? ==> (|r.value| > 1 <==> Inserts(payload.fields, env, parse, nullSyncOk))
    ensures r.Ok? && |r.value| > 1 ==> r.value[1] == InsertAttendance(payload.fields["personId"],
      ConvertTimestamp(payload.fields["attendanceTimeStamp"], parse).value, payload.fields["sessionId"],
      ConvertTimestamp(MarkAttendanceRemote(env.remote), parse).value)
    ensures r.Ok? ==> (|r.value| > 2 <==> Inserts(payload.fields, env, parse, nullSyncOk) && !env.person.LookupRaised?)
    ensures r.Ok? && |r.value| > 2 ==> r.value[2] == Broadcast(AttendanceMessage(payload.fields["personId"], env.person,
      ConvertTimestamp(MarkAttendanceRemote(env.remote), parse).value))
  {
    if !payload.JObj? then Err("object has no attribute 'get'")
    else
      var f := payload.fields;
      if !IsRecognized(f) || !Complete(f) then Ok([])
      else
        var pid := f["personId"];
        var ts := f["attendanceTimeStamp"];
        var sid := f["sessionId"];
        var mark := [RemoteMark(sid, pid, ts)];
        var at := ConvertTimestamp(ts, parse);
        var sy := ConvertTimestamp(MarkAttendanceRemote(env.remote), parse);
        if at.Err? || sy.Err? || !env.insertOk || (sy.value.None? && !nullSyncOk) then Ok(mark)
        else
          var insert := InsertAttendance(pid, at.value, sid, sy.value);
          if env.person.LookupRaised? then Ok(mark + [insert])
          else Ok(mark + [insert, Broadcast(AttendanceMessage(pid, env.person, sy.value))])
  }

  /** Whether the handler writes the attendance row: a complete
      `person-recognized` message, both timestamps convertible, the insert
      accepted by the database, and a synced timestamp unless the table
      takes a row without one. */
  predicate Inserts(f: map<string, Json>, env: IpcEnv, parse: string -> Option<string>, nullSyncOk: bool) {
    IsRecognized(f) && Complete(f) && env.insertOk
    && ConvertTimestamp(f["attendanceTimeStamp"], parse).Ok?
    && ConvertTimestamp(MarkAttendanceRemote(env.remote), parse).Ok?
    && (nullSyncOk || ConvertTimestamp(MarkAttendanceRemote(env.remote), parse).value.Some?)
  }

  /** `_handle_ipc_message` as written. The `CadetAttendance.syncedAt`
      column is NOT NULL (src/schema.py:34), so the insert is refused when
      the remote sync gave no timestamp: effects are the remote call, then
      the insert, then the broadcast, each only after the one before. */
  function HandleIpcMessage(payload: Json, env: IpcEnv, parse: string -> Option<string>): (r: Result<seq<Effect>>)
    ensures r.Err? <==> !payload.JObj?
    ensures r.Ok? && !(IsRecognized(payload.fields) && Complete(payload.fields)) ==> r.value == []
    ensures r.Ok? && IsRecognized(payload.fields) && Complete(payload.fields) ==>
      |r.value| >= 1 && r.value[0] == RemoteMark(payload.fields["sessionId"], payload.fields["personId"], payload.fields["attendanceTimeStamp"])
    ensures r.Ok? ==> (|r.value| > 1 <==> Inserts(payload.fields, env, parse, false))
    ensures r.Ok? && |r.value| > 1 ==> r.value[1].InsertAttendance? && r.value[1].syncedAt.Some?
    ensures r.Ok? && |r.value| > 2 ==> r.value[2].Broadcast? && |r.value| == 3
  {
    HandleWith(payload, env, parse, false)
  }

  /** `_handle_ipc_message` as its comment intends it: the row is written
      whatever the remote sync returned. */
  function HandleIpcMessageIntended(payload: Json, env: IpcEnv, parse: string -> Option<string>): (r: Result<seq<Effect>>)
    ensures r.Err? <==> !payload.JObj?
    ensures r.Ok? && !(IsRecognized(payload.fields) && Complete(payload.fields)) ==> r.value == []
    ensures r.Ok? ==> (|r.value| > 1 <==> Inserts(payload.fields, env, parse, true))
    ensures r.Ok? && |r.value| > 1 ==> r.value[1].InsertAttendance?
    ensures r.Ok? && |r.value| > 2 ==> r.value[2].Broadcast? && |r.value| == 3
  {
    HandleWith(payload, env, parse, true)
  }

  /** The attendance row is kept local whatever the remote call does: two
      environments that differ only in the remote reply, both without a
      synced timestamp, write the same row. */
  lemma InsertRegardlessOfRemote(payload: Json, remote: RemoteReply, insertOk: bool, person: PersonLookup,
                                 parse: string -> Option<string>)
    requires payload.JObj? && IsRecognized(payload.fields) && Complete(payload.fields)
    requires ConvertTimestamp(payload.fields["attendanceTimeStamp"], parse).Ok? && insertOk
    requires MarkAttendanceRemote(remote) == JNull
    ensures var r := HandleIpcMessageIntended(payload, IpcEnv(remote, insertOk, person), parse);
      var f := payload.fields;
      r.Ok? && |r.value| >= 2
      && r.value[1] == InsertAttendance(f["personId"], ConvertTimestamp(f["attendanceTimeStamp"], parse).value, f["sessionId"], None)
  {
  }

  /** As written, a failed remote call loses the attendance row: the
      message below, with the remote API unreachable, produces only the
      remote call and no insert. */
  lemma RemoteFailureLosesAttendance()
    ensures var payload := JObj(map[
        "type" := JStr("person-recognized"),
        "personId" := JStr("p1"),
        "attendanceTimeStamp" := JStr("2025-06-18T08:21:57"),
        "sessionId" := JStr("s1")]);
      var parse := (s: string) => Some(s);
      HandleIpcMessage(payload, IpcEnv(PostFailed, true, NoPerson), parse)
        == Ok([RemoteMark(JStr("s1"), JStr("p1"), JStr("2025-06-18T08:21:57"))])
  {
    var payload := JObj(map[
        "type" := JStr("person-recognized"),
        "personId" := JStr("p1"),
        "attendanceTimeStamp" := JStr("2025-06-18T08:21:57"),
        "sessionId" := JStr("s1")]);
    assert Truthy(JStr("p1")) && Truthy(JStr("s1")) && Truthy(JStr("2025-06-18T08:21:57"));
    assert Complete(payload.fields);
  }

  // ---------------------------------------------------------------------
  // enroll

  /** The outcome of `enroll_user`: the face was added to the FeatureHub,
      no face was detected (`add_face` returns None, which `enroll_user`
      does not check), or it raised. */
  datatype EnrollOutcome = FaceAdded | NoFaceFound | EnrollRaised

  /** What `enroll` meets outside: the image fetch, whether the upsert
      succeeds, the face enrolment and the current `ist_timestamp`. */
  datatype EnrollEnv = EnrollEnv(fetch: FetchEnv, upsertOk: bool, enrollment: EnrollOutcome, now: string)

  /** The row `enroll` upserts: Err for a missing key (KeyError), None when
      the user type is neither "Cadet" nor "Employee" (no upsert at all). */
  function EnrollRow(f: map<string, Json>, filename: string, now: string): (r: Result<Option<PersonRow>>)
    ensures r.Err? <==> ("userType" !in f
      || (f["userType"] == JStr("Cadet") && !("personId" in f && "preferredName" in f && "admissionNumber" in f && "roomId" in f))
      || (f["userType"] == JStr("Employee") && !("personId" in f && "preferredName" in f)))
    ensures r.Ok? ==> (r.value.Some? <==> f["userType"] in [JStr("Cadet"), JStr("Employee")])
    ensures r.Ok? && r.value.Some? ==> (r.value.value.uniqueId == f["personId"]
      && r.value.value.name == f["preferredName"] && r.value.value.pictureFileName == filename
      && r.value.value.personType == f["userType"])
    ensures r.Ok? && r.value.Some? ==> (r.value.value.syncedAt.Some? <==> f["userType"] == JStr("Cadet"))
  {
    if "userType" !in f then Err("KeyError: 'userType'")
    else if f["userType"] == JStr("Cadet") then
      if "personId" in f && "preferredName" in f && "admissionNumber" in f && "roomId" in f then
        Ok(Some(PersonRow(f["personId"], f["preferredName"], f["admissionNumber"], f["roomId"], filename, f["userType"], Some(now))))
      else Err("KeyError")
    else if f["userType"] == JStr("Employee") then
      if "personId" in f && "preferredName" in f then
        Ok(Some(PersonRow(f["personId"], f["preferredName"], JNull, JNull, filename, f["userType"], None)))
      else Err("KeyError")
    else Ok(None)
  }

  /** The event broadcast once an enrolment completes. */
  function EnrollmentMessage(f: map<string, Json>): Json {
    JObj(map[
      "type" := JStr("enrollment"),
      "status" := JStr("completed"),
      "name" := Get(f, "preferredName"),
      "personId" := Get(f, "personId")])
  }

  /** The completion broadcast of `enroll` is its last effect and is sent
      only on success (200), which needs a personId and an enrolment that
      did not raise; a failed request broadcasts nothing. */
  predicate BroadcastsLastOnSuccess(r: (Reply, seq<Effect>), f: map<string, Json>, enrollment: EnrollOutcome) {
    (r.0.status == 200 ==> ("personId" in f && enrollment != EnrollRaised
      && |r.1| > 0 && r.1[|r.1| - 1] == Broadcast(EnrollmentMessage(f)) && NoBroadcast(r.1[..|r.1| - 1])))
    && (r.0.status != 200 ==> NoBroadcast(r.1))
  }

  /** The part of `enroll` after the image is on disk, given the row built
      by EnrollRow: the upsert, whose failure removes the image only when
      this request downloaded it, the face enrolment, and the completion
      broadcast, which comes last and only on success. */
  function EnrollStore(f: map<string, Json>, row: Result<Option<PersonRow>>, filename: string, downloadedNow: bool,
                    env: EnrollEnv): (r: (Reply, seq<Effect>))
    ensures r.0.status == 200 || r.0.status == 500
    ensures BroadcastsLastOnSuccess(r, f, env.enrollment)
    ensures NoDownload(r.1)
    ensures r.1 == [RemoveImage(filename)] || NoRemoval(r.1)
    ensures (r.1 == [RemoveImage(filename)]) <==> (downloadedNow && (row.Err? || (row.value.Some? && !env.upsertOk)))
    ensures r.1 == [RemoveImage(filename)] ==> r.0.status == 500
  {
    var cleanup := if downloadedNow then [RemoveImage(filename)] else [];
    if row.Err? || (row.value.Some? && !env.upsertOk) then
      (Reply(500, Field("message", "Enrollment failed")), cleanup)
    else
      var upserted := if row.value.Some? then [UpsertPerson(row.value.value)] else [];
      if "personId" !in f || env.enrollment == EnrollRaised then
        (Reply(500, Field("message", "Enrollment failed - Couldn't enroll to FAISS")), upserted)
      else
        var b := Broadcast(EnrollmentMessage(f));
        var face := EnrollFace(f["personId"], filename);
        var e :=
          if row.value.Some? && env.enrollment == FaceAdded then [UpsertPerson(row.value.value), face, b]
          else if row.value.Some? then [UpsertPerson(row.value.value), b]
          else if env.enrollment == FaceAdded then [face, b]
          else [b];
        (Reply(200, Field("syncedAt", env.now)), e)
  }

  /** `enroll` removes an image only after a failed store, and only the one
      it downloaded itself in the same request; the reply is then 500. */
  predicate RemovesOnlyOwnDownload(r: (Reply, seq<Effect>), url: string, name: string) {
    (r.1 == [HttpGet(url), WriteImage(name), RemoveImage(name)] && r.0.status == 500) || NoRemoval(r.1)
  }

  /** Effects that neither broadcast nor remove, put before a stored
      result, keep its broadcast last and add no removal. */
  lemma PrefixKeepsBroadcastLast(p: seq<Effect>, r: (Reply, seq<Effect>), f: map<string, Json>, enrollment: EnrollOutcome)
    requires NoBroadcast(p) && BroadcastsLastOnSuccess(r, f, enrollment)
    ensures BroadcastsLastOnSuccess((r.0, p + r.1), f, enrollment)
    ensures NoRemoval(p) && NoRemoval(r.1) ==> NoRemoval(p + r.1)
  {
    var e := p + r.1;
    assert forall k :: |p| <= k < |e| ==> e[k] == r.1[k - |p|];
    if |r.1| > 0 {
      assert e[..|e| - 1] == p + r.1[..|r.1| - 1];
    }
  }

  /** The effects of `enroll` once the image is on disk: the download's own
      two effects when it happened in this request, then the store. */
  function EnrollFetched(f: map<string, Json>, row: Result<Option<PersonRow>>, url: string, filename: string,
                         downloadedNow: bool, env: EnrollEnv): (r: (Reply, seq<Effect>))
    ensures BroadcastsLastOnSuccess(r, f, env.enrollment)
    ensures RemovesOnlyOwnDownload(r, url, filename)
    ensures !downloadedNow ==> NoRemoval(r.1) && NoDownload(r.1)
  {
    var s := EnrollStore(f, row, filename, downloadedNow, env);
    if downloadedNow then
      var p := [HttpGet(url), WriteImage(filename)];
      PrefixKeepsBroadcastLast(p, s, f, env.enrollment);
      (s.0, p + s.1)
    else
      s
  }

  /** How `enroll` answers a download outcome `d` for `url`: the download
      errors with their status codes, or the store step. A failed download
      passes its own effects through unchanged. */
  function EnrollAfterDownload(f: map<string, Json>, url: string, d: (Fetch, seq<Effect>), env: EnrollEnv)
    : (r: (Reply, seq<Effect>))
    ensures !d.0.Fetched? ==> r.1 == d.1
    ensures d.0 == NotJpgName ==> r.0.status == 400
    ensures d.0.BadStatus? ==> r.0.status == 502
    ensures d.0 == NotJpeg ==> r.0.status == 400
    ensures d.0 == FetchFailed ==> r.0.status == 500
    ensures d.0.Fetched? ==> r == EnrollFetched(f, EnrollRow(f, d.0.filename, env.now), url, d.0.filename, d.0.downloadedNow, env)
    ensures d.0.Fetched? || NoBroadcast(d.1) ==> BroadcastsLastOnSuccess(r, f, env.enrollment)
    ensures d.0.Fetched? ==> RemovesOnlyOwnDownload(r, url, d.0.filename)
  {
    match d.0
    case NotJpgName => (Reply(400, Field("message", "Only .jpg images are supported.")), d.1)
    case BadStatus(status) =>
      (Reply(502, JObj(map["message" := JStr("Failed to download image"), "status" := JNum(status)])), d.1)
    case NotJpeg => (Reply(400, Field("message", "URL does not point to a JPEG image")), d.1)
    case FetchFailed => (Reply(500, Field("message", "Error downloading image")), d.1)
    case Fetched(filename, downloadedNow) => EnrollFetched(f, EnrollRow(f, filename, env.now), url, filename, downloadedNow, env)
  }

  /** `enroll` from the picture URL on: fetch the image (or reuse the cached
      file), then store and enrol. A name that is not `.jpg` is refused
      before any download; a cached file is never fetched or removed; the
      completion broadcast comes last and only on success; the only image
      ever removed is the one this request downloaded. */
  function EnrollFromUrl(f: map<string, Json>, url: string, env: EnrollEnv): (r: (Reply, seq<Effect>))
    ensures !IsJpgName(FileNameOf(url)) ==> r.0.status == 400 && r.1 == []
    ensures env.fetch.fileExists ==> NoRemoval(r.1) && NoDownload(r.1)
    ensures BroadcastsLastOnSuccess(r, f, env.enrollment)
    ensures RemovesOnlyOwnDownload(r, url, FileNameOf(url))
  {
    var d := DownloadIfNeeded(url, env.fetch);
    EnrollAfterDownload(f, url, d, env)
  }

  /** `enroll`. A body that is not an object makes `data.get` raise (500);
      a missing picture or a non-.jpg name is refused before any download.
      The completion broadcast is the last effect and happens only on
      success; the image is removed only when this request downloaded it. */
  function Enroll(data: Json, env: EnrollEnv): (r: (Reply, seq<Effect>))
    ensures data.JObj? && !Truthy(Get(data.fields, "picture")) ==> r.0.status == 400 && r.1 == []
    ensures (data.JObj? && Get(data.fields, "picture").JStr? && Truthy(Get(data.fields, "picture"))
      && !IsJpgName(FileNameOf(Get(data.fields, "picture").s))) ==> r.0.status == 400 && r.1 == []
    ensures !data.JObj? ==> r.0.status == 500 && r.1 == []
    ensures data.JObj? ==> BroadcastsLastOnSuccess(r, data.fields, env.enrollment)
    ensures data.JObj? && !Get(data.fields, "picture").JStr? ==> r.1 == []
    ensures data.JObj? && Get(data.fields, "picture").JStr? ==>
      RemovesOnlyOwnDownload(r, Get(data.fields, "picture").s, FileNameOf(Get(data.fields, "picture").s))
    ensures env.fetch.fileExists ==> NoRemoval(r.1) && NoDownload(r.1)
  {
    if !data.JObj? then (Reply(500, Field("message", "Internal Server Error")), [])
    else
      var f := data.fields;
      var picture := Get(f, "picture");
      if !Truthy(picture) then (Reply(400, Field("message", "pictureUrl missing from payload")), [])
      else if !picture.JStr? then (Reply(500, Field("message", "Internal Server Error")), [])
      else
        EnrollFromUrl(f, picture.s, env)
  }
}

=== FILE: attendance_tracker.dfy ===
/** The per-session attendance idempotency tracker of `FaceRecognizer` in
    src/core/face_recognizer.py, the first-time gate that decides when a
    "person-recognized" message is sent while recognising a frame, and
    `add_face` with its FaceIdentityMap upsert. */
module AttendanceTracker {
  import opened Values
  import opened Faces

  /** `current_session_id` and `_attendance_marked_by_session`. */
  datatype Tracker = Tracker(current: Option<string>, marked: map<string, set<string>>)

  /** The state right after construction. */
  const Fresh := Tracker(None, map[])

  /** `if not self.current_session_id`: None and "" both mean "no session". */
  predicate HasSession(t: Tracker) {
    t.current.Some? && t.current.value != ""
  }

  /** `_attendance_marked_by_session.get(sid, set())` */
  function MarkedIn(t: Tracker, sid: string): set<string> {
    if sid in t.marked then t.marked[sid] else {}
  }

  /** Every operation keeps a set for the current session once one is set. */
  ghost predicate Valid(t: Tracker) {
    t.current.Some? ==> t.current.value in t.marked
  }

  /** `set_current_session` */
  function SetCurrentSession(t: Tracker, sid: Option<string>): (r: Tracker)
    ensures sid == t.current ==> r == t
    ensures r.current == sid
    ensures forall s :: s in t.marked ==> s in r.marked && r.marked[s] == t.marked[s]
    ensures sid.None? ==> r.marked == t.marked
    ensures sid.Some? && sid != t.current && sid.value !in t.marked ==>
      r.marked == t.marked[sid.value := {}]
    ensures sid.Some? && sid.value in t.marked ==> r.marked == t.marked
    ensures Valid(t) ==> Valid(r)
  {
    if sid == t.current then t
    else if sid.None? then t.(current := None)
    else if sid.value in t.marked then t.(current := sid)
    else Tracker(sid, t.marked[sid.value := {}])
  }

  /** The outcome of `add_attendance_if_new`: the new state and the return value. */
  datatype Marking = Marking(tracker: Tracker, first: bool)

  /** `add_attendance_if_new`: True exactly when a session is set and the
      person was not yet marked in it; the person is then marked. */
  function AddAttendanceIfNew(t: Tracker, pid: string): (r: Marking)
    ensures !HasSession(t) ==> r == Marking(t, false)
    ensures HasSession(t) ==>
      && r.first == (pid !in MarkedIn(t, t.current.value))
      && r.tracker.current == t.current
      && r.tracker.marked == t.marked[t.current.value := MarkedIn(t, t.current.value) + {pid}]
    ensures !r.first ==> r.tracker == t
    ensures Valid(t) ==> Valid(r.tracker)
  {
    if !HasSession(t) then Marking(t, false)
    else
      var sid := t.current.value;
      var seen := MarkedIn(t, sid);
      if pid in seen then
        assert seen + {pid} == seen;
        assert t.marked[sid := seen] == t.marked;
        Marking(t, false)
      else Marking(t.(marked := t.marked[sid := seen + {pid}]), true)
  }

  /** `get_attendance_marked_tuple`, as the set of its elements (the tuple's
      order is the set's iteration order, which the source leaves open). */
  function Snapshot(t: Tracker): (r: set<string>)
    ensures !HasSession(t) ==> r == {}
    ensures HasSession(t) && t.current.value in t.marked ==> r == t.marked[t.current.value]
    ensures HasSession(t) && t.current.value !in t.marked ==> r == {}
  {
    if !HasSession(t) then {} else MarkedIn(t, t.current.value)
  }

  /** The truthy ids of `pids`. */
  function TruthyIds(pids: seq<string>): (r: set<string>)
    ensures forall p :: p in r <==> p in pids && p != ""
  {
    set p | p in pids && p != ""
  }

  /** `seed_attendance_for_session`: nothing happens for a falsy session id
      or an empty id list; otherwise that session's set (created if missing)
      gains the truthy ids, and no other set changes. */
  function SeedForSession(t: Tracker, sid: Option<string>, pids: seq<string>): (r: Tracker)
    ensures sid.None? || sid.value == "" || |pids| == 0 ==> r == t
    ensures r.current == t.current
    ensures forall s :: s in t.marked ==> s in r.marked
    ensures forall s :: s in r.marked && (sid.None? || s != sid.value) ==>
      s in t.marked && r.marked[s] == t.marked[s]
    ensures sid.Some? && sid.value != "" && |pids| > 0 ==>
      sid.value in r.marked && r.marked[sid.value] == MarkedIn(t, sid.value) + TruthyIds(pids)
    ensures Valid(t) ==> Valid(r)
  {
    if sid.None? || sid.value == "" || |pids| == 0 then t
    else t.(marked := t.marked[sid.value := MarkedIn(t, sid.value) + TruthyIds(pids)])
  }

  /** `seed_current_session`: without a session or ids nothing changes;
      otherwise the current session's marks grow by exactly the truthy ids
      and every other session keeps its marks. */
  function SeedCurrentSession(t: Tracker, pids: seq<string>): (r: Tracker)
    ensures !HasSession(t) || |pids| == 0 ==> r == t
    ensures r.current == t.current
    ensures HasSession(t) && |pids| > 0 ==> Snapshot(r) == Snapshot(t) + TruthyIds(pids)
    ensures forall s :: s in r.marked && (t.current.None? || s != t.current.value) ==> s in t.marked && r.marked[s] == t.marked[s]
    ensures forall s :: s in t.marked ==> s in r.marked
  {
    SeedForSession(t, t.current, pids)
  }

  // ---------------------------------------------------------------------
  // Properties relating several calls

  /** Re-selecting the current session changes nothing. */
  lemma SetSameSessionIsNoOp(t: Tracker)
    ensures SetCurrentSession(t, t.current) == t
  {
  }

  /** Leaving a session and coming back keeps the marks made in it. */
  lemma ReturningKeepsMarks(t: Tracker, other: Option<string>)
    requires HasSession(t) && Valid(t)
    ensures var back := SetCurrentSession(SetCurrentSession(t, other), t.current);
      Snapshot(back) == Snapshot(t)
  {
  }

  /** A second recording of the same person in the same session returns
      False and changes nothing. */
  lemma SecondRecordIsRejected(t: Tracker, pid: string)
    ensures var once := AddAttendanceIfNew(t, pid);
      var twice := AddAttendanceIfNew(once.tracker, pid);
      !twice.first && twice.tracker == once.tracker
  {
  }

  /** A first recording adds exactly that person to the snapshot. */
  lemma RecordGrowsSnapshot(t: Tracker, pid: string)
    requires HasSession(t)
    ensures Snapshot(AddAttendanceIfNew(t, pid).tracker) == Snapshot(t) + {pid}
  {
  }

  /** An id seeded for the current session is never reported as new. */
  lemma SeededIdIsNotNew(t: Tracker, pids: seq<string>, pid: string)
    requires HasSession(t)
    requires pid in pids && pid != ""
    ensures !AddAttendanceIfNew(SeedCurrentSession(t, pids), pid).first
  {
  }

  /** Recording a stream of recognitions: the tracker after each one and the
      value each call returned. */
  function RecordAll(t: Tracker, pids: seq<string>): (r: (Tracker, seq<bool>))
    ensures |r.1| == |pids|
    ensures r.0.current == t.current
    decreases |pids|
  {
    if |pids| == 0 then (t, [])
    else
      var m := AddAttendanceIfNew(t, pids[0]);
      var rest := RecordAll(m.tracker, pids[1..]);
      (rest.0, [m.first] + rest.1)
  }

  /** The number of calls for `pid` that returned True. */
  function TrueCount(pids: seq<string>, firsts: seq<bool>, pid: string): nat
    requires |firsts| == |pids|
  {
    if |pids| == 0 then 0
    else (if pids[0] == pid && firsts[0] then 1 else 0) + TrueCount(pids[1..], firsts[1..], pid)
  }

  /** Within one session, `add_attendance_if_new` returns True for a person
      exactly once over any stream of recognitions that contains them and
      that starts with them unmarked, and never when they were already marked
      or no session is set. */
  lemma {:induction false} TrueExactlyOnce(t: Tracker, pids: seq<string>, pid: string)
    ensures var r := RecordAll(t, pids);
      TrueCount(pids, r.1, pid) ==
        if HasSession(t) && pid in pids && pid !in Snapshot(t) then 1 else 0
    ensures var r := RecordAll(t, pids);
      HasSession(t) ==> Snapshot(r.0) == Snapshot(t) + set p | p in pids
    ensures var r := RecordAll(t, pids);
      !HasSession(t) ==> r.0 == t
    decreases |pids|
  {
    if |pids| > 0 {
      var m := AddAttendanceIfNew(t, pids[0]);
      TrueExactlyOnce(m.tracker, pids[1..], pid);
      assert forall p :: p in pids <==> p == pids[0] || p in pids[1..];
    }
  }

  // ---------------------------------------------------------------------
  // The first-time gate of `recognize_faces`

  /** The database as recognition sees it: FaceIdentityMap (hubId to
      personId) and the Person names (uniqueId to name). */
  datatype Directory = Directory(mapping: map<int, string>, names: map<string, string>)

  /** One detected face as recognition meets it: what the SDK reported, and
      whether the database lookup for it (connecting, then the FaceIdentityMap
      and Person queries) raised. The lookup only runs for a hub match, and
      its `try` has no `except`, so a raise leaves `recognize_faces`. */
  datatype Seen = Seen(search: Search, lookupRaises: bool)

  /** The hub matched the face to an identity. */
  predicate Matched(s: Search) {
    s.Found? && s.hubId != -1
  }

  /** The face's database lookup runs and raises. */
  predicate Aborts(f: Seen) {
    Matched(f.search) && f.lookupRaises
  }

  /** The position of the first face whose lookup raises, or the number of
      faces when none does. */
  function FirstAbort(faces: seq<Seen>): (n: nat)
    ensures n <= |faces|
    ensures forall i :: 0 <= i < n ==> !Aborts(faces[i])
    ensures n < |faces| ==> Aborts(faces[n])
  {
    if |faces| == 0 || Aborts(faces[0]) then 0 else 1 + FirstAbort(faces[1..])
  }

  /** The message sent when a person is first recognised in a session. */
  function RecognizedMessage(sid: string, pid: string, now: string): Json {
    JObj(map["type" := JStr("person-recognized"), "sessionId" := JStr(sid),
             "personId" := JStr(pid), "attendanceTimeStamp" := JStr(now)])
  }

  /** The person a search result resolves to through FaceIdentityMap and
      Person, if any. */
  function ResolvedPerson(s: Search, dir: Directory): Option<string> {
    if Matched(s) && s.hubId in dir.mapping && dir.mapping[s.hubId] in dir.names
    then Some(dir.mapping[s.hubId]) else None
  }

  /** The name drawn for a face: the resolved person's name, else "Unknown". */
  function NameFor(s: Search, dir: Directory): string {
    match ResolvedPerson(s, dir)
    case Some(pid) => dir.names[pid]
    case None => "Unknown"
  }

  /** One face of `recognize_faces`: the tracker after recording the resolved
      person and that person when this was their first mark in the session,
      or the lookup's exception. */
  datatype FaceStep = FaceStep(tracker: Tracker, newly: Option<string>) | LookupRaised

  function RecognizeOne(t: Tracker, face: Seen, dir: Directory): (r: FaceStep)
    ensures r.LookupRaised? <==> Aborts(face)
    ensures r.FaceStep? ==> r.tracker.current == t.current
    ensures r.FaceStep? && Valid(t) ==> Valid(r.tracker)
    ensures r.FaceStep? && r.newly.Some? ==>
      && HasSession(t)
      && ResolvedPerson(face.search, dir) == r.newly
      && r.newly.value !in Snapshot(t)
      && Snapshot(r.tracker) == Snapshot(t) + {r.newly.value}
    ensures r.FaceStep? && r.newly.None? ==> r.tracker == t
    ensures (!face.lookupRaises && HasSession(t) && ResolvedPerson(face.search, dir).Some?
      && ResolvedPerson(face.search, dir).value !in Snapshot(t)) ==> r.FaceStep? && r.newly.Some?
  {
    if Aborts(face) then LookupRaised
    else match ResolvedPerson(face.search, dir)
      case None => FaceStep(t, None)
      case Some(pid) =>
        var m := AddAttendanceIfNew(t, pid);
        if m.first && HasSession(t) then FaceStep(m.tracker, Some(pid)) else FaceStep(t, None)
  }

  /** What the faces of one frame left behind: the tracker, the persons
      marked for the first time in recognition order, and whether a lookup
      raised (which ends the frame at that face). */
  datatype Marks = Marks(tracker: Tracker, newly: seq<string>, aborted: bool)

  /** Joining the persons of one face to those of the faces after it keeps
      them distinct, unmarked before, and exactly the growth of the marks. */
  lemma PrependFirst(before: set<string>, mid: set<string>, after: set<string>, first: seq<string>, rest: seq<string>)
    requires |first| <= 1
    requires forall p :: p in first ==> p !in before
    requires mid == before + set p | p in first
    requires forall k :: 0 <= k < |rest| ==> rest[k] !in mid
    requires forall j, k :: 0 <= j < k < |rest| ==> rest[j] != rest[k]
    requires after == mid + set p | p in rest
    ensures forall k :: 0 <= k < |first + rest| ==> (first + rest)[k] !in before
    ensures forall j, k :: 0 <= j < k < |first + rest| ==> (first + rest)[j] != (first + rest)[k]
    ensures after == before + set p | p in first + rest
  {
    var all := first + rest;
    assert forall p :: p in all <==> p in first || p in rest;
  }

  /** The faces of one frame in order, up to the first lookup that raises. */
  function RecognizeAll(t: Tracker, faces: seq<Seen>, dir: Directory): (r: Marks)
    ensures r.tracker.current == t.current
    ensures Valid(t) ==> Valid(r.tracker)
    ensures r.aborted <==> FirstAbort(faces) < |faces|
    ensures !HasSession(t) ==> r.tracker == t && r.newly == []
    ensures |r.newly| <= |faces|
    ensures forall k :: 0 <= k < |r.newly| ==> r.newly[k] !in Snapshot(t)
    ensures forall j, k :: 0 <= j < k < |r.newly| ==> r.newly[j] != r.newly[k]
    ensures Snapshot(r.tracker) == Snapshot(t) + set p | p in r.newly
    decreases |faces|
  {
    if |faces| == 0 then Marks(t, [], false)
    else match RecognizeOne(t, faces[0], dir)
      case LookupRaised => Marks(t, [], true)
      case FaceStep(tracker, step) =>
        var rest := RecognizeAll(tracker, faces[1..], dir);
        var first := if step.Some? then [step.value] else [];
        PrependFirst(Snapshot(t), Snapshot(tracker), Snapshot(rest.tracker), first, rest.newly);
        Marks(rest.tracker, first + rest.newly, rest.aborted)
  }

  /** A lookup that raises keeps everything the earlier faces of the frame
      did: the marks are those of the faces before it, which recognise
      without a raise. */
  lemma {:induction false} AbortKeepsEarlierMarks(t: Tracker, faces: seq<Seen>, dir: Directory)
    ensures var r := RecognizeAll(t, faces, dir);
      var p := RecognizeAll(t, faces[..FirstAbort(faces)], dir);
      r.tracker == p.tracker && r.newly == p.newly && !p.aborted
    decreases |faces|
  {
    var n := FirstAbort(faces);
    if |faces| > 0 && n > 0 {
      var step := RecognizeOne(t, faces[0], dir);
      assert faces[..n][1..] == faces[1..][..n - 1];
      AbortKeepsEarlierMarks(step.tracker, faces[1..], dir);
    }
  }

  /** What one frame produced: a name and a confidence per detected face,
      the "person-recognized" messages sent, the first-attendance callback
      invocations, and whether a database lookup raised out of the frame. */
  datatype FrameReport = FrameReport(
    names: seq<string>,
    confidences: seq<Confidence>,
    sent: seq<Json>,
    callbacks: seq<string>,
    raised: bool)

  /** `recognize_faces`. A failed detection skips the frame. Otherwise every
      detected face gets one name and one confidence; each person marked for
      the first time in the current session is announced with one
      "person-recognized" message carrying that session id, person id and
      the `k`-th reading `clock(k)` of `ist_timestamp()` in the frame, and
      passed to the first-attendance callback when one is registered. A
      lookup that raises ends the frame before anything is drawn; the
      messages and marks of the faces before it stay. */
  function RecognizeFrame(t: Tracker, detected: Option<seq<Seen>>, dir: Directory, clock: nat -> string, callback: bool)
    : (r: (Tracker, FrameReport))
    ensures detected.None? ==> r == (t, FrameReport([], [], [], [], false))
    ensures r.1.raised <==> detected.Some? && FirstAbort(detected.value) < |detected.value|
    ensures r.1.raised ==> r.1.names == [] && r.1.confidences == []
    ensures detected.Some? && !r.1.raised ==>
      var faces := detected.value;
      && |r.1.names| == |faces| && |r.1.confidences| == |faces|
      && (forall i :: 0 <= i < |faces| ==> r.1.names[i] == NameFor(faces[i].search, dir))
      && (forall i :: 0 <= i < |faces| ==> r.1.confidences[i] == ConfidenceFor(faces[i].search))
    ensures !HasSession(t) ==> r.0 == t && r.1.sent == [] && r.1.callbacks == []
    ensures detected.Some? ==> r.0 == RecognizeAll(t, detected.value, dir).tracker
    ensures HasSession(t) && detected.Some? ==>
      var newly := RecognizeAll(t, detected.value, dir).newly;
      && |r.1.sent| == |newly|
      && (forall k :: 0 <= k < |newly| ==>
            r.1.sent[k] == RecognizedMessage(t.current.value, newly[k], clock(k)) && newly[k] !in Snapshot(t))
      && (forall j, k :: 0 <= j < k < |newly| ==> newly[j] != newly[k])
      && r.1.callbacks == (if callback then newly else [])
  {
    match detected
    case None => (t, FrameReport([], [], [], [], false))
    case Some(faces) =>
      var all := RecognizeAll(t, faces, dir);
      var sid := if t.current.Some? then t.current.value else "";
      var sent := seq(|all.newly|, k requires 0 <= k < |all.newly| => RecognizedMessage(sid, all.newly[k], clock(k)));
      var callbacks := if callback then all.newly else [];
      if all.aborted then (all.tracker, FrameReport([], [], sent, callbacks, true))
      else
        (all.tracker, FrameReport(
          seq(|faces|, i requires 0 <= i < |faces| => NameFor(faces[i].search, dir)),
          seq(|faces|, i requires 0 <= i < |faces| => ConfidenceFor(faces[i].search)),
          sent,
          callbacks,
          false))
  }

  /** Across two consecutive frames of one session, nobody announced in the
      first is announced again in the second: the first frame's marks stay
      in the tracker the second frame starts from. */
  lemma NoRepeatAcrossFrames(t: Tracker, first: seq<Seen>, second: seq<Seen>, dir: Directory, dir': Directory,
                             clock: nat -> string, callback: bool)
    ensures var after := RecognizeFrame(t, Some(first), dir, clock, callback).0;
      var once := RecognizeAll(t, first, dir).newly;
      var again := RecognizeAll(after, second, dir').newly;
      after.current == t.current && forall j, k :: 0 <= j < |once| && 0 <= k < |again| ==> once[j] != again[k]
  {
    var m := RecognizeAll(t, first, dir);
    assert forall j :: 0 <= j < |m.newly| ==> m.newly[j] in Snapshot(m.tracker);
  }

  /** A frame that a lookup ends leaves the tracker, the messages and the
      callbacks exactly as the faces before that lookup would have, and
      those faces make a frame that completes. */
  lemma AbortedFrameKeepsEarlierMarks(t: Tracker, faces: seq<Seen>, dir: Directory, clock: nat -> string, callback: bool)
    ensures var r := RecognizeFrame(t, Some(faces), dir, clock, callback);
      var p := RecognizeFrame(t, Some(faces[..FirstAbort(faces)]), dir, clock, callback);
      r.0 == p.0 && r.1.sent == p.1.sent && r.1.callbacks == p.1.callbacks && !p.1.raised
  {
    AbortKeepsEarlierMarks(t, faces, dir);
  }
}

=== FILE: broker.dfy ===
/** The IPC server of src/ipc/socket_server.py, as sequential bookkeeping:
    the list of connected clients (each with a FIFO send queue and a stop
    flag), the shared append-only handler list, broadcast, accept, stop, and
    the receive and send loops of one client as single steps. Threads, locks,
    sockets and JSON serialisation are abstracted away; a queued message is
    the payload that `json.dumps` would serialise. */
module Broker {
  import opened Values
  import opened Dispatch

  /** An entry of a client's send queue: a message, or the `None` that ends
      the send loop. */
  datatype Outbound = Message(payload: Json) | Sentinel

  /** A connected UI client: its send queue and whether its stop event is
      set (which also means its connection is closed). */
  datatype Client = Client(queue: seq<Outbound>, stopped: bool)

  /** The server: whether it is running, whether its accept loop is alive,
      whether the socket file exists, the clients in accept order, and the
      handler list every client reads from. */
  datatype Server = Server(running: bool, listening: bool, socketFile: bool, clients: seq<Client>, handlers: seq<Handler>)

  /** `SocketServer()`: no clients, no handlers, not running; a leftover
      socket file is removed. */
  function NewServer(): (s: Server)
    ensures !s.running && !s.listening && !s.socketFile
    ensures s.clients == [] && s.handlers == []
  {
    Server(false, false, false, [], [])
  }

  /** `start`: binding fails while the socket file exists (so a second
      `start` raises); otherwise the server listens and runs. */
  function Start(s: Server): (r: Result<Server>)
    ensures r.Err? <==> s.socketFile
    ensures r.Ok? ==> r.value.running && r.value.listening && r.value.socketFile
    ensures r.Ok? ==> r.value.clients == s.clients && r.value.handlers == s.handlers
  {
    if s.socketFile then Err("Address already in use")
    else Ok(s.(running := true, listening := true, socketFile := true))
  }

  /** `Client.stop`: sets the stop event; the queue is left as it is. */
  function StopClient(c: Client): (r: Client)
    ensures r.stopped && r.queue == c.queue
  {
    c.(stopped := true)
  }

  /** `stop`: not running, listening socket closed, every client stopped and
      the list cleared, socket file removed. The stopped clients are
      returned alongside, in list order. */
  function Stop(s: Server): (r: (Server, seq<Client>))
    ensures !r.0.running && !r.0.listening && !r.0.socketFile
    ensures r.0.clients == [] && r.0.handlers == s.handlers
    ensures |r.1| == |s.clients|
    ensures forall i :: 0 <= i < |s.clients| ==> r.1[i].stopped && r.1[i].queue == s.clients[i].queue
  {
    var closed := seq(|s.clients|, i requires 0 <= i < |s.clients| => StopClient(s.clients[i]));
    (s.(running := false, listening := false, socketFile := false, clients := []), closed)
  }

  /** Stopping twice is the same as stopping once. */
  lemma StopIsIdempotent(s: Server)
    ensures Stop(Stop(s).0) == (Stop(s).0, [])
  {
  }

  /** `Client.send_message`: queued at the back unless the client is
      stopped, in which case it is dropped silently. */
  function SendMessage(c: Client, payload: Json): (r: Client)
    ensures r.stopped == c.stopped
    ensures c.stopped ==> r.queue == c.queue
    ensures !c.stopped ==> r.queue == c.queue + [Message(payload)]
  {
    if c.stopped then c else c.(queue := c.queue + [Message(payload)])
  }

  /** `broadcast`: a payload that is not an object raises ValueError before
      any client is touched; otherwise the same message is offered once to
      every client currently in the list. */
  function Broadcast(s: Server, payload: Json): (r: Result<Server>)
    ensures r.Err? <==> !payload.JObj?
    ensures r.Ok? ==> r.value.running == s.running && r.value.listening == s.listening
    ensures r.Ok? ==> r.value.socketFile == s.socketFile && r.value.handlers == s.handlers
    ensures r.Ok? ==> |r.value.clients| == |s.clients|
    ensures r.Ok? ==> forall i :: 0 <= i < |s.clients| ==> r.value.clients[i] == SendMessage(s.clients[i], payload)
  {
    if !payload.JObj? then Err("Payload must be a dict")
    else Ok(s.(clients := seq(|s.clients|, i requires 0 <= i < |s.clients| => SendMessage(s.clients[i], payload))))
  }

  /** Number of queued messages equal to `m`. */
  function Occurrences(q: seq<Outbound>, m: Json): nat {
    if |q| == 0 then 0 else Occurrences(q[..|q| - 1], m) + (if q[|q| - 1] == Message(m) then 1 else 0)
  }

  /** A broadcast adds exactly one copy of its message to each live client's
      queue and none to a stopped client's. */
  lemma BroadcastOnce(s: Server, payload: Json, i: nat)
    requires payload.JObj? && i < |s.clients|
    ensures var q := Broadcast(s, payload).value.clients[i].queue;
      Occurrences(q, payload) == Occurrences(s.clients[i].queue, payload) + (if s.clients[i].stopped then 0 else 1)
  {
    var q := Broadcast(s, payload).value.clients[i].queue;
    if !s.clients[i].stopped {
      assert q[..|q| - 1] == s.clients[i].queue;
    }
  }

  /** One turn of `_socket_listener` while the server runs: a successful
      accept appends a fresh client; an accept error ends the loop. */
  function Accept(s: Server, ok: bool): (r: Server)
    ensures !(s.running && s.listening) ==> r == s
    ensures s.running && s.listening && ok ==> r.clients == s.clients + [Client([], false)] && r.listening
    ensures s.running && s.listening && !ok ==> r.clients == s.clients && !r.listening
    ensures r.running == s.running && r.socketFile == s.socketFile && r.handlers == s.handlers
  {
    if !(s.running && s.listening) then s
    else if ok then s.(clients := s.clients + [Client([], false)])
    else s.(listening := false)
  }

  /** `add_message_handler`: appended to the one list every client reads. */
  function AddHandler(s: Server, h: Handler): (r: Server)
    ensures r.handlers == s.handlers + [h]
    ensures r.clients == s.clients && r.running == s.running && r.listening == s.listening
    ensures r.socketFile == s.socketFile
  {
    s.(handlers := s.handlers + [h])
  }

  /** One turn of client `i`'s `_recv_loop`. A stopped client no longer
      reads. A payload goes to every handler of the server's current list;
      malformed text is skipped; an empty read or a receive error ends the
      loop and stops the client, which stays in the list. */
  function Receive(s: Server, i: nat, chunk: Chunk, raises: (Handler, Json) -> bool): (r: (Server, seq<Call>))
    requires i < |s.clients|
    ensures s.clients[i].stopped || !Ends(chunk) ==> r.0 == s
    ensures !s.clients[i].stopped && chunk.Payload? ==> r.1 == Fan(s.handlers, chunk.payload, raises)
    ensures s.clients[i].stopped || !chunk.Payload? ==> r.1 == []
    ensures !s.clients[i].stopped && Ends(chunk) ==> r.0 == s.(clients := s.clients[i := StopClient(s.clients[i])])
  {
    var c := s.clients[i];
    if c.stopped then (s, [])
    else match chunk
      case Payload(p) => (s, Fan(s.handlers, p, raises))
      case Malformed => (s, [])
      case _ => (s.(clients := s.clients[i := StopClient(c)]), [])
  }

  /** `_recv_loop` of client `i` over the chunks it reads. */
  function RecvLoop(s: Server, i: nat, chunks: seq<Chunk>, raises: (Handler, Json) -> bool): (r: (Server, seq<Call>))
    requires i < |s.clients|
    ensures |r.0.clients| == |s.clients| && r.0.handlers == s.handlers
    ensures !s.clients[i].stopped ==> r.1 == FanEach(s.handlers, Delivered(chunks), raises)
    ensures !s.clients[i].stopped ==> (r.0.clients[i].stopped <==> FirstEnd(chunks) < |chunks|)
    ensures forall j :: 0 <= j < |s.clients| && j != i ==> r.0.clients[j] == s.clients[j]
    ensures r.0.clients[i].queue == s.clients[i].queue
    decreases |chunks|
  {
    if |chunks| == 0 then (s, [])
    else
      var step := Receive(s, i, chunks[0], raises);
      if step.0.clients[i].stopped then (step.0, step.1)
      else
        var rest := RecvLoop(step.0, i, chunks[1..], raises);
        (rest.0, step.1 + rest.1)
  }

  /** One turn of client `i`'s `_send_loop`, with `sendOk` the outcome of
      the socket send. An empty queue times out and changes nothing; the
      sentinel ends the loop; a message is taken off the queue and sent, and
      a failed send ends the loop. The message put on the wire is returned. */
  function SendStep(c: Client, sendOk: bool): (r: (Client, Option<Json>))
    ensures c.stopped || |c.queue| == 0 ==> r == (c, None)
    ensures !c.stopped && |c.queue| > 0 ==> r.0.queue == c.queue[1..]
    ensures r.1.Some? <==> !c.stopped && |c.queue| > 0 && c.queue[0].Message? && sendOk
    ensures r.1.Some? ==> r.1.value == c.queue[0].payload && !r.0.stopped
    ensures !c.stopped && |c.queue| > 0 && r.1.None? ==> r.0.stopped
  {
    if c.stopped || |c.queue| == 0 then (c, None)
    else match c.queue[0]
      case Sentinel => (Client(c.queue[1..], true), None)
      case Message(m) =>
        if sendOk then (Client(c.queue[1..], false), Some(m)) else (Client(c.queue[1..], true), None)
  }

  /** The messages of a queue up to its first sentinel, in queue order. */
  function UpToSentinel(q: seq<Outbound>): seq<Json> {
    if |q| == 0 || q[0].Sentinel? then [] else [q[0].payload] + UpToSentinel(q[1..])
  }

  /** `_send_loop` run until the queue is empty or the loop ends; the k-th
      send succeeds iff `sendOk(k)`. Returns the client and what went on
      the wire, in order: always a prefix of the queued messages before the
      first sentinel, all of them when every send succeeds. When fewer went
      out, the client is stopped, and unless it was stopped already or met
      the sentinel, the send right after the last delivered one failed. */
  function SendLoop(c: Client, sendOk: nat -> bool, k: nat): (r: (Client, seq<Json>))
    ensures |r.1| <= |c.queue|
    ensures |r.1| <= |UpToSentinel(c.queue)| && r.1 == UpToSentinel(c.queue)[..|r.1|]
    ensures (forall j :: k <= j < k + |c.queue| ==> sendOk(j)) && !c.stopped ==> r.1 == UpToSentinel(c.queue)
    ensures !c.stopped && |r.1| < |UpToSentinel(c.queue)| ==> r.0.stopped && !sendOk(k + |r.1|)
    ensures r.0.stopped || |r.0.queue| == 0
    decreases |c.queue|
  {
    if c.stopped || |c.queue| == 0 then (c, [])
    else
      var step := SendStep(c, sendOk(k));
      if step.1.None? then (step.0, [])
      else
        var rest := SendLoop(step.0, sendOk, k + 1);
        (rest.0, [step.1.value] + rest.1)
  }

  /** The send loop delivers in enqueue order: messages queued by two
      broadcasts to a live client leave in the order they were broadcast. */
  lemma SendOrderFollowsBroadcasts(c: Client, a: Json, b: Json)
    requires !c.stopped && c.queue == []
    ensures SendLoop(SendMessage(SendMessage(c, a), b), _ => true, 0).1 == [a, b]
  {
    var q := SendMessage(SendMessage(c, a), b).queue;
    assert q == [Message(a), Message(b)];
    assert q[1..][1..] == [];
  }

  /** The global `_socket_server`, created on first use. */
  function GetServer(g: Option<Server>): (r: (Option<Server>, Server))
    ensures r.0 == Some(r.1)
    ensures g.Some? ==> r.1 == g.value
    ensures g.None? ==> r.1 == NewServer()
  {
    if g.Some? then (g, g.value) else var s := NewServer(); (Some(s), s)
  }

  /** `stop_socket_server`: stops an existing server and forgets it. */
  function StopServer(g: Option<Server>): (r: (Option<Server>, seq<Client>))
    ensures r.0.None?
    ensures g.None? ==> r.1 == []
    ensures g.Some? ==> r.1 == Stop(g.value).1
  {
    if g.Some? then (None, Stop(g.value).1) else (None, [])
  }

  /** Two UI clients connect, the first one's connection closes, and a
      broadcast afterwards reaches only the second: the first client stays in
      the list but is stopped, so the message is dropped for it. */
  lemma TeardownKeepsClientButDropsMessages(h: seq<Handler>, p: Json, raises: (Handler, Json) -> bool)
    requires p.JObj?
    ensures var s0 := Start(NewServer()).value;
      var s1 := Accept(Accept(s0, true), true);
      var s2 := Receive(s1, 0, Closed, raises).0;
      var s3 := Broadcast(s2, p).value;
      |s3.clients| == 2 && s3.clients[0].queue == [] && s3.clients[1].queue == [Message(p)]
  {
  }

  /** A handler registered after a client connected still runs for that
      client's next payload, because the client reads the server's list. */
  lemma LateHandlerRuns(s: Server, h: Handler, p: Json, raises: (Handler, Json) -> bool)
    requires s.running && s.listening
    ensures var s1 := AddHandler(Accept(s, true), h);
      var calls := Receive(s1, |s.clients|, Payload(p), raises).1;
      |calls| > 0 && calls[|calls| - 1] == Call(h, p, raises(h, p))
  {
  }
}

=== FILE: bulk_import.dfy ===
/** The people bulk import of src/scripts/bulk_import_people.py: loading
    the array, choosing the index window, classifying each record as
    skipped, failed or enrolled, counting, and the exit code. The database,
    the network and the face SDK are per-record parameters. */
module BulkImport {
  import opened Values
  import opened Effects
  import opened Images
  import PeopleApi
  import ApiServer

  /** `_load_people`: the array, or an error when the file is missing or
      unreadable (None) or its top level is not an array. */
  function LoadPeople(file: Option<Json>): (r: Result<seq<Json>>)
    ensures r.Ok? <==> file.Some? && file.value.JArr?
    ensures r.Ok? ==> r.value == file.value.items
  {
    match file
    case None => Err("JSON file not found")
    case Some(data) =>
      if data.JArr? then Ok(data.items) else Err("Top-level JSON must be an array of people objects")
  }

  /** `_upsert_person_record`: the row to upsert, or the ValueError raised
      when personId, preferredName|name or userType is missing. */
  function UpsertPersonRecord(f: map<string, Json>, filename: string, now: string): (r: Result<PersonRow>)
    ensures r.Ok? <==> Truthy(Get(f, "personId")) && Truthy(PeopleApi.PersonName(f)) && Truthy(Get(f, "userType"))
    ensures r.Ok? ==> r.value.uniqueId == Get(f, "personId") && r.value.pictureFileName == filename
    ensures r.Ok? && Truthy(Get(f, "preferredName")) ==> r.value.name == f["preferredName"]
    ensures r.Ok? && !Truthy(Get(f, "preferredName")) ==> r.value.name == f["name"]
  {
    if !Truthy(Get(f, "personId")) || !Truthy(PeopleApi.PersonName(f)) || !Truthy(Get(f, "userType")) then
      Err("personId, preferredName|name and userType are required")
    else Ok(PeopleApi.AddRow(f, filename, now))
  }

  /** The window `people[start:end]`: start clamped at 0, end `start +
      limit` for a non-negative limit and open otherwise, both clamped to
      the list as Python slicing does. */
  function Window(n: nat, start: int, limit: Option<int>): (r: (nat, nat))
    ensures r.0 <= r.1 <= n
    ensures r.0 == if start <= 0 then 0 else if start <= n then start else n
    ensures limit.None? || limit.value < 0 ==> r.1 == n
    ensures limit.Some? && limit.value >= 0 ==> r.1 - r.0 <= limit.value
    ensures limit.Some? && limit.value >= 0 && (if start <= 0 then 0 else start) + limit.value <= n ==>
      r.1 - r.0 == limit.value
  {
    var s: int := if start <= 0 then 0 else start;
    var lo: nat := if s <= n then s else n;
    var hi: nat := if limit.Some? && limit.value >= 0 then (if s + limit.value <= n then s + limit.value else n) else n;
    (lo, hi)
  }

  /** What importing one record meets outside: whether a mapping already
      exists, the image fetch, the upsert and the face enrolment. */
  datatype RecordEnv = RecordEnv(mapped: bool, fetch: FetchEnv, upsertOk: bool, enrollment: ApiServer.EnrollOutcome, now: string)

  /** Where a record ends up. A record that is not an object makes
      `person.get` raise outside any handler, which ends the script. */
  datatype Outcome = Skipped | Failed | Enrolled | Crash

  /** The record is skipped: it lacks an id or a picture url, or it is
      already mapped and `--force` is off. */
  predicate SkipsRecord(f: map<string, Json>, force: bool, mapped: bool) {
    !(Truthy(Get(f, "personId")) && Truthy(PeopleApi.PictureUrl(f))) || (!force && mapped)
  }

  /** Every step after the skip checks goes through: the url is text, the
      image is fetched, the row is built and upserted, and a face is
      enrolled. */
  predicate StepsSucceed(f: map<string, Json>, env: RecordEnv) {
    var url := PeopleApi.PictureUrl(f);
    url.JStr?
    && DownloadIfNeeded(url.s, env.fetch).0.Fetched?
    && UpsertPersonRecord(f, DownloadIfNeeded(url.s, env.fetch).0.filename, env.now).Ok?
    && env.upsertOk
    && env.enrollment == ApiServer.FaceAdded
  }

  /** The body of the import loop for one record. */
  function Classify(person: Json, force: bool, env: RecordEnv): (r: Outcome)
    ensures r == Crash <==> !person.JObj?
    ensures person.JObj? ==> (r == Skipped <==> SkipsRecord(person.fields, force, env.mapped))
    ensures person.JObj? ==>
      (r == Enrolled <==> !SkipsRecord(person.fields, force, env.mapped) && StepsSucceed(person.fields, env))
    ensures r == Enrolled ==> env.enrollment == ApiServer.FaceAdded && env.upsertOk && (force || !env.mapped)
  {
    if !person.JObj? then Crash
    else
      var f := person.fields;
      var url := PeopleApi.PictureUrl(f);
      if !Truthy(Get(f, "personId")) || !Truthy(url) then Skipped
      else if !force && env.mapped then Skipped
      else if !url.JStr? then Failed
      else
        var d := DownloadIfNeeded(url.s, env.fetch);
        if !d.0.Fetched? then Failed
        else if UpsertPersonRecord(f, d.0.filename, env.now).Err? || !env.upsertOk then Failed
        else if env.enrollment != ApiServer.FaceAdded then Failed
        else Enrolled
  }

  /** A record is skipped before any download: whether it is skipped does
      not depend on the fetch, the upsert or the enrolment. */
  lemma SkipDecidedBeforeDownload(person: Json, force: bool, a: RecordEnv, b: RecordEnv)
    requires a.mapped == b.mapped
    ensures Classify(person, force, a) == Skipped <==> Classify(person, force, b) == Skipped
  {
    if person.JObj? {
      var f := person.fields;
      var url := PeopleApi.PictureUrl(f);
      if Truthy(Get(f, "personId")) && Truthy(url) && (force || !a.mapped) {
        assert Classify(person, force, a) != Skipped;
        assert Classify(person, force, b) != Skipped;
      }
    }
  }

  /** The outcomes of the records `people[lo..hi]`. */
  function Outcomes(people: seq<Json>, lo: nat, hi: nat, force: bool, envs: nat -> RecordEnv): (r: seq<Outcome>)
    requires lo <= hi <= |people|
    ensures |r| == hi - lo
    ensures forall k :: 0 <= k < |r| ==> r[k] == Classify(people[lo + k], force, envs(lo + k))
  {
    seq(hi - lo, k requires 0 <= k < hi - lo => Classify(people[lo + k], force, envs(lo + k)))
  }

  /** How many outcomes equal `o`. */
  function CountOf(s: seq<Outcome>, o: Outcome): (r: nat)
    ensures r <= |s|
  {
    if |s| == 0 then 0 else CountOf(s[..|s| - 1], o) + (if s[|s| - 1] == o then 1 else 0)
  }

  /** Every outcome lands in exactly one bucket. */
  lemma {:induction false} BucketsPartition(s: seq<Outcome>)
    ensures CountOf(s, Skipped) + CountOf(s, Failed) + CountOf(s, Enrolled) + CountOf(s, Crash) == |s|
  {
    if |s| > 0 {
      BucketsPartition(s[..|s| - 1]);
    }
  }

  lemma {:induction false} NoCrashCounted(s: seq<Outcome>)
    requires Crash !in s
    ensures CountOf(s, Crash) == 0
  {
    if |s| > 0 {
      assert s[..|s| - 1] <= s;
      NoCrashCounted(s[..|s| - 1]);
    }
  }

  /** The exit code for a run that did not crash: 0 without failures, 2
      otherwise. */
  function FinishCode(failed: nat): (r: int)
    ensures r == 0 <==> failed == 0
    ensures r == 0 || r == 2
  {
    if failed == 0 then 0 else 2
  }

  /** The counting loop of `main` over the outcomes of the window, in
      order: stops at the first crash; otherwise each record increments
      exactly one of skipped, failed and enrolled, and `processed` follows
      `enrolled`. */
  method Tally(outs: seq<Outcome>) returns (crashed: bool, enrolled: nat, skipped: nat, failed: nat, processed: nat)
    ensures crashed <==> Crash in outs
    ensures !crashed ==> (enrolled == CountOf(outs, Enrolled) && skipped == CountOf(outs, Skipped)
      && failed == CountOf(outs, Failed))
    ensures !crashed ==> enrolled + skipped + failed == |outs|
    ensures processed == enrolled
  {
    enrolled, skipped, failed, processed := 0, 0, 0, 0;
    var k := 0;
    while k < |outs|
      invariant 0 <= k <= |outs|
      invariant Crash !in outs[..k]
      invariant enrolled == CountOf(outs[..k], Enrolled)
      invariant skipped == CountOf(outs[..k], Skipped)
      invariant failed == CountOf(outs[..k], Failed)
      invariant processed == enrolled
    {
      var o := outs[k];
      assert outs[..k + 1] == outs[..k] + [o];
      assert (outs[..k] + [o])[..k] == outs[..k];
      if o == Crash {
        return true, enrolled, skipped, failed, processed;
      }
      match o {
        case Skipped => skipped := skipped + 1;
        case Failed => failed := failed + 1;
        case Enrolled => enrolled := enrolled + 1; processed := processed + 1;
      }
      k := k + 1;
    }
    assert outs[..k] == outs;
    BucketsPartition(outs);
    NoCrashCounted(outs);
    crashed := false;
  }

  /** `main`. `initOk` is whether `FaceRecognizer()` could be created;
      `envs` gives each record's environment by its index in the array.
      Returns the exit code and the counters. */
  method Import(file: Option<Json>, initOk: bool, start: int, limit: Option<int>, force: bool, envs: nat -> RecordEnv)
    returns (code: int, total: nat, enrolled: nat, skipped: nat, failed: nat, processed: nat)
    ensures LoadPeople(file).Err? || !initOk ==> code == 1
    ensures LoadPeople(file).Ok? && initOk ==>
      var people := LoadPeople(file).value;
      var w := Window(|people|, start, limit);
      var outs := Outcomes(people, w.0, w.1, force, envs);
      (Crash in outs ==> code == 1)
      && (Crash !in outs ==>
        total == w.1 - w.0
        && enrolled == CountOf(outs, Enrolled) && skipped == CountOf(outs, Skipped) && failed == CountOf(outs, Failed)
        && enrolled + skipped + failed == total
        && processed == enrolled
        && code == FinishCode(failed))
  {
    total, enrolled, skipped, failed, processed := 0, 0, 0, 0, 0;
    var loaded := LoadPeople(file);
    if loaded.Err? || !initOk {
      return 1, total, enrolled, skipped, failed, processed;
    }
    var people := loaded.value;
    var w := Window(|people|, start, limit);
    var outs := Outcomes(people, w.0, w.1, force, envs);
    var crashed;
    crashed, enrolled, skipped, failed, processed := Tally(outs);
    if crashed {
      return 1, total, enrolled, skipped, failed, processed;
    }
    total := w.1 - w.0;
    code := FinishCode(failed);
  }
}

=== FILE: dispatch.dfy ===
/** Handler fan-out, shared by the server-side `Client._recv_loop`,
    `SocketClient.run` and `SocketManager._handle_message`: a parsed payload
    is handed to every registered handler in registration order, each call
    inside its own `try`, so a raising handler is logged and the next one
    still runs. */
module Dispatch {
  import opened Values

  /** A registered callback, identified by name. */
  type Handler = string

  /** One handler invocation and whether it raised (the exception is logged
      and swallowed). */
  datatype Call = Call(handler: Handler, payload: Json, raised: bool)

  /** `for handler in handlers: try: handler(payload) except: log`.
      `raises(h, p)` says whether handler `h` raises on payload `p`. */
  function Fan(handlers: seq<Handler>, payload: Json, raises: (Handler, Json) -> bool): (r: seq<Call>)
    ensures |r| == |handlers|
    ensures forall i :: 0 <= i < |handlers| ==> r[i].handler == handlers[i] && r[i].payload == payload
    ensures forall i :: 0 <= i < |handlers| ==> r[i].raised == raises(handlers[i], payload)
  {
    if |handlers| == 0 then []
    else
      var h := handlers[|handlers| - 1];
      Fan(handlers[..|handlers| - 1], payload, raises) + [Call(h, payload, raises(h, payload))]
  }

  /** The handlers that ran, in order, forgetting whether they raised. */
  function Invoked(calls: seq<Call>): (r: seq<(Handler, Json)>)
    ensures |r| == |calls|
    ensures forall i :: 0 <= i < |calls| ==> r[i] == (calls[i].handler, calls[i].payload)
  {
    if |calls| == 0 then [] else Invoked(calls[..|calls| - 1]) + [(calls[|calls| - 1].handler, calls[|calls| - 1].payload)]
  }

  /** Exceptions are isolated: which handlers run, in which order and on
      which payload does not depend on which of them raise. */
  lemma FanIgnoresRaises(handlers: seq<Handler>, payload: Json, raises1: (Handler, Json) -> bool, raises2: (Handler, Json) -> bool)
    ensures Invoked(Fan(handlers, payload, raises1)) == Invoked(Fan(handlers, payload, raises2))
  {
  }

  /** Handing one payload to a list extended by one handler runs the old
      handlers first, then the new one. */
  lemma FanAppend(handlers: seq<Handler>, h: Handler, payload: Json, raises: (Handler, Json) -> bool)
    ensures Fan(handlers + [h], payload, raises) == Fan(handlers, payload, raises) + [Call(h, payload, raises(h, payload))]
  {
    assert (handlers + [h])[..|handlers|] == handlers;
  }

  /** What one `recv` produced, as the loops see it: a JSON payload, text
      that is not valid JSON, the empty read of a closed peer, or a receive
      error. One `recv` is taken to carry exactly one message. */
  datatype Chunk = Payload(payload: Json) | Malformed | Closed | ReadFailed

  predicate Ends(c: Chunk) {
    c.Closed? || c.ReadFailed?
  }

  /** The payloads a receive loop hands on: those of the `Payload` chunks
      before the first chunk that ends the loop. */
  function Delivered(chunks: seq<Chunk>): (r: seq<Json>)
    ensures |r| <= |chunks|
  {
    if |chunks| == 0 || Ends(chunks[0]) then []
    else if chunks[0].Payload? then [chunks[0].payload] + Delivered(chunks[1..])
    else Delivered(chunks[1..])
  }

  /** Every payload in turn to every handler, as a receive loop does. */
  function FanEach(handlers: seq<Handler>, payloads: seq<Json>, raises: (Handler, Json) -> bool): (r: seq<Call>)
    ensures |r| == |handlers| * |payloads|
  {
    if |payloads| == 0 then []
    else Fan(handlers, payloads[0], raises) + FanEach(handlers, payloads[1..], raises)
  }

  /** The position of the first chunk that ends the loop, or the length when
      none does. */
  function FirstEnd(chunks: seq<Chunk>): (n: nat)
    ensures n <= |chunks|
    ensures forall k :: 0 <= k < n ==> !Ends(chunks[k])
    ensures n < |chunks| ==> Ends(chunks[n])
  {
    if |chunks| == 0 || Ends(chunks[0]) then 0 else 1 + FirstEnd(chunks[1..])
  }

  /** Malformed chunks are skipped without ending the loop: dropping them
      changes nothing that is delivered. */
  lemma {:induction false} MalformedIsSkipped(a: seq<Chunk>, b: seq<Chunk>)
    ensures Delivered(a + [Malformed] + b) == Delivered(a + b)
  {
    if |a| == 0 {
      assert a + [Malformed] + b == [Malformed] + b;
      assert ([Malformed] + b)[1..] == b;
      assert a + b == b;
    } else {
      assert (a + [Malformed] + b)[0] == a[0];
      assert (a + [Malformed] + b)[1..] == a[1..] + [Malformed] + b;
      assert (a + b)[1..] == a[1..] + b;
      MalformedIsSkipped(a[1..], b);
    }
  }

  /** Nothing after the first ending chunk is delivered. */
  lemma {:induction false} NothingAfterEnd(chunks: seq<Chunk>)
    ensures Delivered(chunks) == Delivered(chunks[..FirstEnd(chunks)])
  {
    if |chunks| > 0 && !Ends(chunks[0]) {
      NothingAfterEnd(chunks[1..]);
      assert chunks[..FirstEnd(chunks)][1..] == chunks[1..][..FirstEnd(chunks[1..])];
    }
  }
}

=== FILE: effects.dfy ===
/** The observable outcomes of the HTTP handlers and the import script:
    the rows they write, the calls they make outside the process, and the
    replies they send. Handlers return a reply together with the ordered
    list of effects they performed. */
module Effects {
  import opened Values

  /** A row of the Person table as the handlers write it. Fields are kept as
      the JSON values taken from the request. */
  datatype PersonRow = PersonRow(
    uniqueId: Json,
    name: Json,
    admissionNumber: Json,
    roomId: Json,
    pictureFileName: string,
    personType: Json,
    syncedAt: Option<string>)

  datatype Effect =
    | HttpGet(url: string)
    | WriteImage(filename: string)
    | RemoveImage(filename: string)
    | UpsertPerson(row: PersonRow)
    | EnrollFace(personId: Json, filename: string)
    | Broadcast(payload: Json)
    | RemoteMark(sessionId: Json, personId: Json, attendanceTimeStamp: Json)
    | InsertAttendance(personId: Json, attendanceTime: Option<string>, sessionId: Json, syncedAt: Option<string>)
    | HubRemove(hubId: int)
    | DeleteMapping(person: string)
    | DeletePersonRow(person: string)

  /** An HTTP reply: status code and JSON body. */
  datatype Reply = Reply(status: int, body: Json)

  /** A one-field JSON object, the shape of most error bodies. */
  function Field(key: string, value: string): Json {
    JObj(map[key := JStr(value)])
  }

  /** No effect of `s` is a broadcast. */
  predicate NoBroadcast(s: seq<Effect>) {
    forall k :: 0 <= k < |s| ==> !s[k].Broadcast?
  }

  /** No effect of `s` removes an image. */
  predicate NoRemoval(s: seq<Effect>) {
    forall k :: 0 <= k < |s| ==> !s[k].RemoveImage?
  }

  /** No effect of `s` fetches or writes an image. */
  predicate NoDownload(s: seq<Effect>) {
    forall k :: 0 <= k < |s| ==> !s[k].HttpGet? && !s[k].WriteImage?
  }

  predicate WritesDatabase(e: Effect) {
    e.UpsertPerson? || e.InsertAttendance? || e.DeleteMapping? || e.DeletePersonRow?
  }
}

=== FILE: enrollment.dfy ===
/** `FaceRecognizer.add_face` of src/core/face_recognizer.py: enrol the
    largest detected face into the FeatureHub and record which person the new
    hub id belongs to in FaceIdentityMap. */
module Enrollment {
  import opened Values
  import opened Faces

  /** The FeatureHub's answer to `feature_hub_face_insert`. */
  datatype Insert = Inserted(newId: int) | InsertFailed

  /** FaceIdentityMap: hubId (primary key) to personId (unique). */
  type IdentityMap = map<int, string>

  /** Each person appears under at most one hub id (the unique constraint). */
  ghost predicate Injective(m: IdentityMap) {
    forall h, h' :: h in m && h' in m && h != h' ==> m[h] != m[h']
  }

  /** `FaceIdentityMap.insert(hubId, personId).on_conflict_replace()`: SQLite's
      REPLACE drops every row that clashes on the primary key or on the unique
      personId, then inserts the new row. */
  function ReplaceMapping(m: IdentityMap, hub: int, pid: string): (r: IdentityMap)
    ensures hub in r && r[hub] == pid
    ensures forall h :: h in r && h != hub ==> h in m && r[h] == m[h] && m[h] != pid
    ensures forall h :: h in m && h != hub && m[h] != pid ==> h in r
    ensures Injective(m) ==> Injective(r)
  {
    (map h | h in m && m[h] != pid :: m[h])[hub := pid]
  }

  /** What `add_face` did: the face it chose, the hub id it returns (None for
      Python's None), the FaceIdentityMap afterwards, and whether the mapping
      insert raised out of the call. */
  datatype AddFaceResult = AddFaceResult(chosen: Option<nat>, newId: Option<int>, mapping: IdentityMap, raised: bool)

  /** `add_face(frame, person_id)`. With no face detected nothing happens.
      Otherwise the feature of the largest face is inserted into the hub; a
      successful insert returns the new id and, when a person id was given,
      maps that id to the person. `mapOk` says whether connecting and the
      FaceIdentityMap insert went through: their `try` has no `except`, so a
      failure leaves the hub entry in place, returns nothing and raises. */
  function AddFace(faces: seq<Box>, featureOk: bool, insert: Insert, personId: Option<string>, mapOk: bool, m: IdentityMap)
    : (r: AddFaceResult)
    ensures r.chosen == LargestFace(faces)
    ensures r.raised <==>
      |faces| > 0 && featureOk && insert.Inserted? && personId.Some? && personId.value != "" && !mapOk
    ensures r.raised ==> r.newId.None? && r.mapping == m
    ensures r.newId.Some? <==> |faces| > 0 && featureOk && insert.Inserted? && !r.raised
    ensures r.newId.Some? ==> r.newId.value == insert.newId
    ensures r.newId.None? || personId.None? || personId.value == "" ==> r.mapping == m
    ensures r.newId.Some? && personId.Some? && personId.value != "" ==>
      r.mapping == ReplaceMapping(m, r.newId.value, personId.value)
    ensures Injective(m) ==> Injective(r.mapping)
  {
    var chosen := LargestFace(faces);
    if chosen.None? || !featureOk || insert.InsertFailed? then AddFaceResult(chosen, None, m, false)
    else if personId.Some? && personId.value != "" then
      if mapOk then AddFaceResult(chosen, Some(insert.newId), ReplaceMapping(m, insert.newId, personId.value), false)
      else AddFaceResult(chosen, None, m, true)
    else
      AddFaceResult(chosen, Some(insert.newId), m, false)
  }

  /** Enrolling a person again moves them to the new hub id: afterwards the
      map resolves exactly one hub id to them. */
  lemma ReenrollMovesPerson(faces: seq<Box>, a: int, b: int, pid: string, m: IdentityMap)
    requires |faces| > 0 && pid != ""
    ensures var m1 := AddFace(faces, true, Inserted(a), Some(pid), true, m).mapping;
      var m2 := AddFace(faces, true, Inserted(b), Some(pid), true, m1).mapping;
      (forall h :: h in m2 && m2[h] == pid <==> h == b)
  {
  }
}

=== FILE: faces.dfy ===
/** Detected face boxes and the "largest face" choice both recognizers make
    before enrolling a face. */
module Faces {
  import opened Values

  /** A detector bounding box `(x1, y1, x2, y2)`. */
  datatype Box = Box(x1: int, y1: int, x2: int, y2: int)

  /** The key `max` ranks faces by: `(x2 - x1) * (y2 - y1)`. */
  function Area(b: Box): int {
    (b.x2 - b.x1) * (b.y2 - b.y1)
  }

  /** `max(faces[..n], key=Area)`: the position of the first face of largest
      area among the first `n` faces. Python's `max` keeps the earliest of
      equal maxima. */
  function FirstLargest(faces: seq<Box>, n: nat): (i: nat)
    requires 0 < n <= |faces|
    ensures i < n
    ensures forall j :: 0 <= j < n ==> Area(faces[j]) <= Area(faces[i])
    ensures forall j :: 0 <= j < i ==> Area(faces[j]) < Area(faces[i])
  {
    if n == 1 then 0
    else
      var k := FirstLargest(faces, n - 1);
      if Area(faces[n - 1]) > Area(faces[k]) then n - 1 else k
  }

  /** The face `add_face` extracts a feature from: none when nothing was
      detected, otherwise the first face of largest area. */
  function LargestFace(faces: seq<Box>): (r: Option<nat>)
    ensures r.None? <==> |faces| == 0
    ensures r.Some? ==> r.value < |faces|
    ensures r.Some? ==> forall j :: 0 <= j < |faces| ==> Area(faces[j]) <= Area(faces[r.value])
    ensures r.Some? ==> forall j :: 0 <= j < r.value ==> Area(faces[j]) < Area(faces[r.value])
  {
    if |faces| == 0 then None else Some(FirstLargest(faces, |faces|))
  }

  /** The hub's confidence, a float that the model treats as opaque. */
  datatype Confidence = ZeroConfidence | HubConfidence(raw: real)

  /** What the SDK reported for one detected face: no feature could be
      extracted, the hub search gave nothing, or it gave an identity (id -1
      means "no match") with a confidence. */
  datatype Search = NoFeature | NoResult | Found(hubId: int, confidence: Confidence)

  /** The confidence recorded for a face: the hub's value for a match, else 0.0. */
  function ConfidenceFor(s: Search): Confidence {
    if s.Found? && s.hubId != -1 then s.confidence else ZeroConfidence
  }
}

=== FILE: images.dfy ===
/** `_download_image_if_needed` of src/api/people.py (the same steps also
    appear inline in `enroll` of src/api/server.py): the picture URL must
    name a `.jpg` file; a file already on disk is reused; otherwise it is
    fetched, its status and Content-Type checked, and written to disk. */
module Images {
  import opened Values
  import opened Text
  import opened Effects

  /** The part of `s` before the first `c`, or all of `s`. */
  function Before(s: string, c: char): (r: string)
    ensures c !in r
    ensures StartsWith(s, r)
    ensures c !in s ==> r == s
  {
    match IndexOf(s, c)
    case None => s
    case Some(i) => s[..i]
  }

  /** `urlparse(url).path`, for URLs of the form `scheme://netloc/path`
      or a bare path, without fragment and query. A URL with a netloc but no
      slash after it has the empty path. */
  function UrlPath(url: string): (r: string)
    ensures '?' !in r && '#' !in r
  {
    var u := Before(Before(url, '#'), '?');
    assert '#' !in u by {
      assert StartsWith(Before(url, '#'), u);
      assert forall k :: 0 <= k < |u| ==> u[k] == Before(url, '#')[k];
    }
    match IndexOf(u, ':')
    case Some(i) =>
      if i + 3 <= |u| && u[i + 1..i + 3] == "//" then
        var rest := u[i + 3..];
        (match IndexOf(rest, '/')
         case None => ""
         case Some(j) => rest[j..])
      else u
    case None => u
  }

  /** `os.path.basename(path)`: what follows the last slash. */
  function Basename(path: string): (r: string)
    ensures '/' !in r
    ensures EndsWith(path, r)
    ensures '/' !in path ==> r == path
  {
    match LastIndexOf(path, '/')
    case None => path
    case Some(i) => path[i + 1..]
  }

  /** `filename.lower().endswith(".jpg")` */
  predicate IsJpgName(filename: string) {
    EndsWith(Lower(filename), ".jpg")
  }

  /** `"image/jpeg" in content_type.lower()` */
  predicate IsJpegType(contentType: string) {
    Contains(Lower(contentType), "image/jpeg")
  }

  /** The file name an image URL is stored under. */
  function FileNameOf(url: string): string {
    Basename(UrlPath(url))
  }

  /** The answer to `requests.get`: a response with its status and
      Content-Type header (absent is None), or an exception. */
  datatype Response = Response(status: int, contentType: Option<string>) | RequestFailed

  /** The outside world seen by one image fetch: whether the file is already
      on disk, what the request returns, and whether writing the file works. */
  datatype FetchEnv = FetchEnv(fileExists: bool, response: Response, writeOk: bool)

  /** The outcome: the file name and whether it was downloaded by this call,
      or which check raised. */
  datatype Fetch =
    | Fetched(filename: string, downloadedNow: bool)
    | NotJpgName
    | BadStatus(status: int)
    | NotJpeg
    | FetchFailed

  /** The fetch of an accepted file name `name` for `url`: reuse the file on
      disk, or request it, check the status and Content-Type, and write it. */
  function FetchFile(url: string, name: string, env: FetchEnv): (r: (Fetch, seq<Effect>))
    ensures r.0 != NotJpgName
    ensures r.0.Fetched? ==> r.0.filename == name && (r.0.downloadedNow <==> !env.fileExists)
    ensures env.fileExists <==> r.1 == []
    ensures env.fileExists ==> r.0 == Fetched(name, false)
    ensures r.0 == Fetched(name, true) <==> r.1 == [HttpGet(url), WriteImage(name)]
    ensures !env.fileExists && r.0 != Fetched(name, true) ==> r.1 == [HttpGet(url)]
    ensures r.0.BadStatus? ==> r.0.status != 200
    ensures NoBroadcast(r.1) && NoRemoval(r.1)
  {
    if env.fileExists then (Fetched(name, false), [])
    else match env.response
      case RequestFailed => (FetchFailed, [HttpGet(url)])
      case Response(status, contentType) =>
        if status != 200 then (BadStatus(status), [HttpGet(url)])
        else if !IsJpegType(if contentType.Some? then contentType.value else "") then (NotJpeg, [HttpGet(url)])
        else if !env.writeOk then (FetchFailed, [HttpGet(url)])
        else (Fetched(name, true), [HttpGet(url), WriteImage(name)])
  }

  /** The download of `url` stored under `name`: a name that is not `.jpg`
      is refused before anything else; its own effects are at most a
      request and a write, never a removal or a broadcast. */
  function DownloadNamed(url: string, name: string, env: FetchEnv): (r: (Fetch, seq<Effect>))
    ensures r.0 == NotJpgName <==> !IsJpgName(name)
    ensures r.0.Fetched? ==> r.0.filename == name && IsJpgName(name)
    ensures r.0.Fetched? ==> (r.0.downloadedNow <==> !env.fileExists)
    ensures !IsJpgName(name) || env.fileExists ==> r.1 == []
    ensures r.0 == Fetched(name, true) ==> r.1 == [HttpGet(url), WriteImage(name)]
    ensures !r.0.Fetched? || !r.0.downloadedNow ==> WriteImage(name) !in r.1
    ensures r.0.BadStatus? ==> r.0.status != 200
    ensures r.1 == [] || r.1 == [HttpGet(url)]
      || (r.0 == Fetched(name, true) && r.1 == [HttpGet(url), WriteImage(name)])
    ensures NoBroadcast(r.1) && NoRemoval(r.1)
  {
    if !IsJpgName(name) then (NotJpgName, [])
    else FetchFile(url, name, env)
  }

  /** `_download_image_if_needed(url)` with its effects: the file is stored
      under the basename of the URL's path. */
  function DownloadIfNeeded(url: string, env: FetchEnv): (r: (Fetch, seq<Effect>))
    ensures r.0 == NotJpgName <==> !IsJpgName(FileNameOf(url))
    ensures r.0.Fetched? ==> r.0.filename == FileNameOf(url) && IsJpgName(r.0.filename)
    ensures r.0.Fetched? ==> (r.0.downloadedNow <==> !env.fileExists)
    ensures !IsJpgName(FileNameOf(url)) || env.fileExists ==> r.1 == []
    ensures r.0 == Fetched(FileNameOf(url), true) ==> r.1 == [HttpGet(url), WriteImage(FileNameOf(url))]
    ensures !r.0.Fetched? || !r.0.downloadedNow ==> WriteImage(FileNameOf(url)) !in r.1
    ensures r.0.BadStatus? ==> r.0.status != 200
    ensures r.1 == [] || r.1 == [HttpGet(url)]
      || (r.0 == Fetched(FileNameOf(url), true) && r.1 == [HttpGet(url), WriteImage(FileNameOf(url))])
    ensures NoBroadcast(r.1) && NoRemoval(r.1)
  {
    DownloadNamed(url, FileNameOf(url), env)
  }

  /** The extension check ignores case. */
  lemma JpgCheckIgnoresCase(name: string)
    ensures IsJpgName(name) <==> IsJpgName(Lower(name))
  {
    assert Lower(Lower(name)) == Lower(name);
  }

  /** A cached file is reused whatever the network would have answered. */
  lemma CachedFileNeedsNoNetwork(url: string, a: Response, b: Response, w1: bool, w2: bool)
    requires IsJpgName(FileNameOf(url))
    ensures DownloadIfNeeded(url, FetchEnv(true, a, w1)) == DownloadIfNeeded(url, FetchEnv(true, b, w2))
    ensures DownloadIfNeeded(url, FetchEnv(true, a, w1)).0 == Fetched(FileNameOf(url), false)
  {
  }
}

=== FILE: legacy_recognizer.dfy ===
/** The standalone `FaceRecognizer` of face_recognizer.py: its hub-id to
    name map (loaded from JSON with a pickle fallback, saved as JSON), the
    names and confidences it shows per face, enrolment from the console and
    from a JSON list of people, deletion by id, and the 16-column padding of
    frames on Rockchip boards. */
module LegacyRecognizer {
  import opened Values
  import opened Text
  import opened Faces
  import opened Enrollment

  /** `id_to_name_map`: hub id to the name recorded for it. A typed name is
      a string; a people file or the map file can supply any JSON value. */
  type NameMap = map<int, Json>

  /** No two hub ids carry names that Python's `==` calls equal. */
  ghost predicate NamesDistinct(m: NameMap) {
    forall h, h' :: h in m && h' in m && h != h' ==> !PyEq(m[h], m[h'])
  }

  /** `name in id_to_name_map.values()`: some recorded name equals `name`. */
  predicate InValues(m: NameMap, name: Json) {
    exists h :: h in m && PyEq(m[h], name)
  }

  /** A name that equals no recorded name is, the other way round, equal to
      none of them either. */
  lemma NotInValuesEitherWay(m: NameMap, name: Json)
    requires !InValues(m, name)
    ensures forall h :: h in m ==> !PyEq(name, m[h])
  {
    forall h | h in m ensures !PyEq(name, m[h]) {
      PyEqSymmetric(name, m[h]);
    }
  }

  // ---------------------------------------------------------------------
  // Loading and saving the map

  /** The pairs of the JSON object with each key passed through `int(k)`;
      None marks a key that is not an integer. */
  function ParseKeys(pairs: seq<(string, Json)>): (r: seq<(Option<int>, Json)>)
    ensures |r| == |pairs|
    ensures forall i :: 0 <= i < |pairs| ==> r[i] == (ParseInt(pairs[i].0), pairs[i].1)
  {
    if |pairs| == 0 then []
    else
      var last := pairs[|pairs| - 1];
      ParseKeys(pairs[..|pairs| - 1]) + [(ParseInt(last.0), last.1)]
  }

  /** The dict comprehension over converted pairs, in file order: None when
      some key raised ValueError; when two keys denote the same integer the
      later pair wins. */
  function ConvertKeys(pairs: seq<(Option<int>, Json)>): (r: Option<NameMap>)
    ensures r.Some? <==> forall i :: 0 <= i < |pairs| ==> pairs[i].0.Some?
  {
    if |pairs| == 0 then Some(map[])
    else
      var prev := ConvertKeys(pairs[..|pairs| - 1]);
      var last := pairs[|pairs| - 1];
      if prev.Some? && last.0.Some? then Some(prev.value[last.0.value := last.1]) else None
  }

  /** The converted map has exactly the converted keys. */
  lemma {:induction false} ConvertKeysDomain(pairs: seq<(Option<int>, Json)>)
    requires ConvertKeys(pairs).Some?
    ensures forall i :: 0 <= i < |pairs| ==> pairs[i].0.value in ConvertKeys(pairs).value
    ensures forall h :: h in ConvertKeys(pairs).value ==> exists i :: 0 <= i < |pairs| && pairs[i].0 == Some(h)
  {
    if |pairs| > 0 {
      var front := pairs[..|pairs| - 1];
      ConvertKeysDomain(front);
      assert forall i :: 0 <= i < |front| ==> front[i] == pairs[i];
    }
  }

  /** Each key maps to the value of its last pair in the file. */
  lemma {:induction false} ConvertKeysLastWins(pairs: seq<(Option<int>, Json)>, i: nat)
    requires ConvertKeys(pairs).Some?
    requires i < |pairs|
    requires forall j :: i < j < |pairs| ==> pairs[j].0 != pairs[i].0
    ensures pairs[i].0.value in ConvertKeys(pairs).value && ConvertKeys(pairs).value[pairs[i].0.value] == pairs[i].1
  {
    var front := pairs[..|pairs| - 1];
    if i < |pairs| - 1 {
      ConvertKeysLastWins(front, i);
    }
  }

  /** `_load_id_map`. `jsonFile` is the key/value pairs of the JSON map file
      when it exists, `pickleFile` the map in the legacy pickle file when that
      exists. None stands for the ValueError of a non-integer key. */
  function LoadIdMap(jsonFile: Option<seq<(string, Json)>>, pickleFile: Option<NameMap>): (r: Option<NameMap>)
    ensures jsonFile.Some? ==> r == ConvertKeys(ParseKeys(jsonFile.value))
    ensures jsonFile.None? && pickleFile.Some? ==> r == pickleFile
    ensures jsonFile.None? && pickleFile.None? ==> r == Some(map[])
  {
    if jsonFile.Some? then ConvertKeys(ParseKeys(jsonFile.value))
    else if pickleFile.Some? then pickleFile
    else Some(map[])
  }

  /** `_save_id_map`: `json.dump` writes every key as `str(key)`, in the
      dict's iteration order `order`. */
  function SaveIdMap(m: NameMap, order: seq<int>): (r: seq<(string, Json)>)
    requires forall i :: 0 <= i < |order| ==> order[i] in m
    ensures |r| == |order|
    ensures forall i :: 0 <= i < |order| ==> r[i] == (IntToDecimal(order[i]), m[order[i]])
  {
    if |order| == 0 then []
    else
      var k := order[|order| - 1];
      SaveIdMap(m, order[..|order| - 1]) + [(IntToDecimal(k), m[k])]
  }

  /** The pairs of `m` in the order `order`, keys already integers. */
  function KnownPairs(m: NameMap, order: seq<int>): (r: seq<(Option<int>, Json)>)
    requires forall i :: 0 <= i < |order| ==> order[i] in m
  {
    if |order| == 0 then []
    else
      var k := order[|order| - 1];
      KnownPairs(m, order[..|order| - 1]) + [(Some(k), m[k])]
  }

  lemma {:induction false} SavedKeysParse(m: NameMap, order: seq<int>)
    requires forall i :: 0 <= i < |order| ==> order[i] in m
    ensures ParseKeys(SaveIdMap(m, order)) == KnownPairs(m, order)
  {
    if |order| > 0 {
      var k := order[|order| - 1];
      var front := order[..|order| - 1];
      var saved := SaveIdMap(m, order);
      assert saved[..|saved| - 1] == SaveIdMap(m, front);
      SavedKeysParse(m, front);
      ParseIntRoundTrip(k);
    }
  }

  lemma {:induction false} ConvertKnownPairs(m: NameMap, order: seq<int>)
    requires forall i :: 0 <= i < |order| ==> order[i] in m
    ensures ConvertKeys(KnownPairs(m, order)) == Some(map k | k in order :: m[k])
  {
    if |order| > 0 {
      var k := order[|order| - 1];
      var front := order[..|order| - 1];
      var pairs := KnownPairs(m, order);
      assert pairs[..|pairs| - 1] == KnownPairs(m, front);
      ConvertKnownPairs(m, front);
      var before := map k' | k' in front :: m[k'];
      assert ConvertKeys(pairs) == Some(before[k := m[k]]);
      assert forall k' :: k' in order <==> k' in front || k' == k;
      assert before[k := m[k]] == map k' | k' in order :: m[k'];
    }
  }

  lemma RestrictToAllKeys(m: NameMap, order: seq<int>)
    requires forall i :: 0 <= i < |order| ==> order[i] in m
    requires forall k :: k in m ==> k in order
    ensures (map k | k in order :: m[k]) == m
  {
    var back := map k | k in order :: m[k];
    assert forall k :: k in back <==> k in m;
  }

  /** Loading what `_save_id_map` wrote gives back the same map: the string
      keys convert back to the integer ids. */
  lemma LoadAfterSave(m: NameMap, order: seq<int>)
    requires forall i :: 0 <= i < |order| ==> order[i] in m
    requires forall k :: k in m ==> k in order
    ensures LoadIdMap(Some(SaveIdMap(m, order)), None) == Some(m)
  {
    SavedKeysParse(m, order);
    ConvertKnownPairs(m, order);
    RestrictToAllKeys(m, order);
  }

  // ---------------------------------------------------------------------
  // Recognition

  /** The label of one face: the mapped name for a match the map knows,
      "Unknown" otherwise. */
  function LegacyName(s: Search, m: NameMap): Json {
    if s.Found? && s.hubId != -1 && s.hubId in m then m[s.hubId] else JStr("Unknown")
  }

  /** `recognize_faces`: one name and one confidence per detected face, in
      detection order. An unmatched face is "Unknown" with 0.0; a match whose
      id the map lacks is "Unknown" with the hub's confidence. */
  function RecognizeNames(faces: seq<Search>, m: NameMap): (r: (seq<Json>, seq<Confidence>))
    ensures |r.0| == |faces| && |r.1| == |faces|
    ensures forall i :: 0 <= i < |faces| && !(faces[i].Found? && faces[i].hubId != -1) ==>
      r.0[i] == JStr("Unknown") && r.1[i] == ZeroConfidence
    ensures forall i :: 0 <= i < |faces| && faces[i].Found? && faces[i].hubId != -1 ==>
      r.1[i] == faces[i].confidence
      && r.0[i] == (if faces[i].hubId in m then m[faces[i].hubId] else JStr("Unknown"))
  {
    if |faces| == 0 then ([], [])
    else
      var rest := RecognizeNames(faces[..|faces| - 1], m);
      var last := faces[|faces| - 1];
      (rest.0 + [LegacyName(last, m)], rest.1 + [ConfidenceFor(last)])
  }

  // ---------------------------------------------------------------------
  // Enrolment and deletion

  /** The map after the hub insert, when it reported success. */
  function Enrol(m: NameMap, insert: Insert, name: Json): (r: NameMap)
    ensures insert.InsertFailed? ==> r == m
    ensures insert.Inserted? ==>
      r.Keys == m.Keys + {insert.newId} && r[insert.newId] == name
      && forall h :: h in m && h != insert.newId ==> r[h] == m[h]
  {
    if insert.Inserted? then m[insert.newId := name] else m
  }

  /** `add_face` of the console recognizer: with faces detected, the
      largest one's feature is extracted; a non-empty typed name and a
      successful hub insert map the new id to that name. */
  function AddFaceLegacy(faces: seq<Box>, featureOk: bool, name: string, insert: Insert, m: NameMap)
    : (r: (Option<nat>, NameMap))
    ensures r.0 == LargestFace(faces)
    ensures r.1 != m ==> |faces| > 0 && featureOk && name != "" && insert.Inserted?
    ensures |faces| > 0 && featureOk && name != "" ==> r.1 == Enrol(m, insert, JStr(name))
  {
    var chosen := LargestFace(faces);
    if chosen.Some? && featureOk && name != "" then (chosen, Enrol(m, insert, JStr(name))) else (chosen, m)
  }

  /** How processing one person's picture went, past the name checks: whether
      download, decoding, detection, feature extraction and hub insert all
      succeeded. Any failure (including a raised and caught exception) leaves
      the map as it was. */
  datatype Attempt = Attempt(downloaded: bool, decoded: bool, faces: seq<Box>, featureOk: bool, insert: Insert)

  predicate Succeeded(a: Attempt) {
    a.downloaded && a.decoded && |a.faces| > 0 && a.featureOk && a.insert.Inserted?
  }

  /** The name of a record that passes the "missing name or picture" check:
      a truthy `preferredName` of any kind, with a truthy `picture`. */
  function RecordName(person: map<string, Json>): (r: Option<Json>)
    ensures r.Some? <==> Truthy(Get(person, "preferredName")) && Truthy(Get(person, "picture"))
    ensures r.Some? ==> r.value == Get(person, "preferredName")
  {
    var name := Get(person, "preferredName");
    if Truthy(name) && Truthy(Get(person, "picture")) then Some(name) else None
  }

  /** One iteration of `register_faces_from_json`. None stands for the
      AttributeError raised outside the `try` by a record that is not an
      object. */
  function RegisterOne(m: NameMap, person: Json, a: Attempt): (r: Option<NameMap>)
    ensures r.None? <==> !person.JObj?
    ensures person.JObj? && (RecordName(person.fields).None? || InValues(m, RecordName(person.fields).value)) ==>
      r == Some(m)
    ensures r.Some? && r.value != m ==>
      Succeeded(a) && RecordName(person.fields).Some?
      && !InValues(m, RecordName(person.fields).value)
      && r.value == Enrol(m, a.insert, RecordName(person.fields).value)
    ensures (person.JObj? && RecordName(person.fields).Some? && !InValues(m, RecordName(person.fields).value)
             && Succeeded(a)) ==> r == Some(Enrol(m, a.insert, Get(person.fields, "preferredName")))
    ensures r.Some? && NamesDistinct(m) ==> NamesDistinct(r.value)
  {
    if !person.JObj? then None
    else match RecordName(person.fields)
      case None => Some(m)
      case Some(name) =>
        if InValues(m, name) || !Succeeded(a) then Some(m)
        else
          NotInValuesEitherWay(m, name);
          Some(Enrol(m, a.insert, name))
  }

  /** The outcome of `register_faces_from_json`: the map it leaves behind
      (every success is saved at once), and whether an exception escaped. */
  datatype Registration = Registered(names: NameMap) | Raised(names: NameMap)

  /** The loop over `people[i..]`; `attempt(k)` says how record `k` went. */
  function RegisterFrom(m: NameMap, people: seq<Json>, attempt: nat -> Attempt, i: nat): (r: Registration)
    requires i <= |people|
    ensures r.Raised? <==> exists k :: i <= k < |people| && !people[k].JObj?
    ensures m.Keys <= r.names.Keys
    ensures NamesDistinct(m) ==> NamesDistinct(r.names)
    ensures (forall k :: i <= k < |people| ==> people[k].JObj? && RecordName(people[k].fields).None?) ==>
      r == Registered(m)
    decreases |people| - i
  {
    if i == |people| then Registered(m)
    else match RegisterOne(m, people[i], attempt(i))
      case None => Raised(m)
      case Some(m') => RegisterFrom(m', people, attempt, i + 1)
  }

  /** `register_faces_from_json`. `file` is the decoded JSON, or None when
      the file is missing or not valid JSON (the function then returns).
      Iterating a string or an object yields strings, whose `.get` raises;
      iterating a number, boolean or null raises at once. */
  function RegisterFromJson(m: NameMap, file: Option<Json>, attempt: nat -> Attempt): (r: Registration)
    ensures file.None? ==> r == Registered(m)
    ensures file.Some? && !file.value.JArr? ==> r.names == m
    ensures file.Some? && file.value.JArr? ==> r == RegisterFrom(m, file.value.items, attempt, 0)
    ensures NamesDistinct(m) ==> NamesDistinct(r.names)
  {
    if file.None? then Registered(m)
    else match file.value
      case JArr(people) => RegisterFrom(m, people, attempt, 0)
      case JStr(s) => if s == "" then Registered(m) else Raised(m)
      case JObj(fields) => if |fields| == 0 then Registered(m) else Raised(m)
      case _ => Raised(m)
  }

  /** A registration run never records a name twice when the map had no
      duplicate before, whatever the hub returns. */
  lemma RegistrationKeepsNamesDistinct(m: NameMap, file: Option<Json>, attempt: nat -> Attempt)
    requires NamesDistinct(m)
    ensures NamesDistinct(RegisterFromJson(m, file, attempt).names)
  {
  }

  /** What `delete_face` did: the map afterwards and the id handed to
      `feature_hub_face_remove`, if any. */
  datatype Deletion = Deletion(names: NameMap, hubRemoveCalled: Option<int>)

  /** `delete_face` with the typed text `typed` and the hub's answer
      `hubRemoved`. An empty map returns before prompting; text that is not
      an integer and an unknown id change nothing. */
  function DeleteFace(m: NameMap, typed: string, hubRemoved: bool): (r: Deletion)
    ensures r.hubRemoveCalled.Some? <==> |m| > 0 && ParseInt(typed).Some? && ParseInt(typed).value in m
    ensures r.hubRemoveCalled.Some? ==> r.hubRemoveCalled == ParseInt(typed)
    ensures r.names != m <==> r.hubRemoveCalled.Some? && hubRemoved
    ensures r.names.Keys <= m.Keys
    ensures forall h :: h in r.names ==> r.names[h] == m[h]
    ensures r.hubRemoveCalled.Some? && hubRemoved ==> m.Keys - r.names.Keys == {r.hubRemoveCalled.value}
  {
    if |m| == 0 then Deletion(m, None)
    else match ParseInt(typed)
      case None => Deletion(m, None)
      case Some(id) =>
        if id !in m then Deletion(m, None)
        else if hubRemoved then Deletion(m - {id}, Some(id))
        else Deletion(m, Some(id))
  }

  /** Typing the id just enrolled, as the listing prints it, and having the
      hub remove it gives back the map from before the enrolment. */
  lemma DeleteUndoesEnrol(m: NameMap, newId: int, name: Json)
    requires newId !in m
    ensures var d := DeleteFace(Enrol(m, Inserted(newId), name), IntToDecimal(newId), true);
      d.hubRemoveCalled == Some(newId) && d.names == m
  {
    ParseIntRoundTrip(newId);
    var e := Enrol(m, Inserted(newId), name);
    assert e - {newId} == m;
  }

  // ---------------------------------------------------------------------
  // Frame padding on Rockchip

  /** Adding `q` columns to a frame `width` wide makes the width a multiple
      of 16. */
  predicate Aligns(width: nat, q: nat) {
    (width + q) % 16 == 0
  }

  /** `pad_x = (-width) % 16` with Python's floor modulo: the fewest columns
      that make the width a multiple of 16. */
  function PadX(width: nat): (p: nat)
    ensures p < 16
    ensures Aligns(width, p)
    ensures forall q: nat :: q < p ==> !Aligns(width, q)
  {
    var p: int := (-(width as int)) % 16;
    p
  }

  /** The frame width handed to recognition: padded on the right only when
      `pad_x` is non-zero. */
  function PaddedWidth(width: nat): (w: nat)
    ensures Aligns(w, 0)
    ensures width <= w < width + 16
    ensures width % 16 == 0 <==> w == width
  {
    var p := PadX(width);
    if p != 0 then width + p else width
  }
}

=== FILE: peer.dfy ===
/** The UI side of the IPC link, src/ipc/socket_client.py: `SocketClient`
    (send guards, stop, the connection-status flow of `run`), the
    `SocketManager` handler list, and the global manager's lifecycle.
    Qt signals are recorded as events of a trace. */
module Peer {
  import opened Values
  import opened Dispatch

  /** The client's socket: not created yet, open, or closed. */
  datatype Sock = NoSock | Open | ClosedSock

  /** `SocketClient`: its socket, the running flag and its own handlers. */
  datatype SocketClient = SocketClient(sock: Sock, running: bool, handlers: seq<Handler>)

  function NewClient(): SocketClient {
    SocketClient(NoSock, false, [])
  }

  /** `send_message`: False without sending when there is no socket or the
      client is not running; False when the payload is not an object (the
      ValueError is caught) or the send raises (`sendOk` false, as on a closed
      socket). The payload put on the wire is returned. */
  function SendMessage(c: SocketClient, payload: Json, sendOk: bool): (r: (bool, Option<Json>))
    ensures r.0 <==> c.sock != NoSock && c.running && payload.JObj? && sendOk
    ensures r.1.Some? <==> r.0
    ensures r.1.Some? ==> r.1.value == payload
  {
    if c.sock == NoSock || !c.running then (false, None)
    else if !payload.JObj? then (false, None)
    else if sendOk then (true, Some(payload))
    else (false, None)
  }

  /** `stop`: running cleared, socket closed if there is one. */
  function Stop(c: SocketClient): (r: SocketClient)
    ensures !r.running && r.handlers == c.handlers
    ensures r.sock == (if c.sock == NoSock then NoSock else ClosedSock)
  {
    c.(running := false, sock := if c.sock == NoSock then NoSock else ClosedSock)
  }

  /** After `stop`, nothing can be sent, whatever the payload. */
  lemma NoSendAfterStop(c: SocketClient, payload: Json, sendOk: bool)
    ensures SendMessage(Stop(c), payload, sendOk) == (false, None)
  {
  }

  /** `add_message_handler` of the client. */
  function AddClientHandler(c: SocketClient, h: Handler): (r: SocketClient)
    ensures r.handlers == c.handlers + [h] && r.sock == c.sock && r.running == c.running
  {
    c.(handlers := c.handlers + [h])
  }

  /** What `run` makes observable, in order: `connection_status` emissions,
      `message_received` emissions and the client's own handler calls. */
  datatype Event = Status(connected: bool) | Emitted(payload: Json) | Handled(call: Call)

  /** The events one payload produces: the signal first, then each handler
      in registration order, on that payload, raising or not as it does. */
  function OnPayload(handlers: seq<Handler>, p: Json, raises: (Handler, Json) -> bool): (r: seq<Event>)
    ensures |r| == |handlers| + 1 && r[0] == Emitted(p)
    ensures forall k :: 1 <= k < |r| ==> r[k] == Handled(Call(handlers[k - 1], p, raises(handlers[k - 1], p)))
  {
    [Emitted(p)] + seq(|handlers|, i requires 0 <= i < |handlers| => Handled(Call(handlers[i], p, raises(handlers[i], p))))
  }

  /** The handler calls of a trace, in order. */
  function HandledCalls(events: seq<Event>): seq<Call> {
    if |events| == 0 then []
    else (if events[0].Handled? then [events[0].call] else []) + HandledCalls(events[1..])
  }

  lemma {:induction false} HandledAppend(a: seq<Event>, b: seq<Event>)
    ensures HandledCalls(a + b) == HandledCalls(a) + HandledCalls(b)
  {
    if |a| > 0 {
      assert (a + b)[1..] == a[1..] + b;
      HandledAppend(a[1..], b);
    } else {
      assert a + b == b;
    }
  }

  /** The calls of a trace of handler calls only are those calls. */
  lemma {:induction false} HandledOnly(events: seq<Event>)
    requires forall k :: 0 <= k < |events| ==> events[k].Handled?
    ensures HandledCalls(events) == seq(|events|, k requires 0 <= k < |events| => events[k].call)
  {
    if |events| > 0 {
      HandledOnly(events[1..]);
    }
  }

  /** The handler calls for one payload are the fan-out of that payload. */
  lemma HandledOnPayload(handlers: seq<Handler>, p: Json, raises: (Handler, Json) -> bool)
    ensures HandledCalls(OnPayload(handlers, p, raises)) == Fan(handlers, p, raises)
  {
    var e := OnPayload(handlers, p, raises);
    var tail := e[1..];
    assert e == [Emitted(p)] + tail;
    HandledAppend([Emitted(p)], tail);
    assert HandledCalls([Emitted(p)]) == [] by { assert [Emitted(p)][1..] == []; }
    HandledOnly(tail);
    var fan := Fan(handlers, p, raises);
    assert forall k :: 0 <= k < |fan| ==> fan[k] == Call(handlers[k], p, raises(handlers[k], p));
  }

  /** The receive loop of `run` over the chunks read while connected. The
      end of `chunks` stands for `stop()` closing the socket, after which the
      pending `recv` fails with `running` already false. Every delivered
      payload goes to every handler of the client, in order. */
  function Listen(handlers: seq<Handler>, chunks: seq<Chunk>, raises: (Handler, Json) -> bool): (r: seq<Event>)
    ensures forall k :: 0 <= k < |r| ==> !r[k].Status?
    ensures HandledCalls(r) == FanEach(handlers, Delivered(chunks), raises)
    decreases |chunks|
  {
    if |chunks| == 0 || Ends(chunks[0]) then []
    else if chunks[0].Payload? then
      var p := chunks[0].payload;
      var first := OnPayload(handlers, p, raises);
      var rest := Listen(handlers, chunks[1..], raises);
      HandledAppend(first, rest);
      HandledOnPayload(handlers, p, raises);
      assert ([p] + Delivered(chunks[1..]))[1..] == Delivered(chunks[1..]);
      first + rest
    else Listen(handlers, chunks[1..], raises)
  }

  /** The payloads announced by `message_received`, in order. */
  function EmittedPayloads(events: seq<Event>): seq<Json> {
    if |events| == 0 then []
    else (if events[0].Emitted? then [events[0].payload] else []) + EmittedPayloads(events[1..])
  }

  lemma {:induction false} EmittedAppend(a: seq<Event>, b: seq<Event>)
    ensures EmittedPayloads(a + b) == EmittedPayloads(a) + EmittedPayloads(b)
  {
    if |a| > 0 {
      assert (a + b)[1..] == a[1..] + b;
      EmittedAppend(a[1..], b);
    } else {
      assert a + b == b;
    }
  }

  lemma {:induction false} EmittedHandledOnly(events: seq<Event>)
    requires forall k :: 0 <= k < |events| ==> events[k].Handled?
    ensures EmittedPayloads(events) == []
  {
    if |events| > 0 {
      EmittedHandledOnly(events[1..]);
    }
  }

  /** `message_received` announces exactly the delivered payloads, in the
      order they were read. */
  lemma {:induction false} ListenEmitsDelivered(handlers: seq<Handler>, chunks: seq<Chunk>, raises: (Handler, Json) -> bool)
    ensures EmittedPayloads(Listen(handlers, chunks, raises)) == Delivered(chunks)
    decreases |chunks|
  {
    if |chunks| > 0 && !Ends(chunks[0]) {
      ListenEmitsDelivered(handlers, chunks[1..], raises);
      if chunks[0].Payload? {
        var first := OnPayload(handlers, chunks[0].payload, raises);
        EmittedAppend(first, Listen(handlers, chunks[1..], raises));
        assert first == [Emitted(chunks[0].payload)] + first[1..];
        EmittedAppend([Emitted(chunks[0].payload)], first[1..]);
        EmittedHandledOnly(first[1..]);
        assert EmittedPayloads([Emitted(chunks[0].payload)]) == [chunks[0].payload] by {
          assert [Emitted(chunks[0].payload)][1..] == [];
        }
      }
    }
  }

  /** `run`: connect; on success report True, listen, then report False; on
      a connection error report False twice (once in the handler, once in
      `finally`). Either way the socket ends closed and `running` false. */
  function Run(c: SocketClient, connectOk: bool, chunks: seq<Chunk>, raises: (Handler, Json) -> bool)
    : (r: (SocketClient, seq<Event>))
    ensures !r.0.running && r.0.sock == ClosedSock && r.0.handlers == c.handlers
    ensures |r.1| >= 2 && r.1[|r.1| - 1] == Status(false)
    ensures !connectOk ==> r.1 == [Status(false), Status(false)]
    ensures connectOk ==> r.1[0] == Status(true)
    ensures connectOk ==> forall k :: 0 < k < |r.1| - 1 ==> !r.1[k].Status?
  {
    var closed := SocketClient(ClosedSock, false, c.handlers);
    if !connectOk then (closed, [Status(false), Status(false)])
    else (closed, [Status(true)] + Listen(c.handlers, chunks, raises) + [Status(false)])
  }

  /** Connection status is reported True before any payload is announced,
      and the announced payloads are the delivered ones. */
  lemma RunAnnouncesAfterConnect(c: SocketClient, chunks: seq<Chunk>, raises: (Handler, Json) -> bool)
    ensures var events := Run(c, true, chunks, raises).1;
      events[0] == Status(true) && EmittedPayloads(events) == Delivered(chunks)
  {
    var body := Listen(c.handlers, chunks, raises);
    ListenEmitsDelivered(c.handlers, chunks, raises);
    EmittedAppend([Status(true)] + body, [Status(false)]);
    EmittedAppend([Status(true)], body);
    assert EmittedPayloads([Status(true)]) == [] by { assert [Status(true)][1..] == []; }
    assert EmittedPayloads([Status(false)]) == [] by { assert [Status(false)][1..] == []; }
  }

  /** Over a whole connected run, every delivered payload goes to every
      handler of the client, payload by payload, in registration order. */
  lemma RunHandlesDelivered(c: SocketClient, chunks: seq<Chunk>, raises: (Handler, Json) -> bool)
    ensures HandledCalls(Run(c, true, chunks, raises).1) == FanEach(c.handlers, Delivered(chunks), raises)
  {
    var body := Listen(c.handlers, chunks, raises);
    HandledAppend([Status(true)] + body, [Status(false)]);
    HandledAppend([Status(true)], body);
    assert HandledCalls([Status(true)]) == [] by { assert [Status(true)][1..] == []; }
    assert HandledCalls([Status(false)]) == [] by { assert [Status(false)][1..] == []; }
  }

  // ---------------------------------------------------------------------
  // SocketManager and the global manager

  /** `SocketManager`: its client and its own handler list. */
  datatype Manager = Manager(client: SocketClient, handlers: seq<Handler>)

  function NewManager(): (m: Manager)
    ensures m.handlers == [] && m.client == NewClient()
  {
    Manager(NewClient(), [])
  }

  /** `SocketManager.add_message_handler`: appended in order. */
  function AddManagerHandler(m: Manager, h: Handler): (r: Manager)
    ensures r.handlers == m.handlers + [h] && r.client == m.client
  {
    m.(handlers := m.handlers + [h])
  }

  /** `_handle_message`: the payload goes to every manager handler in order;
      a raising handler does not stop the rest. */
  function HandleMessage(m: Manager, payload: Json, raises: (Handler, Json) -> bool): (r: seq<Call>)
    ensures Invoked(r) == seq(|m.handlers|, i requires 0 <= i < |m.handlers| => (m.handlers[i], payload))
  {
    Fan(m.handlers, payload, raises)
  }

  /** `SocketManager.stop`: stops the client (and waits for its thread). */
  function StopManager(m: Manager): (r: Manager)
    ensures !r.client.running && r.handlers == m.handlers
  {
    m.(client := Stop(m.client))
  }

  /** `get_socket_manager`: the existing manager, or a new one stored. */
  function GetManager(g: Option<Manager>): (r: (Option<Manager>, Manager))
    ensures r.0 == Some(r.1)
    ensures g.Some? ==> r.1 == g.value
    ensures g.None? ==> r.1 == NewManager()
  {
    if g.Some? then (g, g.value) else var m := NewManager(); (Some(m), m)
  }

  /** `stop_socket_client`: stops the manager if there is one and forgets
      it. Returns the global afterwards and the manager as stopped. */
  function StopSocketClient(g: Option<Manager>): (r: (Option<Manager>, Option<Manager>))
    ensures r.0.None?
    ensures r.1.Some? <==> g.Some?
    ensures g.Some? ==> !r.1.value.client.running && r.1.value.handlers == g.value.handlers
  {
    if g.Some? then (None, Some(StopManager(g.value))) else (None, None)
  }

  /** The global `add_message_handler`. */
  function AddGlobalHandler(g: Option<Manager>, h: Handler): (r: Option<Manager>)
    ensures r.Some? && r.value.handlers == GetManager(g).1.handlers + [h]
  {
    Some(AddManagerHandler(GetManager(g).1, h))
  }

  /** The manager is created once: handlers registered through the global
      functions accumulate on the same instance until `stop_socket_client`,
      after which a fresh manager starts with none. */
  lemma ManagerCreatedOnce(h1: Handler, h2: Handler)
    ensures AddGlobalHandler(AddGlobalHandler(None, h1), h2).value.handlers == [h1, h2]
    ensures GetManager(StopSocketClient(AddGlobalHandler(None, h1)).0).1.handlers == []
  {
  }
}

=== FILE: people_api.dfy ===
/** The `/people` routes of src/api/people.py: `add_person` (field
    fallbacks, image fetch, upsert with cleanup, face enrolment) and
    `delete_person` (FeatureHub first, then the mapping, the image and the
    person row). */
module PeopleApi {
  import opened Values
  import opened Effects
  import opened Images
  import ApiServer

  // ---------------------------------------------------------------------
  // add_person

  /** `data.get(first) or data.get(second)`: the first key's value when it
      is truthy, the second key's value (or None) otherwise. */
  function Fallback(f: map<string, Json>, first: string, second: string): (r: Json)
    ensures Truthy(Get(f, first)) ==> r == f[first]
    ensures !Truthy(Get(f, first)) ==> r == Get(f, second)
    ensures Truthy(r) <==> Truthy(Get(f, first)) || Truthy(Get(f, second))
  {
    Or(Get(f, first), Get(f, second))
  }

  /** The person's name: preferredName, else name. */
  function PersonName(f: map<string, Json>): Json {
    Fallback(f, "preferredName", "name")
  }

  /** The picture URL: picture, else pictureUrl. */
  function PictureUrl(f: map<string, Json>): Json {
    Fallback(f, "picture", "pictureUrl")
  }

  /** The four required fields are present and truthy (after fallbacks). */
  predicate HasRequired(f: map<string, Json>) {
    Truthy(Get(f, "personId")) && Truthy(Get(f, "userType")) && Truthy(PersonName(f)) && Truthy(PictureUrl(f))
  }

  /** The row upserted by `add_person`; both user-type branches of the
      source insert the same columns. */
  function AddRow(f: map<string, Json>, filename: string, now: string): (r: PersonRow)
    ensures r.uniqueId == Get(f, "personId") && r.name == PersonName(f) && r.personType == Get(f, "userType")
    ensures r.pictureFileName == filename && r.syncedAt == Some(now)
  {
    PersonRow(Get(f, "personId"), PersonName(f), Get(f, "admissionNumber"), Get(f, "roomId"), filename,
      Get(f, "userType"), Some(now))
  }

  /** What `add_person` meets outside: the fetch, the upsert, the face
      enrolment (`add_face` finding no face raises here) and the time. */
  datatype AddEnv = AddEnv(fetch: FetchEnv, upsertOk: bool, enrollment: ApiServer.EnrollOutcome, now: string)

  /** `add_person` after the image is on disk. */
  function AddStore(f: map<string, Json>, filename: string, downloadedNow: bool, env: AddEnv): (r: (Reply, seq<Effect>))
    ensures r.0.status == 200 <==> env.upsertOk && env.enrollment == ApiServer.FaceAdded
    ensures r.0.status != 200 ==> r.0.status == 500
    ensures (r.1 == [RemoveImage(filename)]) <==> !env.upsertOk && downloadedNow
    ensures !env.upsertOk ==> |r.1| <= 1
    ensures env.upsertOk ==> (|r.1| > 0 && r.1[0] == UpsertPerson(AddRow(f, filename, env.now)) && NoRemoval(r.1))
    ensures r.0.status == 200 ==> r.1 == [UpsertPerson(AddRow(f, filename, env.now)), EnrollFace(Get(f, "personId"), filename)]
    ensures NoBroadcast(r.1) && NoDownload(r.1)
  {
    var row := AddRow(f, filename, env.now);
    if !env.upsertOk then
      (Reply(500, Field("error", "Failed to upsert person")), if downloadedNow then [RemoveImage(filename)] else [])
    else if env.enrollment == ApiServer.FaceAdded then
      (Reply(200, JObj(map["syncedAt" := JStr(env.now), "personId" := Get(f, "personId")])),
       [UpsertPerson(row), EnrollFace(Get(f, "personId"), filename)])
    else (Reply(500, Field("error", "Enrollment to FeatureHub failed")), [UpsertPerson(row)])
  }

  /** How `add_person` answers a download outcome `d`: any fetch error
      answers 400, a fetched image goes on to the store step. */
  function AddAfterDownload(f: map<string, Json>, d: (Fetch, seq<Effect>), env: AddEnv): (r: (Reply, seq<Effect>))
    ensures !d.0.Fetched? ==> r == (Reply(400, Field("error", "Image fetch failed")), d.1)
    ensures d.0.Fetched? ==> (r.0 == AddStore(f, d.0.filename, d.0.downloadedNow, env).0
      && r.1 == d.1 + AddStore(f, d.0.filename, d.0.downloadedNow, env).1)
  {
    match d.0
    case Fetched(filename, downloadedNow) =>
      var s := AddStore(f, filename, downloadedNow, env);
      (s.0, d.1 + s.1)
    case _ => (Reply(400, Field("error", "Image fetch failed")), d.1)
  }

  /** `add_person` from the picture URL on. */
  function AddFromUrl(f: map<string, Json>, url: string, env: AddEnv): (r: (Reply, seq<Effect>))
    ensures !IsJpgName(FileNameOf(url)) ==> r.0.status == 400 && r.1 == []
  {
    AddAfterDownload(f, DownloadIfNeeded(url, env.fetch), env)
  }

  /** `add_person`. The body is `get_json(silent=True) or {}` (null when it
      does not parse); a truthy body that is not an object makes `.get`
      raise (500). */
  function AddPerson(body: Json, env: AddEnv): (r: (Reply, seq<Effect>))
    ensures Or(body, JObj(map[])).JObj? && !HasRequired(Or(body, JObj(map[])).fields) ==> r.0.status == 400 && r.1 == []
    ensures !Truthy(body) ==> r.0.status == 400 && r.1 == []
  {
    var data := Or(body, JObj(map[]));
    if !data.JObj? then (Reply(500, Field("error", "Internal Server Error")), [])
    else
      var f := data.fields;
      if !HasRequired(f) then (Reply(400, Field("error", "Missing required fields")), [])
      else
        var picture := PictureUrl(f);
        if !picture.JStr? then (Reply(400, Field("error", "Image fetch failed")), [])
        else AddFromUrl(f, picture.s, env)
  }

  /** A successful `add_person` got past every field check, and its
      effects are those of the fetch-and-store steps for the chosen URL. */
  lemma AddPersonSuccess(body: Json, env: AddEnv)
    requires AddPerson(body, env).0.status == 200
    ensures body.JObj? && HasRequired(body.fields) && PictureUrl(body.fields).JStr?
    ensures AddPerson(body, env) == AddFromUrl(body.fields, PictureUrl(body.fields).s, env)
  {
  }

  /** After a successful fetch and store, the last two effects are the
      upsert of the row built with the fallbacks (preferredName before
      name) and the face enrolment; nothing is removed. */
  lemma StoreSuccess(f: map<string, Json>, url: string, d: (Fetch, seq<Effect>), env: AddEnv)
    requires d.1 == [] || d.1 == [HttpGet(url)] || (d.0.Fetched? && d.1 == [HttpGet(url), WriteImage(d.0.filename)])
    requires AddAfterDownload(f, d, env).0.status == 200
    ensures var effects := AddAfterDownload(f, d, env).1;
      |effects| >= 2
      && effects[|effects| - 2] == UpsertPerson(AddRow(f, d.0.filename, env.now))
      && effects[|effects| - 1] == EnrollFace(Get(f, "personId"), d.0.filename)
      && NoRemoval(effects)
  {
  }

  lemma AddFromUrlSuccess(f: map<string, Json>, url: string, env: AddEnv)
    requires AddFromUrl(f, url, env).0.status == 200
    ensures var name := FileNameOf(url);
      var effects := AddFromUrl(f, url, env).1;
      |effects| >= 2
      && effects[|effects| - 2] == UpsertPerson(AddRow(f, name, env.now))
      && effects[|effects| - 1] == EnrollFace(Get(f, "personId"), name)
      && NoRemoval(effects)
  {
    var d := DownloadIfNeeded(url, env.fetch);
    assert d.0.Fetched? && d.0.filename == FileNameOf(url);
    StoreSuccess(f, url, d, env);
  }

  /** When the upsert fails after a fetch, the image is removed exactly when
      the fetch downloaded it in this request. */
  lemma CleanupAfterFailedUpsert(f: map<string, Json>, d: (Fetch, seq<Effect>), env: AddEnv)
    requires !env.upsertOk && d.0.Fetched? && NoRemoval(d.1)
    ensures AddAfterDownload(f, d, env).0.status == 500
    ensures RemoveImage(d.0.filename) in AddAfterDownload(f, d, env).1 <==> d.0.downloadedNow
  {
    var s := AddStore(f, d.0.filename, d.0.downloadedNow, env);
    var e := d.1 + s.1;
    if d.0.downloadedNow {
      assert e[|d.1|] == RemoveImage(d.0.filename);
    } else {
      assert s.1 == [];
      assert e == d.1;
    }
  }

  /** When the upsert fails, the image is removed exactly when this request
      downloaded it, and a cached image is kept. */
  lemma AddPersonCleanupOnlyDownloaded(f: map<string, Json>, url: string, env: AddEnv)
    requires !env.upsertOk
    requires DownloadIfNeeded(url, env.fetch).0.Fetched?
    ensures AddFromUrl(f, url, env).0.status == 500
    ensures RemoveImage(FileNameOf(url)) in AddFromUrl(f, url, env).1 <==> !env.fetch.fileExists
  {
    CleanupAfterFailedUpsert(f, DownloadIfNeeded(url, env.fetch), env);
  }

  /** The two enrolment paths disagree on a photo with no detectable face:
      `add_person` answers 500, while `enroll` (src/api/server.py) reports
      the enrolment completed and broadcasts it. */
  lemma NoFaceHandledDifferently(f: map<string, Json>, filename: string, downloadedNow: bool, now: string)
    requires "userType" in f && f["userType"] == JStr("Employee") && "personId" in f && "preferredName" in f
    ensures AddStore(f, filename, downloadedNow, AddEnv(FetchEnv(true, RequestFailed, true), true, ApiServer.NoFaceFound, now)).0.status == 500
    ensures var e := ApiServer.EnrollStore(f, ApiServer.EnrollRow(f, filename, now), filename, downloadedNow,
        ApiServer.EnrollEnv(FetchEnv(true, RequestFailed, true), true, ApiServer.NoFaceFound, now));
      e.0.status == 200 && NoFaceEnrolled(e.1)
  {
  }

  /** No effect enrols a face. */
  predicate NoFaceEnrolled(s: seq<Effect>) {
    forall k :: 0 <= k < |s| ==> !s[k].EnrollFace?
  }

  // ---------------------------------------------------------------------
  // delete_person

  /** `FaceIdentityMap.get_or_none`: no mapping, the mapped hub id, or a
      raised query (treated as no mapping). */
  datatype MappingLookup = Unmapped | MappedTo(hubId: int) | MappingRaised

  /** `Person.get_or_none`: no row, the row's picture file, or a raised query. */
  datatype StoredPerson = NoStoredPerson | StoredPicture(pictureFileName: string) | PersonLookupRaised

  /** What `delete_person` meets outside. `removal` is the value of
      `feature_hub_face_remove`, None when it raises. */
  datatype DeleteEnv = DeleteEnv(
    mapping: MappingLookup,
    removal: Option<bool>,
    person: StoredPerson,
    imageExists: bool,
    personDeleteOk: bool)

  /** The order the deletion steps run in. */
  function Step(e: Effect): nat {
    if e.HubRemove? then 0
    else if e.DeleteMapping? then 1
    else if e.RemoveImage? then 2
    else if e.DeletePersonRow? then 3
    else 4
  }

  /** Each effect comes at a later step than the one before it, so no step
      runs twice and none runs out of order. */
  predicate InStepOrder(s: seq<Effect>) {
    forall i :: 0 < i < |s| ==> Step(s[i - 1]) < Step(s[i])
  }

  /** The rows and files removed after the FeatureHub step: the mapping row
      when there is one, then the person's image and row. */
  function DeleteRows(personId: string, mapped: bool, env: DeleteEnv): (r: (Reply, seq<Effect>))
    ensures forall k :: 0 <= k < |r.1| ==> !r.1[k].HubRemove?
    ensures InStepOrder(r.1)
    ensures (DeleteMapping(personId) in r.1) <==> mapped
    ensures r.0.status == 200 || r.0.status == 500
    ensures r.0.status == 500 <==> env.person.PersonLookupRaised? || (env.person.StoredPicture? && !env.personDeleteOk)
    ensures (DeletePersonRow(personId) in r.1) <==> env.person.StoredPicture? && env.personDeleteOk
  {
    var unmap := if mapped then [DeleteMapping(personId)] else [];
    match env.person
    case PersonLookupRaised => (Reply(500, Field("error", "Failed to delete person")), unmap)
    case NoStoredPerson => (Reply(200, JNull), unmap)
    case StoredPicture(file) =>
      var removed :=
        if mapped && env.imageExists then [DeleteMapping(personId), RemoveImage(file)]
        else if mapped then [DeleteMapping(personId)]
        else if env.imageExists then [RemoveImage(file)]
        else [];
      if env.personDeleteOk then (Reply(200, JNull), removed + [DeletePersonRow(personId)])
      else (Reply(500, Field("error", "Failed to delete person")), removed)
  }

  /** `delete_person`. */
  function DeletePerson(personId: string, env: DeleteEnv): (r: (Reply, seq<Effect>))
    ensures InStepOrder(r.1)
    ensures (exists k :: 0 <= k < |r.1| && r.1[k].HubRemove?) <==> env.mapping.MappedTo? && env.removal.Some?
    ensures env.mapping.MappedTo? && env.removal.None? ==> r.0.status == 500 && r.1 == []
    ensures r.0.status == 200 ==> (r.0.body.JObj? && "featureRemoved" in r.0.body.fields
      && (r.0.body.fields["featureRemoved"] == JNull <==> !env.mapping.MappedTo?))
    ensures (DeleteMapping(personId) in r.1) <==> env.mapping.MappedTo? && env.removal.Some?
  {
    match env.mapping
    case MappedTo(hubId) =>
      (match env.removal
       case None => (Reply(500, Field("error", "Failed to remove from FeatureHub")), [])
       case Some(removed) =>
         var rest := DeleteRows(personId, true, env);
         var effects := [HubRemove(hubId)] + rest.1;
         assert forall k :: 1 <= k < |effects| ==> effects[k] == rest.1[k - 1];
         assert effects[0].HubRemove?;
         (Reply(rest.0.status, if rest.0.status == 200 then Deleted(personId, JBool(removed)) else rest.0.body), effects))
    case _ =>
      var rest := DeleteRows(personId, false, env);
      (Reply(rest.0.status, if rest.0.status == 200 then Deleted(personId, JNull) else rest.0.body), rest.1)
  }

  /** The success body of `delete_person`. */
  function Deleted(personId: string, featureRemoved: Json): Json {
    JObj(map["deleted" := JBool(true), "personId" := JStr(personId), "featureRemoved" := featureRemoved])
  }
}

=== FILE: sessions.dfy ===
/** The session table and the routes of src/api/session.py: creating a
    session (which ends every other open one), listing sessions newest first
    with their status, and finding the open session. Timestamps are the
    instants `datetime.fromisoformat` yields, as integers; the parser itself
    is a parameter. The table is a sequence of rows in insertion order, which
    is also the order an unordered query returns them in.

    What a timestamp column hands back depends on how it was written:
    peewee's DateTimeField turns stored text into a `datetime` only when the
    text matches `%Y-%m-%d %H:%M:%S[.%f]` or `%Y-%m-%d`, and returns any
    other text unchanged. `create_session` writes the ISO 8601 text with a
    'T' and a UTC offset that `string_to_timestamp` and `ist_timestamp`
    produce, so its rows read back as strings. */
module Sessions {
  import opened Values
  import opened Text
  import opened Timestamps

  /** A row of the Session table; `id` is the primary key. `storedAsText`
      says the timestamp columns read back as strings, not `datetime`s. */
  datatype SessionRow = SessionRow(
    id: string,
    name: string,
    start: int,
    plannedEnd: int,
    duration: int,
    actualEnd: Option<int>,
    syncedAt: Option<int>,
    storedAsText: bool)

  type Table = seq<SessionRow>

  predicate IsOpen(r: SessionRow) {
    r.actualEnd.None?
  }

  /** The primary key holds: no id appears twice. */
  predicate KeysDistinct(t: Table) {
    forall i, j :: 0 <= i < j < |t| ==> t[i].id != t[j].id
  }

  predicate HasId(t: Table, id: string) {
    exists i :: 0 <= i < |t| && t[i].id == id
  }

  /** Every open row carries the id `id`. */
  predicate OnlyOpen(t: Table, id: string) {
    forall i :: 0 <= i < |t| && IsOpen(t[i]) ==> t[i].id == id
  }

  // ---------------------------------------------------------------------
  // Request field conversions

  /** `int(x)` on a JSON value: numbers as they are, booleans as 0 and 1,
      strings through `int(str)`; anything else raises (None). */
  function ToInt(j: Json): (r: Option<int>)
    ensures j.JNum? ==> r == Some(j.n)
    ensures j.JStr? ==> r == ParseInt(j.s)
    ensures j.JNull? || j.JArr? || j.JObj? ==> r.None?
  {
    match j
    case JNum(n) => Some(n)
    case JBool(b) => Some(if b then 1 else 0)
    case JStr(s) => ParseInt(s)
    case _ => None
  }

  // ---------------------------------------------------------------------
  // create_session

  /** The six keys `create_session` reads from the body. */
  predicate HasSessionKeys(f: map<string, Json>) {
    "id" in f && "name" in f && "plannedDurationInMinutes" in f && "plannedEndTimestamp" in f
    && "startTimestamp" in f && "actualEndTimestamp" in f
  }

  /** What the body must hold for `create_session` to insert a row: an
      object with the six keys, a non-null id and name, an integral
      duration, timestamps that are null, empty or ISO text, and a start and
      planned end that are present. */
  predicate RequestAccepted(data: Json, parse: string -> Option<int>) {
    && data.JObj? && HasSessionKeys(data.fields)
    && data.fields["id"] != JNull && data.fields["name"] != JNull
    && ToInt(data.fields["plannedDurationInMinutes"]).Some?
    && ConvertTimestamp(data.fields["plannedEndTimestamp"], parse).Ok?
    && ConvertTimestamp(data.fields["plannedEndTimestamp"], parse).value.Some?
    && ConvertTimestamp(data.fields["startTimestamp"], parse).Ok?
    && ConvertTimestamp(data.fields["startTimestamp"], parse).value.Some?
    && ConvertTimestamp(data.fields["actualEndTimestamp"], parse).Ok?
  }

  /** The row `Session.create` inserts from the request body, or the
      exception raised while building it, in the order Python evaluates the
      arguments: a missing key (KeyError), a non-integer duration, a timestamp
      that is not a string or not ISO text, then on insert a null id, name,
      start or planned end (NOT NULL). The CharFields store `str()` of the
      id and name, so a number or boolean is accepted as its text. */
  function RowFromRequest(data: Json, parse: string -> Option<int>, repr: Json -> string, syncedAt: int)
    : (r: Result<SessionRow>)
    ensures r.Ok? ==> (data.JObj? && HasSessionKeys(data.fields)
      && data.fields["id"] != JNull && data.fields["name"] != JNull
      && r.value.id == PyStr(data.fields["id"], repr) && r.value.name == PyStr(data.fields["name"], repr))
    ensures r.Ok? ==> (data.JObj? && HasSessionKeys(data.fields)
      && ConvertTimestamp(data.fields["startTimestamp"], parse) == Ok(Some(r.value.start))
      && ConvertTimestamp(data.fields["plannedEndTimestamp"], parse) == Ok(Some(r.value.plannedEnd))
      && ConvertTimestamp(data.fields["actualEndTimestamp"], parse) == Ok(r.value.actualEnd)
      && ToInt(data.fields["plannedDurationInMinutes"]) == Some(r.value.duration))
    ensures r.Ok? ==> r.value.syncedAt == Some(syncedAt) && r.value.storedAsText
  {
    if !data.JObj? then Err("'NoneType' object is not subscriptable")
    else
      var f := data.fields;
      if !("id" in f && "name" in f && "plannedDurationInMinutes" in f) then Err("KeyError")
      else
        var duration := ToInt(f["plannedDurationInMinutes"]);
        if duration.None? then Err("ValueError")
        else if "plannedEndTimestamp" !in f then Err("KeyError")
        else
          var plannedEnd := ConvertTimestamp(f["plannedEndTimestamp"], parse);
          if plannedEnd.Err? then Err(plannedEnd.error)
          else if "startTimestamp" !in f then Err("KeyError")
          else
            var start := ConvertTimestamp(f["startTimestamp"], parse);
            if start.Err? then Err(start.error)
            else if "actualEndTimestamp" !in f then Err("KeyError")
            else
              var actualEnd := ConvertTimestamp(f["actualEndTimestamp"], parse);
              if actualEnd.Err? then Err(actualEnd.error)
              else if f["id"] == JNull || f["name"] == JNull || plannedEnd.value.None? || start.value.None? then
                Err("NOT NULL constraint failed")
              else Ok(SessionRow(PyStr(f["id"], repr), PyStr(f["name"], repr), start.value.value,
                plannedEnd.value.value, duration.value, actualEnd.value, Some(syncedAt), true))
  }

  /** `create_session` builds a row exactly from the bodies that satisfy
      `RequestAccepted`; every other body raises before the insert or at it. */
  lemma RowBuiltIffAccepted(data: Json, parse: string -> Option<int>, repr: Json -> string, syncedAt: int)
    ensures RowFromRequest(data, parse, repr, syncedAt).Ok? <==> RequestAccepted(data, parse)
  {
  }

  /** The close-others update: rows other than `id` with no end get
      `closedAt` as their end; every other row is left as it is. */
  function CloseOthers(t: Table, id: string, closedAt: int): (r: Table)
    ensures |r| == |t|
    ensures forall i :: 0 <= i < |t| ==> r[i] == (if t[i].id != id && IsOpen(t[i]) then t[i].(actualEnd := Some(closedAt)) else t[i])
    ensures OnlyOpen(r, id)
  {
    seq(|t|, i requires 0 <= i < |t| =>
      if t[i].id != id && IsOpen(t[i]) then t[i].(actualEnd := Some(closedAt)) else t[i])
  }

  /** The insert of a built row (failing on a duplicate id) followed by the
      close-others update at `closedAt`. */
  function InsertSession(t: Table, row: SessionRow, closedAt: int): (r: Result<Table>)
    ensures r.Err? <==> HasId(t, row.id)
    ensures r.Ok? ==> |r.value| == |t| + 1 && r.value[|t|] == row
    ensures r.Ok? ==> forall i :: 0 <= i < |t| ==>
      r.value[i] == (if IsOpen(t[i]) then t[i].(actualEnd := Some(closedAt)) else t[i])
    ensures r.Ok? ==> OnlyOpen(r.value, row.id)
    ensures KeysDistinct(t) && r.Ok? ==> KeysDistinct(r.value)
  {
    if HasId(t, row.id) then Err("UNIQUE constraint failed: session.id")
    else
      assert forall i :: 0 <= i < |t| ==> t[i].id != row.id;
      Ok(CloseOthers(t + [row], row.id, closedAt))
  }

  /** `create_session`: build the row from the body, insert it, then end
      every other open session at `closedAt`. `syncedAt` and `closedAt` are
      the two readings of `ist_timestamp`. Returns the table and `syncedAt`. */
  function CreateSession(t: Table, data: Json, parse: string -> Option<int>, repr: Json -> string,
                         syncedAt: int, closedAt: int)
    : (r: Result<(Table, int)>)
    ensures r.Ok? ==> RowFromRequest(data, parse, repr, syncedAt).Ok?
    ensures r.Ok? ==> (RowFromRequest(data, parse, repr, syncedAt).Ok?
      && var row := RowFromRequest(data, parse, repr, syncedAt).value;
      !HasId(t, row.id) && r.value.1 == syncedAt && |r.value.0| == |t| + 1
      && r.value.0[|t|] == row && row.storedAsText)
    ensures r.Ok? ==> forall i :: 0 <= i < |t| ==>
      r.value.0[i] == (if IsOpen(t[i]) then t[i].(actualEnd := Some(closedAt)) else t[i])
    ensures r.Ok? ==> (RowFromRequest(data, parse, repr, syncedAt).Ok?
      && OnlyOpen(r.value.0, RowFromRequest(data, parse, repr, syncedAt).value.id))
    ensures (RowFromRequest(data, parse, repr, syncedAt).Ok?
      && !HasId(t, RowFromRequest(data, parse, repr, syncedAt).value.id)) ==> r.Ok?
    ensures KeysDistinct(t) && r.Ok? ==> KeysDistinct(r.value.0)
  {
    match RowFromRequest(data, parse, repr, syncedAt)
    case Err(e) => Err(e)
    case Ok(row) =>
      match InsertSession(t, row, closedAt)
      case Err(e) => Err(e)
      case Ok(u) => Ok((u, syncedAt))
  }

  // ---------------------------------------------------------------------
  // Queries

  /** `Session.get_or_none(actualEndTimestamp IS NULL)`: the first open row. */
  function FirstOpen(t: Table): (r: Option<nat>)
    ensures r.None? <==> forall i :: 0 <= i < |t| ==> !IsOpen(t[i])
    ensures r.Some? ==> r.value < |t| && IsOpen(t[r.value])
    ensures r.Some? ==> forall i :: 0 <= i < r.value ==> !IsOpen(t[i])
  {
    if |t| == 0 then None
    else if IsOpen(t[0]) then Some(0)
    else match FirstOpen(t[1..])
      case None => None
      case Some(i) => Some(i + 1)
  }

  /** `get_active_session_id`: the open session's id, None when there is
      none or when the lookup raises (`lookupFails`). */
  function GetActiveSessionId(t: Table, lookupFails: bool): (r: Option<string>)
    ensures lookupFails ==> r.None?
    ensures !lookupFails ==> (r.None? <==> forall i :: 0 <= i < |t| ==> !IsOpen(t[i]))
    ensures r.Some? ==> exists i :: 0 <= i < |t| && IsOpen(t[i]) && t[i].id == r.value
  {
    if lookupFails then None
    else match FirstOpen(t)
      case None => None
      case Some(i) => Some(t[i].id)
  }

  /** The 200 answer of `get_current_session`: inactive with no session,
      or active with the open session. */
  datatype Current = Current(active: bool, session: Option<SessionRow>)

  /** `get_current_session`. It answers 500 when the lookup raises
      (`queryFails`) or when the open row's timestamps read back as
      `datetime`s, because `fromisoformat` takes only strings; otherwise it
      answers with the first open row, or inactive when there is none. */
  function GetCurrentSession(t: Table, queryFails: bool): (r: Result<Current>)
    ensures r.Err? <==> queryFails || (FirstOpen(t).Some? && !t[FirstOpen(t).value].storedAsText)
    ensures r.Ok? ==> (r.value.active <==> r.value.session.Some?)
    ensures r.Ok? ==> (!r.value.active <==> forall i :: 0 <= i < |t| ==> !IsOpen(t[i]))
    ensures r.Ok? && r.value.session.Some? ==> r.value.session.value in t && IsOpen(r.value.session.value)
  {
    if queryFails then Err("Failed to fetch current session")
    else match FirstOpen(t)
      case None => Ok(Current(false, None))
      case Some(i) =>
        if !t[i].storedAsText then Err("Failed to fetch current session")
        else Ok(Current(true, Some(t[i])))
  }

  /** A timestamp as `python_string_to_timestamp` answers it: null for a
      missing one, otherwise its IST ISO text, rendered by `iso`. */
  function StampJson(stamp: Option<int>, iso: int -> string): (r: Json)
    ensures r == JNull <==> stamp.None?
  {
    if stamp.Some? then JStr(iso(stamp.value)) else JNull
  }

  /** The JSON body of a 200 answer of `get_current_session`: `active`,
      and the session's id, name, duration and four timestamps, or null. */
  function CurrentBody(c: Current, iso: int -> string): (r: Json)
    ensures r.JObj? && "active" in r.fields && "session" in r.fields
    ensures r.fields["active"] == JBool(c.session.Some?)
    ensures c.session.None? <==> r.fields["session"] == JNull
    ensures c.session.Some? ==> var row := c.session.value; var s := r.fields["session"];
      s.JObj? && "id" in s.fields && "name" in s.fields && "plannedDurationInMinutes" in s.fields
      && s.fields["id"] == JStr(row.id) && s.fields["name"] == JStr(row.name)
      && s.fields["plannedDurationInMinutes"] == JNum(row.duration)
    ensures c.session.Some? ==> var row := c.session.value; var s := r.fields["session"];
      s.JObj? && "startTimestamp" in s.fields && "plannedEndTimestamp" in s.fields
      && "actualEndTimestamp" in s.fields && "syncedAt" in s.fields
      && s.fields["startTimestamp"] == JStr(iso(row.start))
      && s.fields["plannedEndTimestamp"] == JStr(iso(row.plannedEnd))
      && s.fields["actualEndTimestamp"] == StampJson(row.actualEnd, iso)
      && s.fields["syncedAt"] == StampJson(row.syncedAt, iso)
  {
    match c.session
    case None => JObj(map["active" := JBool(false), "session" := JNull])
    case Some(row) =>
      JObj(map["active" := JBool(true),
               "session" := JObj(map[
                 "id" := JStr(row.id),
                 "name" := JStr(row.name),
                 "startTimestamp" := JStr(iso(row.start)),
                 "plannedEndTimestamp" := JStr(iso(row.plannedEnd)),
                 "plannedDurationInMinutes" := JNum(row.duration),
                 "actualEndTimestamp" := StampJson(row.actualEnd, iso),
                 "syncedAt" := StampJson(row.syncedAt, iso)])])
  }

  /** After inserting a row without an end, that row's session is the
      active one; with an end given, no session is active. */
  lemma InsertedSessionIsActive(t: Table, row: SessionRow, closedAt: int)
    requires InsertSession(t, row, closedAt).Ok?
    ensures GetActiveSessionId(InsertSession(t, row, closedAt).value, false) == (if IsOpen(row) then Some(row.id) else None)
  {
    var u := InsertSession(t, row, closedAt).value;
    assert u[|t|] == row;
  }

  /** After a successful `create_session` of a session without an end, that
      session is the active one; with an end given, no session is active.
      `get_current_session` answers for the new table. */
  lemma CreatedSessionIsActive(t: Table, data: Json, parse: string -> Option<int>, repr: Json -> string,
                               syncedAt: int, closedAt: int)
    requires CreateSession(t, data, parse, repr, syncedAt, closedAt).Ok?
    ensures var row := RowFromRequest(data, parse, repr, syncedAt).value;
      var u := CreateSession(t, data, parse, repr, syncedAt, closedAt).value.0;
      GetActiveSessionId(u, false) == (if IsOpen(row) then Some(row.id) else None)
    ensures GetCurrentSession(CreateSession(t, data, parse, repr, syncedAt, closedAt).value.0, false).Ok?
  {
    var row := RowFromRequest(data, parse, repr, syncedAt).value;
    InsertedSessionIsActive(t, row, closedAt);
  }

  // ---------------------------------------------------------------------
  // get_sessions

  predicate SortedByStartDesc(s: Table) {
    forall i, j :: 0 <= i < j < |s| ==> s[i].start >= s[j].start
  }

  /** Place `row` into a list sorted newest first, after the rows that
      start at the same time or later. */
  function InsertByStart(row: SessionRow, s: Table): (r: Table)
    requires SortedByStartDesc(s)
    ensures SortedByStartDesc(r)
    ensures multiset(r) == multiset(s) + multiset{row}
    ensures |r| == |s| + 1
    ensures r[0] == row || (|s| > 0 && r[0] == s[0])
  {
    if |s| == 0 then [row]
    else if s[0].start < row.start then [row] + s
    else
      var rest := InsertByStart(row, s[1..]);
      assert s == [s[0]] + s[1..];
      [s[0]] + rest
  }

  /** `order_by(startTimestamp.desc())`. */
  function SortByStartDesc(t: Table): (r: Table)
    ensures SortedByStartDesc(r)
    ensures multiset(r) == multiset(t)
    ensures |r| == |t|
  {
    if |t| == 0 then []
    else
      var prefix := t[..|t| - 1];
      var last := t[|t| - 1];
      assert t == prefix + [last];
      assert multiset(t) == multiset(prefix) + multiset{last};
      InsertByStart(last, SortByStartDesc(prefix))
  }

  /** A listed session and its status. */
  datatype Listed = Listed(row: SessionRow, status: string)

  /** The listing of `get_sessions`: every session, newest start first,
      each "active" iff it has no end timestamp and "ended" otherwise. */
  function ListSessions(t: Table): (r: seq<Listed>)
    ensures |r| == |t|
    ensures forall i, j :: 0 <= i < j < |r| ==> r[i].row.start >= r[j].row.start
    ensures multiset(seq(|r|, i requires 0 <= i < |r| => r[i].row)) == multiset(t)
    ensures forall i :: 0 <= i < |r| ==> (r[i].status == "active" <==> IsOpen(r[i].row))
    ensures forall i :: 0 <= i < |r| ==> (r[i].status == "ended" <==> !IsOpen(r[i].row))
  {
    var sorted := SortByStartDesc(t);
    var r := seq(|sorted|, i requires 0 <= i < |sorted| => Listed(sorted[i], if IsOpen(sorted[i]) then "active" else "ended"));
    assert seq(|r|, i requires 0 <= i < |r| => r[i].row) == sorted;
    r
  }

  /** Some row's timestamps read back as strings. */
  predicate SomeStoredAsText(t: Table) {
    exists i :: 0 <= i < |t| && t[i].storedAsText
  }

  /** `get_sessions` as written: 500 when the query raises, and also when
      any row's start reads back as a string, whose `.isoformat()` raises
      AttributeError inside the `try`; otherwise 200 with the listing. */
  function GetSessions(t: Table, queryFails: bool): (r: Result<seq<Listed>>)
    ensures r.Err? <==> queryFails || SomeStoredAsText(t)
    ensures r.Ok? ==> r.value == ListSessions(t)
  {
    if queryFails || SomeStoredAsText(t) then Err("Failed to fetch sessions")
    else Ok(ListSessions(t))
  }

  /** As written, once `create_session` has stored a row, listing the
      sessions answers 500 whatever else the table holds. */
  lemma InsertedRowBreaksListing(t: Table, row: SessionRow, closedAt: int, queryFails: bool)
    requires row.storedAsText && InsertSession(t, row, closedAt).Ok?
    ensures GetSessions(InsertSession(t, row, closedAt).value, queryFails).Err?
  {
    var u := InsertSession(t, row, closedAt).value;
    assert u[|t|].storedAsText;
  }

  /** `get_sessions` as evidently intended: each timestamp read back
      whatever its stored form (as `get_current_session` does with
      `python_string_to_timestamp`), so only a failing query answers 500. */
  function GetSessionsIntended(t: Table, queryFails: bool): (r: Result<seq<Listed>>)
    ensures r.Err? <==> queryFails
    ensures r.Ok? ==> r.value == ListSessions(t)
  {
    if queryFails then Err("Failed to fetch sessions") else Ok(ListSessions(t))
  }

  /** With the intended listing, a freshly inserted session is listed with
      its status. */
  lemma InsertedSessionIsListed(t: Table, row: SessionRow, closedAt: int)
    requires InsertSession(t, row, closedAt).Ok?
    ensures var r := GetSessionsIntended(InsertSession(t, row, closedAt).value, false);
      r.Ok? && exists i :: 0 <= i < |r.value| && r.value[i] == Listed(row, if IsOpen(row) then "active" else "ended")
  {
    var u := InsertSession(t, row, closedAt).value;
    var listed := ListSessions(u);
    var rows := seq(|listed|, i requires 0 <= i < |listed| => listed[i].row);
    assert u[|t|] == row;
    assert row in multiset(u);
    assert row in multiset(rows);
    var i :| 0 <= i < |rows| && rows[i] == row;
    assert listed[i].row == row;
  }
}

=== FILE: text.dfy ===
/** String helpers with Python's meaning: `str.strip()`, `str.lower()`,
    `str.endswith`, the `in` substring test, `str.replace(a, b, 1)`, and the
    decimal conversions `str(int)` and `int(str)`. */
module Text {
  import opened Values

  /** Characters `str.strip()` removes (the ASCII part of Python's whitespace). */
  predicate IsSpace(c: char) {
    c == ' ' || c == '\t' || c == '\n' || c == '\r'
    || c == '\U{000B}' || c == '\U{000C}'
    || c == '\U{001C}' || c == '\U{001D}' || c == '\U{001E}' || c == '\U{001F}'
  }

  function LeadingSpaces(s: string): (n: nat)
    ensures n <= |s|
    ensures forall k :: 0 <= k < n ==> IsSpace(s[k])
    ensures n < |s| ==> !IsSpace(s[n])
  {
    if |s| > 0 && IsSpace(s[0]) then 1 + LeadingSpaces(s[1..]) else 0
  }

  function TrailingSpaces(s: string): (n: nat)
    ensures n <= |s|
    ensures forall k :: |s| - n <= k < |s| ==> IsSpace(s[k])
    ensures n < |s| ==> !IsSpace(s[|s| - n - 1])
  {
    if |s| > 0 && IsSpace(s[|s| - 1]) then 1 + TrailingSpaces(s[..|s| - 1]) else 0
  }

  /** `s.strip()`: the slice of `s` left after removing whitespace from both
      ends, starting at `LeadingSpaces(s)`; it neither starts nor ends with
      whitespace, and everything removed is whitespace. */
  function Strip(s: string): (r: string)
    ensures LeadingSpaces(s) + |r| <= |s|
    ensures r == s[LeadingSpaces(s)..LeadingSpaces(s) + |r|]
    ensures |r| > 0 ==> !IsSpace(r[0]) && !IsSpace(r[|r| - 1])
    ensures forall k :: LeadingSpaces(s) + |r| <= k < |s| ==> IsSpace(s[k])
  {
    var i := LeadingSpaces(s);
    var t := s[i..];
    var r := t[..|t| - TrailingSpaces(t)];
    assert r == s[i..i + |r|];
    r
  }

  lemma StripKeepsTrimmed(s: string)
    requires |s| > 0 ==> !IsSpace(s[0]) && !IsSpace(s[|s| - 1])
    ensures Strip(s) == s
  {
    if |s| > 0 {
      assert LeadingSpaces(s) == 0;
      assert TrailingSpaces(s) == 0;
    }
  }

  /** `c.lower()` on ASCII letters; every other character is unchanged. */
  function LowerChar(c: char): char {
    if 'A' <= c <= 'Z' then (c as int + 32) as char else c
  }

  /** `s.lower()` */
  function Lower(s: string): (r: string)
    ensures |r| == |s|
    ensures forall k :: 0 <= k < |s| ==> r[k] == LowerChar(s[k])
  {
    seq(|s|, k requires 0 <= k < |s| => LowerChar(s[k]))
  }

  predicate StartsWith(s: string, prefix: string) {
    |prefix| <= |s| && s[..|prefix|] == prefix
  }

  /** `s.endswith(suffix)` */
  predicate EndsWith(s: string, suffix: string) {
    |suffix| <= |s| && s[|s| - |suffix|..] == suffix
  }

  /** `sub in s`, the substring test. */
  predicate Contains(s: string, sub: string)
    decreases |s|
  {
    StartsWith(s, sub) || (|s| > 0 && Contains(s[1..], sub))
  }

  /** The position of the first occurrence of `c` in `s`, if any. */
  function IndexOf(s: string, c: char): (r: Option<nat>)
    ensures r.None? <==> c !in s
    ensures r.Some? ==> r.value < |s| && s[r.value] == c
    ensures r.Some? ==> forall k :: 0 <= k < r.value ==> s[k] != c
  {
    if |s| == 0 then None
    else if s[0] == c then Some(0)
    else match IndexOf(s[1..], c)
      case None => None
      case Some(i) => Some(i + 1)
  }

  /** The position of the last occurrence of `c` in `s`, if any. */
  function LastIndexOf(s: string, c: char): (r: Option<nat>)
    ensures r.None? <==> c !in s
    ensures r.Some? ==> r.value < |s| && s[r.value] == c
    ensures r.Some? ==> forall k :: r.value < k < |s| ==> s[k] != c
  {
    if |s| == 0 then None
    else if s[|s| - 1] == c then Some(|s| - 1)
    else LastIndexOf(s[..|s| - 1], c)
  }

  /** `s.replace(a, b, 1)`: only the first occurrence of `a` becomes `b`. */
  function ReplaceFirst(s: string, a: char, b: char): (r: string)
    ensures |r| == |s|
    ensures a !in s ==> r == s
    ensures IndexOf(s, a).Some? ==>
      var i := IndexOf(s, a).value;
      r[i] == b && forall k :: 0 <= k < |s| && k != i ==> r[k] == s[k]
  {
    match IndexOf(s, a)
    case None => s
    case Some(i) => s[..i] + [b] + s[i + 1..]
  }

  /** Number of occurrences of `c` in `s`. */
  function Count(s: string, c: char): nat {
    if |s| == 0 then 0 else (if s[|s| - 1] == c then 1 else 0) + Count(s[..|s| - 1], c)
  }

  lemma {:induction false} CountAppend(a: string, b: string, c: char)
    ensures Count(a + b, c) == Count(a, c) + Count(b, c)
    decreases |b|
  {
    if |b| == 0 {
      assert a + b == a;
    } else {
      assert (a + b)[..|a + b| - 1] == a + b[..|b| - 1];
      CountAppend(a, b[..|b| - 1], c);
    }
  }

  lemma {:induction false} CountAbsent(s: string, c: char)
    requires c !in s
    ensures Count(s, c) == 0
    decreases |s|
  {
    if |s| > 0 {
      CountAbsent(s[..|s| - 1], c);
    }
  }

  /** Replacing the first occurrence removes exactly one occurrence. */
  lemma ReplaceFirstCount(s: string, a: char, b: char)
    requires a != b
    ensures a in s ==> Count(ReplaceFirst(s, a, b), a) == Count(s, a) - 1
    ensures a !in s ==> Count(ReplaceFirst(s, a, b), a) == Count(s, a)
  {
    if a in s {
      var i := IndexOf(s, a).value;
      assert s == s[..i] + [a] + s[i + 1..];
      CountAppend(s[..i] + [a], s[i + 1..], a);
      CountAppend(s[..i], [a], a);
      CountAppend(s[..i] + [b], s[i + 1..], a);
      CountAppend(s[..i], [b], a);
      assert Count([a], a) == 1 by { assert [a][..0] == []; }
      assert Count([b], a) == 0 by { assert [b][..0] == []; }
    }
  }

  // ---------------------------------------------------------------------
  // Decimal integers: `str(i)` and `int(s)`

  predicate IsDigit(c: char) {
    '0' <= c <= '9'
  }

  predicate AllDigits(s: string) {
    forall k :: 0 <= k < |s| ==> IsDigit(s[k])
  }

  function DigitChar(d: nat): (c: char)
    requires d < 10
    ensures IsDigit(c)
  {
    ('0' as int + d) as char
  }

  function DigitValue(c: char): (d: nat)
    requires IsDigit(c)
    ensures d < 10
  {
    c as int - '0' as int
  }

  /** `str(n)` for a natural number: its decimal digits, no leading zeros. */
  function NatToDecimal(n: nat): (s: string)
    ensures |s| > 0 && AllDigits(s)
    ensures n > 0 ==> s[0] != '0'
  {
    if n < 10 then [DigitChar(n)] else NatToDecimal(n / 10) + [DigitChar(n % 10)]
  }

  /** The value of a string of decimal digits, leading zeros allowed. */
  function DigitsValue(s: string): nat
    requires AllDigits(s)
  {
    if |s| == 0 then 0 else DigitsValue(s[..|s| - 1]) * 10 + DigitValue(s[|s| - 1])
  }

  /** `str(i)` for an integer. */
  function IntToDecimal(i: int): string {
    if i < 0 then "-" + NatToDecimal(-i) else NatToDecimal(i)
  }

  /** `int(s)` on a string: surrounding whitespace, one optional sign, then
      one or more ASCII digits. None stands for the ValueError Python raises. */
  function ParseInt(s: string): Option<int> {
    ParseTrimmed(Strip(s))
  }

  /** `int` on text with the whitespace already stripped. */
  function ParseTrimmed(t: string): Option<int> {
    if |t| > 1 && (t[0] == '-' || t[0] == '+') && AllDigits(t[1..]) then
      var magnitude: int := DigitsValue(t[1..]);
      Some(if t[0] == '-' then -magnitude else magnitude)
    else if |t| > 0 && AllDigits(t) then
      Some(DigitsValue(t))
    else
      None
  }

  lemma {:induction false} DigitsRoundTrip(n: nat)
    ensures DigitsValue(NatToDecimal(n)) == n
  {
    if n >= 10 {
      var s := NatToDecimal(n);
      assert s[..|s| - 1] == NatToDecimal(n / 10);
      DigitsRoundTrip(n / 10);
    }
  }

  /** A minus sign followed by digits is already stripped. */
  lemma SignedDigitsAreTrimmed(d: string)
    requires |d| > 0 && AllDigits(d)
    ensures Strip("-" + d) == "-" + d
  {
    var s := "-" + d;
    assert s[|s| - 1] == d[|d| - 1];
    StripKeepsTrimmed(s);
  }

  /** A minus sign followed by digits reads as the negated digits. */
  lemma ParseSignedDigits(d: string)
    requires |d| > 0 && AllDigits(d)
    ensures ParseTrimmed("-" + d) == Some(-(DigitsValue(d) as int))
  {
    assert ("-" + d)[1..] == d;
  }

  /** Reading back a written negative integer. */
  lemma ParseNegative(i: int)
    requires i < 0
    ensures ParseInt(IntToDecimal(i)) == Some(i)
  {
    var n: nat := -i;
    var d := NatToDecimal(n);
    DigitsRoundTrip(n);
    SignedDigitsAreTrimmed(d);
    ParseSignedDigits(d);
  }

  /** Reading back a written natural number. */
  lemma ParseNatural(i: int)
    requires i >= 0
    ensures ParseInt(IntToDecimal(i)) == Some(i)
  {
    var s := NatToDecimal(i);
    assert IntToDecimal(i) == s;
    StripKeepsTrimmed(s);
    DigitsRoundTrip(i);
    assert ParseTrimmed(s) == Some(i);
  }

  /** `int(str(i)) == i`: reading back a written integer gives the integer. */
  lemma ParseIntRoundTrip(i: int)
    ensures ParseInt(IntToDecimal(i)) == Some(i)
  {
    if i < 0 {
      ParseNegative(i);
    } else {
      ParseNatural(i);
    }
  }

  /** Distinct integers are written as distinct strings. */
  lemma IntToDecimalInjective(i: int, j: int)
    requires IntToDecimal(i) == IntToDecimal(j)
    ensures i == j
  {
    ParseIntRoundTrip(i);
    ParseIntRoundTrip(j);
  }

  /** `str(j)` for a decoded JSON value: a string is itself, an integer its
      decimal text (which `int()` reads back), a boolean `True` or `False`,
      null `None`; `repr` renders arrays and objects as Python would. */
  function PyStr(j: Json, repr: Json -> string): (r: string)
    ensures j.JStr? ==> r == j.s
    ensures j.JNum? ==> r == IntToDecimal(j.n) && ParseInt(r) == Some(j.n)
    ensures j.JBool? ==> r == (if j.b then "True" else "False")
    ensures j.JNull? ==> r == "None"
  {
    match j
    case JStr(s) => s
    case JNum(n) => ParseIntRoundTrip(n); IntToDecimal(n)
    case JBool(b) => if b then "True" else "False"
    case JNull => "None"
    case _ => repr(j)
  }
}

=== FILE: timestamps.dfy ===
/** The timestamp helpers of src/utils.py. Parsing with
    `datetime.fromisoformat` and the conversion to Asia/Kolkata are not part
    of this model; what is modelled is the text handed to the parser and the
    millisecond truncation of the current time. */
module Timestamps {
  import opened Values
  import opened Text

  /** `ist_timestamp`: the microsecond field of the current time truncated to
      whole milliseconds. The result is the greatest multiple of 1000 that is
      not above the input. */
  function TruncateToMillis(micros: nat): (r: nat)
    requires micros < 1000000
    ensures r % 1000 == 0
    ensures r <= micros < r + 1000
    ensures r < 1000000
  {
    (micros / 1000) * 1000
  }

  /** Step 2 of the normalisation: the first space becomes 'T'. */
  function SpaceToT(s: string): (r: string)
    ensures |r| == |s|
    ensures ' ' !in s ==> r == s
    ensures IndexOf(s, ' ').Some? ==>
      var i := IndexOf(s, ' ').value;
      r[i] == 'T' && (forall k :: 0 <= k < i ==> r[k] == s[k] && r[k] != ' ')
      && (forall k :: i < k < |s| ==> r[k] == s[k])
  {
    ReplaceFirst(s, ' ', 'T')
  }

  /** Step 3 of the normalisation: a trailing "Z" becomes "+00:00"; every
      other character is kept in place. */
  function ZuluToOffset(s: string): (r: string)
    ensures EndsWith(s, "Z") ==>
      |r| == |s| + 5 && r[..|s| - 1] == s[..|s| - 1] && r[|s| - 1..] == "+00:00"
    ensures !EndsWith(s, "Z") ==> r == s
  {
    if EndsWith(s, "Z") then s[..|s| - 1] + "+00:00" else s
  }

  /** The text `string_to_timestamp` hands to `datetime.fromisoformat` for a
      non-empty input: stripped, first space turned into 'T', trailing "Z"
      turned into "+00:00". */
  function Normalize(s: string): string {
    ZuluToOffset(SpaceToT(Strip(s)))
  }

  /** `string_to_timestamp`: None for None and for "", otherwise the
      normalised text that is parsed. */
  function StringToTimestamp(s: Option<string>): (r: Option<string>)
    ensures r.None? <==> s.None? || s.value == ""
    ensures r.Some? ==> r.value == Normalize(s.value)
  {
    if s.None? || s.value == "" then None else Some(Normalize(s.value))
  }

  /** `python_string_to_timestamp`: None for None and for "", otherwise the
      input itself is parsed, with no normalisation. */
  function PythonStringToTimestamp(s: Option<string>): (r: Option<string>)
    ensures r.None? <==> s.None? || s.value == ""
    ensures r.Some? ==> r.value == s.value
  {
    if s.None? || s.value == "" then None else s
  }

  /** Normalisation removes exactly one space (the first) from the stripped
      text when it has one, and none otherwise. */
  lemma NormalizeRemovesOneSpace(s: string)
    ensures var t := Strip(s);
      Count(Normalize(s), ' ') == if ' ' in t then Count(t, ' ') - 1 else 0
  {
    var t := Strip(s);
    var u := SpaceToT(t);
    ReplaceFirstCount(t, ' ', 'T');
    if ' ' !in t {
      CountAbsent(t, ' ');
    }
    if EndsWith(u, "Z") {
      var head := u[..|u| - 1];
      assert u == head + "Z";
      CountAppend(head, "Z", ' ');
      CountAppend(head, "+00:00", ' ');
      CountAbsent("Z", ' ');
      CountAbsent("+00:00", ' ');
    }
  }

  /** Text already in ISO form (no surrounding whitespace, no space, no
      trailing "Z") is passed to the parser unchanged. */
  lemma NormalizeKeepsIsoText(s: string)
    requires |s| > 0 ==> !IsSpace(s[0]) && !IsSpace(s[|s| - 1])
    requires ' ' !in s
    requires !EndsWith(s, "Z")
    ensures Normalize(s) == s
  {
    StripKeepsTrimmed(s);
  }

  /** `string_to_timestamp` applied to a JSON value: Ok(None) for null and
      "", `parse` of the normalised text otherwise; Err when the value is not
      a string (`.strip` raises) or `parse` rejects the text (the ValueError
      of `datetime.fromisoformat`). */
  function ConvertTimestamp<T>(j: Json, parse: string -> Option<T>): (r: Result<Option<T>>)
    ensures j.JNull? ==> r == Ok(None)
    ensures j.JStr? && j.s == "" ==> r == Ok(None)
    ensures j.JStr? && j.s != "" ==> (r.Ok? <==> parse(Normalize(j.s)).Some?)
    ensures j.JStr? && j.s != "" && r.Ok? ==> r.value == parse(Normalize(j.s))
    ensures !j.JNull? && !j.JStr? ==> r.Err?
  {
    match j
    case JNull => Ok(None)
    case JStr(s) =>
      (match StringToTimestamp(Some(s))
       case None => Ok(None)
       case Some(text) => if parse(text).Some? then Ok(parse(text)) else Err("invalid isoformat string"))
    case _ => Err("object has no attribute 'strip'")
  }
}

=== FILE: ui_app.dfy ===
/** The decisions of the kiosk window in src/ui/app.py: how a server
    message is shown, the gating of camera, recogniser and table timer on
    the session state, the per-room counts with the optimistic overlay, and
    how the current session id is derived from the session endpoint. Widgets,
    the camera and the database queries are outside the model; their
    results are parameters. */
module UiApp {
  import opened Values
  import opened Text
  import AttendanceTracker
  import ApiServer
  import Sessions

  // ---------------------------------------------------------------------
  // handle_server_message

  /** What the message pane shows for a server message. */
  datatype Shown = EnrollmentCompleted(name: Json) | AttendanceMarked(name: Json) | ServerPayload(payload: Json)

  /** `handle_server_message`: the line shown and whether the room table is
      refreshed. A payload that is not an object makes `.get` raise. */
  function HandleServerMessage(payload: Json): (r: Result<(Shown, bool)>)
    ensures r.Err? <==> !payload.JObj?
    ensures r.Ok? ==> (r.value.1 <==> Get(payload.fields, "type") == JStr("attendance"))
    ensures r.Ok? && Get(payload.fields, "type") == JStr("enrollment") ==>
      r.value.0 == EnrollmentCompleted(Or(Get(payload.fields, "name"), Get(payload.fields, "personId")))
    ensures r.Ok? && Get(payload.fields, "type") == JStr("attendance") ==>
      r.value.0 == AttendanceMarked(Or(Get(payload.fields, "name"), Get(payload.fields, "personId")))
    ensures r.Ok? && Get(payload.fields, "type") !in [JStr("enrollment"), JStr("attendance")] ==>
      r.value.0 == ServerPayload(payload)
  {
    if !payload.JObj? then Err("object has no attribute 'get'")
    else
      var f := payload.fields;
      var name := Or(Get(f, "name"), Get(f, "personId"));
      if Get(f, "type") == JStr("enrollment") then Ok((EnrollmentCompleted(name), false))
      else if Get(f, "type") == JStr("attendance") then Ok((AttendanceMarked(name), true))
      else Ok((ServerPayload(payload), false))
  }

  /** The attendance event broadcast by the server is shown with the
      person's name when one is known and non-empty, with the person id
      otherwise, and it refreshes the room table. */
  lemma AttendanceEventShown(personId: Json, person: ApiServer.PersonLookup, syncedAt: Option<string>)
    ensures var shown := if person.PersonNamed? && Truthy(person.name) then person.name else personId;
      HandleServerMessage(ApiServer.AttendanceMessage(personId, person, syncedAt)) == Ok((AttendanceMarked(shown), true))
  {
    var m := ApiServer.AttendanceMessage(personId, person, syncedAt);
    assert Get(m.fields, "type") == JStr("attendance");
  }

  /** The enrolment event broadcast by the server is shown with the
      preferred name, falling back to the person id, and does not refresh. */
  lemma EnrollmentEventShown(f: map<string, Json>)
    ensures HandleServerMessage(ApiServer.EnrollmentMessage(f))
      == Ok((EnrollmentCompleted(Or(Get(f, "preferredName"), Get(f, "personId"))), false))
  {
    var m := ApiServer.EnrollmentMessage(f);
    assert Get(m.fields, "type") == JStr("enrollment");
  }

  // ---------------------------------------------------------------------
  // _set_active_ui

  /** The window state the gating touches: the session flag, whether a
      camera is open, the recogniser (with its attendance tracker), whether
      the frame timer exists, whether the table timer runs, the optimistic
      per-room overlay, and the known session id. */
  datatype UiState = UiState(
    active: bool,
    camera: bool,
    recognizer: Option<AttendanceTracker.Tracker>,
    videoTimer: bool,
    tableTimer: bool,
    overlay: map<string, int>,
    sessionId: Option<string>)

  /** The window as constructed. */
  const Initial := UiState(false, false, None, false, false, map[], None)

  /** `_set_active_ui(active)`. `cameraOk` is whether
      `setup_camera_pipeline` finds a working camera; it then creates a
      fresh recogniser told the known session id, and starts the frame
      timer. */
  function SetActiveUi(u: UiState, active: bool, cameraOk: bool): (r: UiState)
    ensures active == u.active ==> r == u
    ensures r.active == active && r.sessionId == u.sessionId
    ensures active != u.active ==> r.overlay == map[]
    ensures active != u.active && !active ==> !r.camera && r.recognizer.None? && !r.tableTimer
    ensures active != u.active && active ==> r.tableTimer
    ensures active != u.active && active && !u.camera && cameraOk ==> (r.camera
      && r.recognizer == Some(AttendanceTracker.SetCurrentSession(AttendanceTracker.Fresh, u.sessionId)))
  {
    if active == u.active then u
    else if active then
      var setup := !u.camera || !u.videoTimer;
      var camera := if setup then u.camera || cameraOk else u.camera;
      var started := setup && camera;
      u.(active := true,
         camera := camera,
         recognizer := if started then Some(AttendanceTracker.SetCurrentSession(AttendanceTracker.Fresh, u.sessionId)) else u.recognizer,
         videoTimer := if started then true else u.videoTimer,
         tableTimer := true,
         overlay := map[])
    else
      u.(active := false, camera := false, recognizer := None, tableTimer := false, overlay := map[])
  }

  /** Requesting the state just reached changes nothing. */
  lemma SetActiveUiIdempotent(u: UiState, active: bool, c1: bool, c2: bool)
    ensures SetActiveUi(SetActiveUi(u, active, c1), active, c2) == SetActiveUi(u, active, c1)
  {
  }

  /** The coherence the window keeps: while inactive no camera or
      recogniser exists, and a recogniser always follows the known session
      id. */
  predicate Coherent(u: UiState) {
    (!u.active ==> !u.camera && u.recognizer.None?)
    && (u.recognizer.Some? ==> u.recognizer.value.current == u.sessionId)
  }

  lemma InitialIsCoherent()
    ensures Coherent(Initial)
  {
  }

  // ---------------------------------------------------------------------
  // query_current_session

  /** The answer of GET /session/current: a status and a decoded body, or
      a raised request (also standing for a body that fails to decode). */
  datatype SessionReply = SessionReply(status: int, body: Json) | Unreachable

  /** Whether the reply announces an active session: status 200, an
      object body with truthy `active` and a truthy object `session`. */
  predicate ReportsActive(reply: SessionReply) {
    reply.SessionReply? && reply.status == 200 && reply.body.JObj?
    && Truthy(Get(reply.body.fields, "active")) && Get(reply.body.fields, "session").JObj?
    && Truthy(Get(reply.body.fields, "session"))
  }

  /** The session id taken from an active reply: `str(id)`, or None for a
      missing or null id. */
  function ReplySessionId(reply: SessionReply, repr: Json -> string): (r: Option<string>)
    requires ReportsActive(reply)
    ensures r.None? <==> Get(Get(reply.body.fields, "session").fields, "id") == JNull
    ensures r.Some? ==> r.value == PyStr(Get(Get(reply.body.fields, "session").fields, "id"), repr)
  {
    var sid := Get(Get(reply.body.fields, "session").fields, "id");
    if sid == JNull then None else Some(PyStr(sid, repr))
  }

  /** `query_current_session`: derive the session state from the reply,
      tell the recogniser the session id, and gate the UI. A non-200 reply
      deactivates but keeps the known id; an unreachable server, a body
      that is not an object, or a truthy non-object session (whose `.get`
      raises) deactivate and forget it. */
  function QueryCurrentSession(u: UiState, reply: SessionReply, repr: Json -> string, cameraOk: bool): (r: UiState)
    ensures r.active <==> ReportsActive(reply)
    ensures r.active ==> r.sessionId == ReplySessionId(reply, repr)
    ensures reply.Unreachable? ==> r.sessionId.None?
    ensures reply.SessionReply? && reply.status != 200 ==> r.sessionId == u.sessionId
    ensures r.sessionId.Some? && reply.SessionReply? && reply.status == 200 ==> r.active
    ensures Coherent(u) ==> Coherent(r)
  {
    match reply
    case Unreachable => SetActiveUi(u, false, cameraOk).(sessionId := None)
    case SessionReply(status, body) =>
      if status != 200 then SetActiveUi(u, false, cameraOk)
      else if !body.JObj? then SetActiveUi(u, false, cameraOk).(sessionId := None)
      else
        var f := body.fields;
        var active := Truthy(Get(f, "active")) && Truthy(Get(f, "session"));
        if active && !Get(f, "session").JObj? then SetActiveUi(u, false, cameraOk).(sessionId := None)
        else
          var id := if active then ReplySessionId(reply, repr) else None;
          var told := u.(sessionId := id,
                         recognizer := if u.recognizer.Some? then Some(AttendanceTracker.SetCurrentSession(u.recognizer.value, id)) else None);
          SetActiveUi(told, active, cameraOk)
  }

  /** The reply the window receives from `get_current_session` for the
      session table: 200 with its body, or 500 with the error body. */
  function CurrentReply(t: Sessions.Table, queryFails: bool, iso: int -> string): SessionReply {
    match Sessions.GetCurrentSession(t, queryFails)
    case Ok(c) => SessionReply(200, Sessions.CurrentBody(c, iso))
    case Err(e) => SessionReply(500, JObj(map["error" := JStr(e)]))
  }

  /** Polling the server leaves the window holding exactly the session id
      the server considers active whenever the server answers 200; on a 500
      the window keeps the id it had. */
  lemma PollFollowsServer(u: UiState, t: Sessions.Table, queryFails: bool, iso: int -> string,
                          repr: Json -> string, cameraOk: bool)
    ensures var reply := CurrentReply(t, queryFails, iso);
      reply.status == 200 ==> QueryCurrentSession(u, reply, repr, cameraOk).sessionId == Sessions.GetActiveSessionId(t, false)
    ensures var reply := CurrentReply(t, queryFails, iso);
      reply.status != 200 ==> QueryCurrentSession(u, reply, repr, cameraOk).sessionId == u.sessionId
  {
    var reply := CurrentReply(t, queryFails, iso);
    match Sessions.GetCurrentSession(t, queryFails)
    case Ok(c) =>
      if c.session.Some? {
        var s := Get(reply.body.fields, "session");
        assert "id" in s.fields;
        assert Truthy(s);
        assert ReportsActive(reply);
      } else {
        assert !ReportsActive(reply);
      }
    case Err(_) =>
  }

  // ---------------------------------------------------------------------
  // Room counts

  /** One row of the room table: the room's label and its three counts. */
  datatype RoomRow = RoomRow(caption: string, total: int, present: int, absent: int)

  /** `d.get(key, 0)` on a count map. */
  function CountIn(m: map<string, int>, key: string): int {
    if key in m then m[key] else 0
  }

  /** The counts of one room in `refresh_room_table`: present is the
      distinct attendees recorded for the session plus the optimistic
      overlay; absent is what remains of the total, never below zero. The
      label is the room name, or the id when the name is empty. */
  function RoomCounts(roomId: string, roomName: string, totals: map<string, int>, present: map<string, int>,
                      overlay: map<string, int>): (r: RoomRow)
    ensures r.total == CountIn(totals, roomId)
    ensures r.present == CountIn(present, roomId) + CountIn(overlay, roomId)
    ensures r.absent >= 0
    ensures r.absent == 0 <==> r.present >= r.total
    ensures r.absent > 0 ==> r.present + r.absent == r.total
    ensures r.caption == (if roomName != "" then roomName else roomId)
  {
    var total := CountIn(totals, roomId);
    var p := CountIn(present, roomId) + CountIn(overlay, roomId);
    RoomRow(if roomName != "" then roomName else roomId, total, p, if total - p > 0 then total - p else 0)
  }

  // ---------------------------------------------------------------------
  // _on_first_attendance_local

  /** `_on_first_attendance_local`: `room` is the person's room id as
      stored (None when the person is unknown, has no room, or the lookup
      raises). A real room's overlay count goes up by one. */
  function OnFirstAttendanceLocal(overlay: map<string, int>, room: Option<string>): (r: map<string, int>)
    ensures room.None? || room.value == "" ==> r == overlay
    ensures room.Some? && room.value != "" ==>
      (room.value in r && r[room.value] == CountIn(overlay, room.value) + 1)
    ensures forall k :: k in overlay ==> k in r
    ensures forall k :: k in r && (room.None? || k != room.value) ==> k in overlay && r[k] == overlay[k]
  {
    if room.None? || room.value == "" then overlay
    else overlay[room.value := CountIn(overlay, room.value) + 1]
  }

  /** After a first attendance, that room shows one more present and at
      most one fewer absent, and every other room's row is unchanged. */
  lemma FirstAttendanceBumpsOneRow(overlay: map<string, int>, room: string, other: string, name: string,
                                   totals: map<string, int>, present: map<string, int>)
    requires room != ""
    ensures var before := RoomCounts(room, name, totals, present, overlay);
      var after := RoomCounts(room, name, totals, present, OnFirstAttendanceLocal(overlay, Some(room)));
      after.present == before.present + 1 && before.absent - 1 <= after.absent <= before.absent
    ensures other != room ==>
      RoomCounts(other, name, totals, present, OnFirstAttendanceLocal(overlay, Some(room)))
      == RoomCounts(other, name, totals, present, overlay)
  {
    assert CountIn(OnFirstAttendanceLocal(overlay, Some(room)), other) == CountIn(overlay, other) || other == room;
  }
}

=== FILE: values.dfy ===
/** Values shared by every component: an optional value, and the JSON values
    that travel over the IPC socket, arrive in HTTP request bodies and sit in
    the people files, together with Python's truthiness rules for them. */
module Values {

  /** Python's `None` or a present value. */
  datatype Option<+T> = None | Some(value: T)

  /** A returned value, or the exception raised instead (its message). */
  datatype Result<+T> = Ok(value: T) | Err(error: string)

  /** A JSON value as Python's json module hands it to the program.
      Numbers are modelled as integers. */
  datatype Json =
    | JNull
    | JBool(b: bool)
    | JNum(n: int)
    | JStr(s: string)
    | JArr(items: seq<Json>)
    | JObj(fields: map<string, Json>)

  /** Python truthiness: None, False, 0, "", [] and {} are false. */
  predicate Truthy(j: Json) {
    match j
    case JNull => false
    case JBool(b) => b
    case JNum(n) => n != 0
    case JStr(s) => |s| > 0
    case JArr(items) => |items| > 0
    case JObj(fields) => |fields| > 0
  }

  /** The integer a boolean or a number stands for in arithmetic and
      comparison: Python's `True == 1` and `False == 0`. */
  function AsNumber(j: Json): int
    requires j.JBool? || j.JNum?
  {
    if j.JBool? then (if j.b then 1 else 0) else j.n
  }

  /** Python's `a == b` on values decoded from JSON: booleans compare as the
      integers 1 and 0, strings by content, lists elementwise and dicts by
      their keys and the values under them; values of other kinds differ. */
  predicate PyEq(a: Json, b: Json) {
    match a
    case JNull => b.JNull?
    case JBool(_) => (b.JBool? || b.JNum?) && AsNumber(a) == AsNumber(b)
    case JNum(_) => (b.JBool? || b.JNum?) && AsNumber(a) == AsNumber(b)
    case JStr(s) => b.JStr? && b.s == s
    case JArr(xs) => b.JArr? && |xs| == |b.items| && forall i :: 0 <= i < |xs| ==> PyEq(xs[i], b.items[i])
    case JObj(f) => b.JObj? && f.Keys == b.fields.Keys && forall k :: k in f ==> PyEq(f[k], b.fields[k])
  }

  /** Equality does not depend on the order of its operands. */
  lemma {:induction false} PyEqSymmetric(a: Json, b: Json)
    ensures PyEq(a, b) <==> PyEq(b, a)
  {
    match a
    case JArr(xs) =>
      if b.JArr? && |xs| == |b.items| {
        forall i | 0 <= i < |xs| ensures PyEq(xs[i], b.items[i]) <==> PyEq(b.items[i], xs[i]) {
          PyEqSymmetric(xs[i], b.items[i]);
        }
      }
    case JObj(f) =>
      if b.JObj? && f.Keys == b.fields.Keys {
        forall k | k in f ensures PyEq(f[k], b.fields[k]) <==> PyEq(b.fields[k], f[k]) {
          PyEqSymmetric(f[k], b.fields[k]);
        }
      }
    case _ =>
  }

  /** `d.get(key)` on a dict: the stored value, or None when the key is absent. */
  function Get(fields: map<string, Json>, key: string): Json {
    if key in fields then fields[key] else JNull
  }

  /** Python's `a or b`: the first operand when it is truthy, else the second. */
  function Or(a: Json, b: Json): Json {
    if Truthy(a) then a else b
  }

  /** Python's `x or {}` on a request body that may be missing. */
  function OrEmptyObject(body: Option<Json>): Json {
    if body.Some? && Truthy(body.value) then body.value else JObj(map[])
  }
}
